=== FILE: README.md ===
# Trading journal analytics in Dafny

This project models the analytics and gamification layer of a trading-journal web
app. The layer consists of the pure computations that sit inside the app's pages
and components and turn a user's trade log and psychology journal into figures:

- the equity curve and drawdown of the journal report and the dashboard;
- the performance statistics and the P/L grouped by asset, setup and weekday;
- the weekly discipline score and its tier;
- the achievement series;
- the calendar month grid with its weeks, statistics and compliance marks;
- the psychology journal's save guard, tag toggle, filter and statistics;
- the record store's upsert and delete by id, and its split between local storage and the anonymous session;
- the trade form's sign encoding and the row selection;
- the motivational coach, the psychology coach and the daily checklist.

Every record is an immutable datatype (`Records`). Every computation is a pure
function, or a short method where the page runs a loop whose invariant is the point
(the calendar grid, the week split, the dominant emotion).

Modelling choices:

- Money, ratios and percentages are `real`.
- A JavaScript division by zero, which yields NaN or an infinity, is an `Option` whose `None` stands for that value.
- Dates are the `YYYY-MM-DD` strings the app stores, that is the complete extended calendar-date form of section 4.1.2.2 of ISO 8601:2004. `Dates.ParseDate` reads them on the proleptic Gregorian calendar.
- `now`, `today`, the hour of day, the weekday of a trade and fresh ids are parameters.
- The fields the pages read but `types.ts` does not declare are optional fields of the records: `stopLoss`, `autoFlags`, `marketSession`, `description` and `streakCount`.

Modules follow the source:

| module | file | models |
|---|---|---|
| `Common` | common.dfy | counting, filtering and summing over sequences |
| `Dates` | dates.dfy | Gregorian calendar, date keys, parsing |
| `Records` | records.dfy | `types.ts` |
| `Sorting` | sorting.dfy | the date sorts, as a stable insertion sort |
| `Equity` | equity.dfy | `JournalReport.tsx` and the dashboard's `analytics` |
| `DashboardPage` | dashboard.dfy | the rest of `Dashboard.tsx` |
| `Performance` | performance.dfy | `Performance.tsx` |
| `Discipline` | discipline.dfy | `DisciplineRanking.tsx` |
| `Achievements` | achievements.dfy | `Achievements.tsx` |
| `Calendar` | calendar.dfy | `Calendar.tsx` |
| `Psychology` | psychology.dfy | `Psychology.tsx` |
| `Store` | store.dfy | `db.ts` |
| `TradeForm` | tradeform.dfy | `Trades.tsx` |
| `Selection` | selection.dfy | the row selection of `Trades.tsx` and `Psychology.tsx` |
| `Coach` | coach.dfy | `MotivationalCoach.tsx` |
| `PsychCoach` | psychcoach.dfy | `PsychCoach.tsx` |
| `Checklist` | checklist.dfy | `DailyChecklist.tsx` |

## Behaviour the model keeps

Several of the code's behaviours differ from the obvious reading. The model follows the code, and the contracts and lemmas below state these behaviours:

- A loss is a trade with P/L strictly below 0, so a break-even trade is neither a win nor a loss.
  - As a result, the performance page's expectancy equals the mean P/L only when no trade breaks even (`Performance.ExpectancyIsMeanPL`).
  - One break-even trade moves it away from the mean (`Performance.BreakEvenShiftsExpectancy`).
- Rule adherence for an empty trade list is 0 on the performance page and 100 on the report, the dashboard and the ranking page.
- The report's drawdown percentage divides the largest drawdown by the final overall peak, not by the peak the drawdown was measured from (`Equity.ThreeTradeExample`).
- The drawdown percentage stays below 100 only while the equity never drops to 0 or below. A single loss larger than the balance gives 200% (`Equity.DrawdownPastWholeBalance`).
- The dashboard's win rate and discipline are computed over the unsorted list. Both are order-independent, so they agree with the report (`Equity.ReportAndDashboardAgree`).
- Asset groups are keyed by the asset string exactly as stored.
- Setup groups pool trades without a setup with any trade whose setup is literally "Unknown" (`Performance.UnknownSetupGroup`).
- The "Flawless Days" series is advertised as trades in a row without a violation, but it is measured against the total count of rule-following trades, the same figure as "Code Keeper" (`Achievements.ZeroFailCountsAllFollowed`).
- The psychology journal's "select all" guard also requires a non-empty list. On an empty list both branches give the empty set, so it behaves like the trade log's (`Selection.SelectAllListed`).

## Model

| member | source | states |
|---|---|---|
| Equity.InitialBalance | pages/JournalReport.tsx:18 | the starting balance is used when it is set and non-zero; an absent or zero balance falls back to 10000; the result is never 0 |
| Equity.PeakUpTo | pages/JournalReport.tsx:20-27 | the running peak after step i is at least every curve point up to i and equals one of them |
| Equity.LargestDrawdown | pages/JournalReport.tsx:27-29 | the largest drop below the running peak among points 0..i is at least every such drop and equals one of them |
| Equity.Run | pages/JournalReport.tsx:19-30 | the curve has one point more than there are trades, and point i is the start plus the P/L of the first i trades |
| Equity.CurveSteps | pages/JournalReport.tsx:24-26 | the curve starts at the starting balance, consecutive points differ by exactly one trade's P/L, and the final equity is the start plus the total P/L |
| Equity.StepTracks | pages/JournalReport.tsx:27-29 | one loop step keeps the peak equal to the running maximum and the max drawdown equal to the largest drop below it |
| Equity.RunTracks | pages/JournalReport.tsx:24-30 | after the whole loop, the peak is the curve's maximum and the max drawdown the largest peak-minus-equity gap |
| Equity.TracksLargest | pages/JournalReport.tsx:27-29 | the peak and drawdown the loop keeps are exactly the curve's overall peak and its largest drawdown |
| Equity.ExtendDrawdowns | pages/JournalReport.tsx:27-28 | appending a curve point keeps every earlier drawdown and adds one measured against the new running peak |
| Equity.MaxDrawdownZeroIff | pages/JournalReport.tsx:21-29 | the max drawdown is 0 exactly when the curve never decreases, which is exactly when no trade lost money |
| Equity.ZeroDrawdownIff | pages/JournalReport.tsx:27-29 | for tracked loop state, a zero max drawdown is equivalent to a never-decreasing curve |
| Equity.NeverDecreasesIffNoLoss | pages/JournalReport.tsx:25 | a curve built from P/L steps never decreases iff every step is non-negative |
| Equity.PeakOfNonDecreasing | pages/JournalReport.tsx:27 | on a never-decreasing curve the running peak is the current point |
| Equity.PeakUpToMono | pages/JournalReport.tsx:27 | the running peak never falls as the loop proceeds |
| Equity.Pct | pages/JournalReport.tsx:35 | `(num / den) * 100` is a number exactly when the denominator is non-zero, and then it is the percentage of num in den |
| Equity.PctRange | pages/JournalReport.tsx:35 | over a positive base a percentage is non-negative for a non-negative part, below 100 for a smaller part, and 0 exactly for a zero part |
| Equity.TrackedBounds | pages/JournalReport.tsx:20-29 | with a positive start the peak is positive and the max drawdown non-negative; while every point is positive the drawdown stays below the peak |
| Equity.DrawdownPctBounds | pages/JournalReport.tsx:35 | the drawdown percentage is defined and non-negative for a positive start, and below 100 while every curve point is positive |
| Equity.SortedRun | pages/JournalReport.tsx:14-30 | the walk over the date-sorted trades starts at the balance, ends at the balance plus the total P/L, and tracks its peak and drawdown |
| Equity.SortedRunFacts | pages/Dashboard.tsx:39-53 | sorting before the loop changes neither the curve length, the final equity nor the tracking invariant |
| Equity.PctOf | pages/Dashboard.tsx:57 | `(x / base) * 100` over a non-zero base is the percentage of x, with the sign of x when the base is positive |
| Equity.JournalReport | pages/JournalReport.tsx:14-38 | the report's stats: a curve of n+1 points from the starting balance, each point the previous one plus the P/L of the next trade in date order; total P/L and final equity; the win rate as the percentage of trades with P/L > 0 (0 for no trades) and discipline as the percentage following their rules (100 for no trades); the drawdown percentage as the largest drawdown over the final overall peak, defined and non-negative for a positive balance |
| Equity.PageRunFacts | pages/JournalReport.tsx:14-30 | the walk over the date-sorted copy has the date-ordered curve steps, ends at the balance plus the total P/L, and its peak and drawdown are the curve's overall peak and largest drawdown |
| Equity.Dashboard | pages/Dashboard.tsx:38-63 | the dashboard's analytics: the same date-ordered curve and totals; the return percentage is the total P/L over the starting balance (10000 when unset) times 100, with the sign of the total P/L; the current drawdown is the distance of the final equity below the overall peak, in percent of that peak, non-negative and 0 exactly when the final equity is the curve's maximum; win rate and discipline are the shares of winning and rule-following trades over the list as given |
| Equity.DashboardFrom | pages/Dashboard.tsx:38-63 | the same figures for any non-zero starting balance |
| Equity.DrawdownFromPeak | pages/Dashboard.tsx:55 | `((peak - equity) / peak) * 100` is defined exactly for a non-zero peak, is 0 exactly at the peak and non-negative below it |
| Equity.DashboardDrawdown | pages/Dashboard.tsx:55 | for a positive start the current drawdown is defined, non-negative, and 0 exactly when no point of the curve lies above the final equity |
| Equity.FinalAgainstPeak | pages/Dashboard.tsx:55 | the final equity is at most the peak, and equals it iff no curve point lies above it |
| Equity.ReportAndDashboardAgree | pages/Dashboard.tsx:38-63 | the two copies of the loop produce the same curve, final equity, total P/L, win rate and discipline |
| Equity.ThreeTradeExample | pages/JournalReport.tsx:35 | for +500, -200, +300 from 10000 the max drawdown is 200 and its percentage is taken against the final peak 10600 |
| Equity.DrawdownPastWholeBalance | pages/JournalReport.tsx:35 | a loss of twice the balance gives a drawdown percentage of 200 |
| DashboardPage.LevelName | pages/Dashboard.tsx:65-68 | the title exists exactly for levels of at least 1; level 1 is "Beginner", level 7 and above "Legend", level k in 1..7 the k-th title |
| DashboardPage.LevelNameMonotone | pages/Dashboard.tsx:65-68 | a higher level never shows an earlier title of the list |
| DashboardPage.NextLevelXp | pages/Dashboard.tsx:178 | the next threshold exists exactly when the level does, and is a positive multiple of 1000 for a level of at least 1 |
| DashboardPage.JsRem | pages/Dashboard.tsx:181 | JavaScript's remainder takes the dividend's sign: it agrees with the mathematical one for non-negative operands and lies in (-b, 0] for negative ones |
| DashboardPage.XpBarWidth | pages/Dashboard.tsx:181 | the bar width exists exactly when XP does, and lies in [0, 100) for non-negative XP |
| DashboardPage.XpBarMatchesThreshold | pages/Dashboard.tsx:177-181 | at the level the XP implies, the XP still missing to the next threshold is 1000 minus ten times the bar width |
| DashboardPage.Celebrate | pages/Dashboard.tsx:70-79 | the confetti shows iff the return is positive, the last listed trade is dated today with positive P/L, and the session flag is unset; the flag is set afterwards iff it was set or the confetti showed |
| Performance.Stats | pages/Performance.tsx:46-74 | empty input gives all zeros; the counts are the wins (P/L > 0) and losses (P/L < 0) and add up to at most the total; the averages are the winners' mean and the magnitude of the losers' mean, 0 for an empty side; the profit factor is gross profit over gross loss (or over 1 without losses), positive iff there is a win; the expectancy is `w * avgWin - (1 - w) * avgLoss` with w the win share; adherence is the followed share in [0, 100] |
| Performance.MeanPL | pages/Performance.tsx:60 | the mean times the count is the sum, and the mean of nothing is 0 |
| Performance.GrossProfit | pages/Performance.tsx:63 | the winners' total is non-negative and positive iff there is a win |
| Performance.LossSum | pages/Performance.tsx:64 | the losers' total is never positive, and 0 without losses |
| Performance.AvgWin | pages/Performance.tsx:60 | the average win is non-negative, 0 without wins, and the win count times it is the gross profit |
| Performance.AvgLoss | pages/Performance.tsx:61 | the average loss is a non-negative magnitude, 0 without losses, and the loss count times it is minus the losers' total |
| Performance.ProfitFactor | pages/Performance.tsx:65 | the profit factor times the loss (or 1 for a zero loss) is the gross profit; it is non-negative and positive iff there is gross profit |
| Performance.WinShare | pages/Performance.tsx:67 | the win share lies in [0, 1] and the total times it is the win count |
| Performance.ExpectancyIsMeanPL | pages/Performance.tsx:67-68 | when no trade breaks even the expectancy is the mean P/L |
| Performance.BreakEvenShiftsExpectancy | pages/Performance.tsx:58-68 | for +10, 0 and -10 the total is 0 but the expectancy is -10/3 |
| Performance.AddTo | pages/Performance.tsx:79 | adding under a key keeps the key list, or appends the key when it is new |
| Performance.AddToTotal | pages/Performance.tsx:79 | adding under a key grows that key's total by the value and no other total |
| Performance.AccumulateTotal | pages/Performance.tsx:78-80 | after the loop each key's total grows by the P/L of exactly the trades with that key |
| Performance.AccumulateKeys | pages/Performance.tsx:78-80 | the loop keeps the keys distinct and adds exactly the keys of the trades |
| Performance.GroupByPartition | pages/Performance.tsx:76-82 | the groups have distinct keys, one for each key among the trades; each holds exactly its trades' P/L; and the groups sum to the total P/L |
| Performance.GroupByTotal | pages/Performance.tsx:79 | `groups[k] \|\| 0` is the P/L of the trades with key k, whether or not k occurs |
| Performance.SetupKey | pages/Performance.tsx:87 | the setup key is never empty, and is the setup itself when one is set |
| Performance.AssetGroups | pages/Performance.tsx:76-82 | every trade's asset has a group, every group is some trade's asset, each holds that asset's P/L, and the groups sum to the total P/L |
| Performance.SetupGroups | pages/Performance.tsx:84-90 | no group is keyed by the empty string, trades without a setup land under "Unknown", each group holds its setup's P/L, and the groups sum to the total |
| Performance.UnknownSetupGroup | pages/Performance.tsx:87 | the "Unknown" group holds the trades without a setup together with those whose setup is literally "Unknown" |
| Performance.DayData | pages/Performance.tsx:92-100 | the weekday data always has seven entries named Sunday to Saturday in that order |
| Performance.DayBucket | pages/Performance.tsx:95-99 | the bucket of a weekday holds exactly the P/L of the trades on that weekday, and 0 when there are none |
| Performance.DayDataSum | pages/Performance.tsx:92-100 | the seven buckets sum to the P/L of the trades that have a weekday, that is the total P/L when every date is valid |
| Performance.RuleEdge | pages/Performance.tsx:102-113 | each side's average times its count is that side's total P/L, and an empty side averages 0 |
| Performance.RuleEdgeRecombines | pages/Performance.tsx:102-107 | the two sides partition the trades, and the averages weighted by the side sizes give back the total P/L |
| Discipline.Penalty | pages/DisciplineRanking.tsx:121-124 | the penalty is 0 exactly when the window has no violation and no risk escalation |
| Discipline.Score | pages/DisciplineRanking.tsx:118-126 | the score lies in [0, 100]; it is 100 for an empty window and exactly when there is no penalty, 0 exactly when the penalty reaches 100, and otherwise 100 minus the penalty |
| Discipline.AppendNeverRaises | pages/DisciplineRanking.tsx:118-126 | a further trade never raises the score; a compliant unflagged one leaves it unchanged; a violation lowers a positive score |
| Discipline.WindowsDisjoint | pages/DisciplineRanking.tsx:112-116 | no trade is in both the recent and the previous week, so the two windows together hold at most all trades |
| Discipline.TierOf | pages/DisciplineRanking.tsx:132-140 | the tier is one of the five, its minimum is at most a non-negative score, and it is the highest tier whose minimum the score reaches |
| Discipline.HighestReached | pages/DisciplineRanking.tsx:140 | searching the reversed tier table finds the highest tier reached, and finds nothing only for a negative score |
| Discipline.TierBands | pages/DisciplineRanking.tsx:132-140 | integer scores 0-20 are Bronze, 21-40 Silver, 41-60 Gold, 61-80 Platinum, 81-100 Diamond |
| Discipline.TierMonotone | pages/DisciplineRanking.tsx:132-140 | a higher score never earns a lower tier |
| Discipline.Rank | pages/DisciplineRanking.tsx:109-143 | the shown score is the recent week's; the trend is up iff it is at least the previous week's, so a tie counts as up; the tier is the score's |
| Discipline.QuietFortnightTrendsUp | pages/DisciplineRanking.tsx:119-130 | with no trades in either week both scores are 100, the trend is up and the tier is Diamond |
| Discipline.Factors | pages/DisciplineRanking.tsx:203-207 | rule fidelity is the followed share and risk protection 100 minus the flagged share, both in [0, 100] and 100 without trades; routine consistency is at most 100, and is 100 exactly from a streak of 10 |
| Achievements.Record | pages/Achievements.tsx:33-43 | the record of milestone m has id `baseId-m`, the series' category and progress, maximum m, reward m times the multiplier, and is unlocked iff the source reaches m |
| Achievements.AddSeries | pages/Achievements.tsx:31-45 | a series yields exactly one record per milestone, in milestone order |
| Achievements.HalfText | pages/Achievements.tsx:34 | a half milestone such as 1.5 is written with its whole part and ".5" |
| Achievements.UnlockedPrefix | pages/Achievements.tsx:38 | with increasing milestones the unlocked records are exactly the first n records of the series, n being the unlocked count |
| Achievements.IncreasingOrdered | pages/Achievements.tsx:48-68 | in an increasing milestone list every earlier milestone is at most every later one |
| Achievements.MaxR | pages/Achievements.tsx:28 | the best R multiple is non-negative, at least every trade's (absent counts as 0), and is 0 or one of them |
| Achievements.DateSet | pages/Achievements.tsx:64 | the active days are exactly the trades' dates, no more of them than trades, and none only without trades |
| Achievements.Growth | pages/Achievements.tsx:26-27 | growth is the total P/L as a percentage of the starting balance, 10000 when unset, with the P/L's sign for a positive balance |
| Achievements.MetricsOf | pages/Achievements.tsx:22-28 | the sources: total P/L, win and followed counts, growth, the best R multiple, the compliance rate in [0, 100] (0 without trades), the number of journal entries, the number tagged "calm" and "fomo", the number of trades with a positive stop loss, and the number of distinct trade dates |
| Achievements.TableIncreasing | pages/Achievements.tsx:48-68 | every one of the thirteen milestone lists is strictly increasing |
| Achievements.TableTotal | pages/Achievements.tsx:48-68 | the thirteen series hold 148 milestones in all |
| Achievements.AchievementCount | pages/Achievements.tsx:20-77 | the page always lists 148 achievements, and at most 148 are unlocked |
| Achievements.UnlockedCount | pages/Achievements.tsx:77 | the unlocked count never exceeds the number of achievements |
| Achievements.Shown | pages/Achievements.tsx:73-75 | the "All" tab shows the whole list; a category tab shows exactly that category's records |
| Achievements.ShownCons | pages/Achievements.tsx:73-75 | a tab keeps the list order: the first record is shown exactly when it belongs to the tab, ahead of the records shown from the rest |
| Achievements.TabsPartition | pages/Achievements.tsx:73-75 | the five category tabs together show every record exactly once |
| Calendar.BuildGrid | pages/Calendar.tsx:26-51 | the loops build the month grid: one empty slot per weekday before the first, then one cell per day of the month |
| Calendar.LeadingBlanks | pages/Calendar.tsx:34-36 | the first loop yields exactly `first` empty slots |
| Calendar.MonthCellAt | pages/Calendar.tsx:39-50 | the month has one cell per day, and cell k is day k+1 keyed with that day's date |
| Calendar.GridCells | pages/Calendar.tsx:39-51 | the filled cells of the grid are the days 1 to daysInMonth in order, each holding exactly the trades dated with its key and their P/L |
| Calendar.GridPresent | pages/Calendar.tsx:34-36 | the leading empty slots contribute no cells |
| Calendar.SplitWeeks | pages/Calendar.tsx:53-62 | the weeks are exactly `WeeksOf` the grid: one week per run of seven slots (the last run may be shorter) holding that run's days, runs without a day dropped; read in order they are the filled cells in order, each week 1 to 7 days |
| Calendar.WeeksOfCover | pages/Calendar.tsx:53-62 | the seven-slot weeks, read in order, are the filled cells of the grid in order, and every week has 1 to 7 days |
| Calendar.WeeksOfAppend | pages/Calendar.tsx:53-62 | cutting the grid after a whole number of rows of seven cuts its weeks in the same place |
| Calendar.WeeksOfChunk | pages/Calendar.tsx:56-60 | one to seven slots make one week, dropped when none of them holds a day |
| Calendar.PresentAppend | pages/Calendar.tsx:57 | the filled cells of two joined grids are those of the first followed by those of the second |
| Calendar.MonthKeys | pages/Calendar.tsx:39-40 | there is one key per day of the month |
| Calendar.MonthKeysDistinct | pages/Calendar.tsx:40 | different days of a month in a four-digit year have different keys |
| Calendar.MonthKeyParses | pages/Calendar.tsx:40 | the key of cell i reads back as day i+1 of the month |
| Calendar.KeysPartition | pages/Calendar.tsx:41-43 | over distinct keys, the P/L and the number of the trades in the cells are those of the trades dated with one of the keys |
| Calendar.CellsAddUp | pages/Calendar.tsx:69-70 | cells holding their keys' trades add up to those trades' P/L and count |
| Calendar.Stats | pages/Calendar.tsx:67-75 | there are no more trading days or profitable days than filled cells |
| Calendar.MonthStatsFacts | pages/Calendar.tsx:67-75 | the month's P/L and trade count are those of the trades dated in the month, and profitable days are at most trading days, which are at most the days of the month |
| Calendar.ComplianceMark | pages/Calendar.tsx:81-89 | no mark iff the day has no trades; green iff every trade followed the rules; amber iff the followed share is at least one half but not all; red iff it is below one half |
| Calendar.RatioThresholds | pages/Calendar.tsx:84-87 | a ratio k/n is 1 iff k equals n, and at least 0.5 iff 2k is at least n |
| Calendar.Round | pages/Calendar.tsx:324 | `Math.round` gives the integer nearest to a non-negative number, halves rounding up |
| Calendar.WeekWinRatio | pages/Calendar.tsx:323-324 | the ratio is 0 without trading days; otherwise it is `100 * profitable / trading` rounded to the nearest integer, in [0, 100], 0 when no trading day is profitable and 100 when every one is |
| Calendar.PercentValue | pages/Calendar.tsx:324 | a percentage of a non-empty whole is `100 * part / whole` |
| Dates.DaysInMonth | pages/Calendar.tsx:30 | a month has 28 to 31 days |
| Dates.MonthsFillYear | pages/Calendar.tsx:30 | the twelve month lengths add up to the year length |
| Dates.ChangeMonth | pages/Calendar.tsx:77-79 | the new month lies in 0..11, and year times 12 plus month moves by exactly the offset |
| Dates.ConsecutiveMonths | pages/Calendar.tsx:77-79 | the first of the next month lies exactly daysInMonth days after the first of the month |
| Dates.NextFirstWeekday | pages/Calendar.tsx:29-30 | the weekday of the next month's first is this month's first shifted by the month length, modulo 7 |
| Dates.Weekday | pages/Calendar.tsx:29 | a weekday lies in 0..6 |
| Dates.NatToString | pages/Calendar.tsx:40 | `String(n)` is a non-empty digit string without a leading zero |
| Dates.ParseNatToString | pages/Calendar.tsx:40 | the decimal text of a number reads back as that number |
| Dates.PadStart | pages/Calendar.tsx:40 | `padStart` yields the string itself when it is long enough, otherwise the fill character up to the width followed by the string |
| Dates.ParsePadded | pages/Calendar.tsx:40 | zero-padding a digit string does not change its value |
| Dates.TwoDigitsReadBack | pages/Calendar.tsx:40 | a month or day number written with two digits reads back as that number |
| Dates.ParseDate | pages/Calendar.tsx:40 | a string that reads as a date has the `YYYY-MM-DD` form and names a valid calendar date |
| Dates.DateKeyRoundTrip | pages/Calendar.tsx:40 | the key of a date in a four-digit year has the `YYYY-MM-DD` form and reads back as that date |
| Dates.TimeMs | pages/JournalReport.tsx:14 | `getTime()` is a number exactly when the string reads as a date |
| Dates.SortKeyOrdersDays | pages/JournalReport.tsx:14 | within a month a later day sorts after an earlier one |
| Dates.SortKeyChronological | pages/JournalReport.tsx:14 | of two valid dates in four-digit years, the one earlier in year, month, day order has the smaller sort key, across months and years |
| Dates.DayNumberChronological | pages/JournalReport.tsx:14 | day numbers grow strictly with the date in year, month, day order |
| Sorting.SortAsc | pages/JournalReport.tsx:14 | the ascending date sort is a permutation of the trades in non-decreasing date order |
| Sorting.SortDesc | pages/Trades.tsx:100-102 | the descending date sort is a permutation of the trades, newest first |
| Sorting.SortAscStable | pages/JournalReport.tsx:14 | the sort is stable: the trades of any one date keep their relative order |
| Sorting.SortPreservesAggregates | pages/Dashboard.tsx:39 | sorting changes no count and no sum |
| Psychology.Save | pages/Psychology.tsx:52-64 | the save is refused iff the notes are empty or no emotion is selected; a saved entry carries the form's fields, the user and the time, and keeps the edited entry's id or takes a fresh one |
| Psychology.ToggleEmotion | pages/Psychology.tsx:122-131 | the tag's membership flips and no other tag's changes; an added tag goes at the end; removing drops every copy and nothing else |
| Psychology.ToggleEmotionTwice | pages/Psychology.tsx:122-131 | selecting a tag and unselecting it again restores the form's tags |
| Psychology.Filtered | pages/Psychology.tsx:142-154 | exactly the entries passing the date, emotion and intensity tests are shown, as a sub-multiset of the entries, newest first |
| Psychology.DefaultKeepsAll | pages/Psychology.tsx:142-154 | the initial filter shows every entry whose intensity is on the 1 to 10 scale |
| Psychology.FirstSeen | pages/Psychology.tsx:159-164 | the count keys are the distinct tags, each once, ordered by where each tag first occurs |
| Psychology.FirstIndexSnoc | pages/Psychology.tsx:159-164 | adding a tag at the end keeps where the earlier tags first occur, and a new tag first occurs last |
| Psychology.Dominant | pages/Psychology.tsx:166-173 | the dominant tag is "-" for no tags; otherwise it occurs most often, and among the most frequent it is the first one seen |
| Psychology.Scan | pages/Psychology.tsx:166-173 | the scan over the keys ends on a key that occurs at least as often as every key and strictly more often than every key before it; with no keys it stays "-" |
| Psychology.AvgIntensity | pages/Psychology.tsx:158 | the average times the number of entries is the total intensity, and 0 for no entries |
| Psychology.AverageBetween | pages/Psychology.tsx:158 | intensities within bounds average within the same bounds |
| Psychology.FilteredAverageInRange | pages/Psychology.tsx:142-158 | the average shown lies within the filter's intensity range |
| Psychology.Stats | pages/Psychology.tsx:156-179 | no entries give 0 and "-"; entries without tags give "-"; otherwise the average is the mean intensity and the dominant emotion is a tag that occurs at least as often as any other, and every tag seen before it occurs strictly less often |
| Selection.Toggle | pages/Trades.tsx:80-85 | the clicked id's membership flips and no other id's changes |
| Selection.ToggleTwice | pages/Psychology.tsx:105-112 | clicking a checkbox twice restores the selection |
| Selection.SelectAll | pages/Trades.tsx:87-90 | the selection is cleared when it is as large as the list, otherwise it becomes exactly the listed ids |
| Selection.SelectAllListed | pages/Psychology.tsx:114-120 | the journal's "select all", with its extra non-empty guard, acts exactly like the trade log's |
| Selection.SizeMeansAll | pages/Trades.tsx:87-88 | for distinct ids and a selection of listed ids, the size test holds iff everything is selected |
| Selection.SelectAllTwice | pages/Trades.tsx:87-90 | on distinct ids, two clicks on "select all" from a partial selection clear it |
| Store.IndexOf | db.ts:101 | `findIndex` gives -1 iff no record has the id, and otherwise the first position holding it |
| Store.Upsert | db.ts:100-104 | after a save the list holds the record; an existing id is replaced in place with the length unchanged, a new one is appended; every other position is unchanged |
| Store.Delete | db.ts:112-113 | no record with the id remains, every other record does, nothing is added, and the length drops by the number of records with the id |
| Store.DeleteCons | db.ts:113 | the records are kept in their stored order: the first record survives exactly when its id differs, ahead of the rest |
| Store.DeleteAppend | db.ts:113 | deleting from a concatenation is deleting from each part, in order |
| Store.SaveThenDelete | db.ts:100-113 | saving a record under a new id and deleting that id restores the list |
| Store.SaveTwice | db.ts:100-104 | saving the same record twice stores it once |
| Store.DeleteAbsent | db.ts:112-113 | deleting an id that is not stored changes nothing |
| Store.OwnedBy | db.ts:88 | the stored records of a user: only theirs, and all of them, never more copies than stored |
| Store.OwnedByCons | db.ts:88 | the read keeps the stored order: the first record is kept exactly when the user owns it, ahead of the records kept from the rest |
| Store.OwnedByAppend | db.ts:88 | reading two stretches of storage one after the other gives the two reads one after the other |
| Store.SaveTrade | db.ts:92-105 | saving a trade upserts it and leaves the journal and the rules alone |
| Store.SavePsychology | db.ts:127-140 | saving an entry upserts it and leaves the trades and the rules alone |
| Store.SaveRule | db.ts:162-175 | saving a rule upserts it and leaves the trades and the journal alone |
| Store.DeleteTrade | db.ts:106-114 | the trades become exactly the stored order minus the records with the id, and the other collections are unchanged |
| Store.DeletePsychology | db.ts:141-149 | the entries become exactly the stored order minus the records with the id, and the other collections are unchanged |
| Store.DeleteRule | db.ts:176-184 | the rules become exactly the stored order minus the records with the id, and the other collections are unchanged |
| Store.Write | db.ts:91-114 | a save or delete changes the anonymous arrays in an anonymous session and local storage otherwise, never both, and never the signed-in user |
| Store.Read | db.ts:81-90 | an anonymous session reads its arrays whole, without the owner filter; any other session reads exactly the stored records of the user, in their stored order (the order of `OwnedBy`) |
| Store.SaveNewTradeReadsLast | db.ts:88-104 | outside an anonymous session, saving a trade with a new id makes its owner's read the previous read followed by that trade |
| Store.SignIn | db.ts:192-194 | signing in changes only the signed-in user |
| Store.SignOut | db.ts:195-200 | signing out leaves nobody signed in, empties the three anonymous arrays, and keeps local storage as it was |
| Store.SignOutKeepsStored | db.ts:192-200 | after signing out, a read returns the user's stored records, whatever the anonymous session held |
| Store.AnonymousReadUnfiltered | db.ts:84-88 | an anonymous session returns a record owned by someone else, which the stored read would filter out |
| Store.SaveAfterSignOut | db.ts:92-104 | after signing out, a saved trade is upserted into local storage and the anonymous trades stay empty |
| Records.SavedId | pages/Trades.tsx:72 | an edited record keeps its id unless that id is empty; otherwise the record takes the fresh id |
| TradeForm.SignedPL | pages/Trades.tsx:67-68 | the saved P/L is plus or minus the amount, non-negative in profit mode and non-positive in loss mode, and 0 for an unreadable amount |
| TradeForm.OpenForEdit | pages/Trades.tsx:44-45 | opening a trade shows a non-negative amount and the profit switch iff its P/L is non-negative |
| TradeForm.SaveTrade | pages/Trades.tsx:65-78 | the saved trade has the form's fields, the signed P/L and the current user, and keeps the edited id or takes a fresh one |
| TradeForm.EditSaveRoundTrip | pages/Trades.tsx:40-78 | opening one's own trade and saving it untouched stores the very same trade |
| TradeForm.Displayed | pages/Trades.tsx:100-102 | the list shows the same trades, newest date first |
| Coach.GreetingAt | components/MotivationalCoach.tsx:18-21 | morning before 12, afternoon from 12 to before 18, evening from 18 |
| Coach.Choose | components/MotivationalCoach.tsx:23-58 | each message appears exactly when its rule fires and no earlier rule does, in the order streak milestone, drawdown above 5%, profit today, three wins, three losses, seasoned winner; the profit message carries today's P/L |
| Coach.RunsExclusive | components/MotivationalCoach.tsx:47-54 | the three most recent trades cannot all win and all lose |
| Coach.LastThree | components/MotivationalCoach.tsx:27-51 | the run rules look at three of the trades, newest first, and no trade left out is newer than the third |
| PsychCoach.LastListed | components/PsychCoach.tsx:21 | `slice(-3)` keeps the last three listed trades, or all of them when there are fewer |
| PsychCoach.Insights | components/PsychCoach.tsx:15-46 | each rule's message appears iff its rule fires; the default appears iff none does, and then alone; messages keep the order fear, overtrading, confidence; there are one to three |
| PsychCoach.RiskIffWarning | components/PsychCoach.tsx:20-31 | a risk message appears exactly when the fear or the overtrading rule fires |
| Checklist.SyncItem | components/DailyChecklist.tsx:34-44 | a task keeps its id and reward, and is ticked iff it was, or it is the trade task with a trade today, or the journal task with an entry today |
| Checklist.Sync | components/DailyChecklist.tsx:29-44 | the synced list has the stored list (or the defaults) task for task; a task is ticked iff it was, or it is log_trade and some trade is dated today, or it is psych_note and some entry is dated today |
| Checklist.TradeTodayTicksLog | components/DailyChecklist.tsx:31-41 | a trade dated today ticks the trade-logging task |
| Checklist.Progress | components/DailyChecklist.tsx:52-53 | progress is the ticked share in percent, 0 for an empty list, in [0, 100], and 100 iff every task is ticked |
| Checklist.ToggleItem | components/DailyChecklist.tsx:56-63 | the clicked task's tick flips, every other task is unchanged, and the click awards the reward of the matching unticked tasks |
| Checklist.AwardOnTick | components/DailyChecklist.tsx:59 | with unique ids, the reward is awarded exactly when the click ticks the task |
| Checklist.RecheckAwardsAgain | components/DailyChecklist.tsx:56-63 | unticking a ticked task awards nothing, and ticking it again awards its reward a second time |

## Left out

- Browser storage is not modelled: `localStorage` and `sessionStorage` reads and writes, and JSON parsing. Each collection is one in-memory sequence, and the day's stored checklist and the celebration flag are inputs.
- `JournalReport.tsx:14-15` sorts, in place, the array a read returns. In an anonymous session that array is the session's own, so the report would reorder the session's trades and entries. The model sorts a copy (`Sorting.SortAsc`) and leaves the session alone. The app defines no route to the report page (App.tsx:59-68 redirects unknown paths to `/`), so this side effect cannot happen as the app is written.
- Store.Read: the fallback to sample data when a read finds nothing is left out, so an empty collection reads as empty.
- The sample-data generators (db.ts:13-65) are left out. They draw on `Math.random` and the clock, and the reads fall back to them when a collection is empty.
- Checklist.ToggleItem: `db.ts` defines no `updateXP`, so in the program as written ticking an unticked task throws a `TypeError` inside the `setItems` updater (DailyChecklist.tsx:59) and the tick never flips. The model assumes the call succeeds: it flips the tick and returns the XP the call would award. `Checklist.AwardOnTick` and `Checklist.RecheckAwardsAgain` rest on the same assumption.
- The streak update is not defined anywhere in the source, and the streak is an input.
- `db.deleteTrades`, called by the trade log's bulk delete, is not defined in `db.ts` and is not part of this model. The single-record `Store.Delete` is modelled.
- The AI coach page, the authentication page, the settings page, the app shell, the translation table and the purely visual components are left out. Translated texts appear only as their keys or as message kinds.
- Number formatting (`toFixed`, `toLocaleString`) and IEEE floating point are left out. Money and ratios are exact reals, so profit factor and expectancy are the unformatted numbers.
- The time zone behaviour of `new Date(...)` and `getDay()` is left out. The weekday of a trade's date is an input to the weekday grouping, and the hour, today's date and `now` are inputs.
- Dates.ParseDate: follows the strict reading of a date-only string, where a day past the end of the month is not a date. Engines may instead accept such a string and roll it over, so that V8 reads "2023-02-31" as 2023-03-03; the model gives None for it.
- Dates.SortKey: a date string that is not a valid `YYYY-MM-DD` date gets key 0, which is also the key of 1970-01-01, so such a trade ties with that day. JavaScript engines read some other formats as dates (V8 reads "2024/01/05" as local midnight), and for a string no engine reads the comparator gets NaN and the order is implementation-defined. The model follows neither.
- Dates.SortKeyChronological: proved for four-digit years, where the keys read back as their dates.
- Dates.DateKeyRoundTrip: proved for four-digit years only. JavaScript's special handling of years below 100 in `new Date(y, m, d)` is not modelled.
- Calendar.MonthStatsFacts: proved for four-digit years, where the day keys are distinct and read back as dates.
- Calendar.MonthKeysDistinct: proved for four-digit years, for the same reason.
- Achievements.NumText: writes only whole numbers and numbers with one decimal digit, which covers every milestone the page uses. It does not model `Number.prototype.toString` in general.
- Achievements: the achievement descriptions and icons are left out, and so is the win rate the page computes but never uses.
- Performance.AssetData / Performance.SetupData: the groups keep the order in which their keys are first met. `Object.entries` lists keys that read as array indices (an asset or setup named "42") first, in ascending numeric order, and only then the other keys in insertion order; the model does not reorder index-like keys.
- Psychology.Dominant: the count keys are taken in first-insertion order. This is JavaScript's order for string keys that are not array indices; a tag written as a canonical integer would be enumerated earlier.
- TradeForm.SignedPL: `parseFloat` is an input of type `Option<real>`, `None` standing for NaN. The parsing of the text itself is not modelled.
- Discipline.Factors: a negative stored streak gives a negative routine score, and the model keeps that. The bound below by 0 is stated only for non-negative streaks.
- Coach.Choose: the dashboard's drawdown percentage is an input. A NaN drawdown (`None`) never fires the warning.

=== FILE: achievements.dfy ===
/**
 The achievements page (pages/Achievements.tsx): thirteen milestone series, each
 turned into one record per milestone that is unlocked once the series' source
 figure reaches it, plus the metrics those sources are computed from.
 */
module Achievements {
  import opened Common
  import opened Records
  import Dates
  import Equity

  datatype Category = DisciplineCategory | PerformanceCategory | PsychologyCategory | ConsistencyCategory | RiskCategory

  datatype Achievement = Achievement(
    id: string, title: string, category: Category,
    unlocked: bool, progress: real, maxProgress: real, xpReward: real)

  /** One `addSeries` call: milestones, the source figure they are measured against, and the XP multiplier. */
  datatype Series = Series(
    category: Category, baseId: string, title: string,
    milestones: seq<real>, source: real, xpMult: real)

  /**
   `m.toString()` for the milestone values, which are whole numbers or have a single
   decimal digit.
   */
  function NumText(m: real): (r: string)
    ensures m == m.Floor as real ==> r == Dates.IntToString(m.Floor)
  {
    var whole := m.Floor;
    if m == whole as real then Dates.IntToString(whole)
    else Dates.IntToString(whole) + "." + [Dates.DigitChar(Tenths(m))]
  }

  /** The first decimal digit of `m`. */
  function Tenths(m: real): (t: nat)
    ensures t < 10
  {
    FractionRange(m);
    ((m - m.Floor as real) * 10.0).Floor
  }

  lemma FractionRange(m: real)
    ensures 0.0 <= m - m.Floor as real < 1.0
  {
  }

  /** A half milestone such as 1.5 is written with its whole part and ".5". */
  lemma HalfText(k: nat)
    ensures NumText(k as real + 0.5) == Dates.NatToString(k) + ".5"
  {
    var m := k as real + 0.5;
    assert m.Floor == k;
    assert Tenths(m) == 5;
  }

  /** The record for milestone `m` of series `s`. */
  function Record(s: Series, m: real): (a: Achievement)
    ensures a.id == s.baseId + "-" + NumText(m) && a.title == s.title + " " + NumText(m)
    ensures a.category == s.category && a.progress == s.source && a.maxProgress == m
    ensures a.unlocked <==> s.source >= m
    ensures a.xpReward == m * s.xpMult
  {
    Achievement(s.baseId + "-" + NumText(m), s.title + " " + NumText(m), s.category,
      s.source >= m, s.source, m, m * s.xpMult)
  }

  /** `addSeries`: one record per milestone, in milestone order. */
  function AddSeries(s: Series): (r: seq<Achievement>)
    ensures |r| == |s.milestones|
    ensures forall i :: 0 <= i < |r| ==> r[i] == Record(s, s.milestones[i])
  {
    seq(|s.milestones|, i requires 0 <= i < |s.milestones| => Record(s, s.milestones[i]))
  }

  /** Raising a series' source never locks a milestone that was unlocked. */
  lemma NeverRelocks(s: Series, source: real, i: nat)
    requires i < |s.milestones| && source >= s.source
    ensures AddSeries(s)[i].unlocked ==> AddSeries(s.(source := source))[i].unlocked
  {
  }

  /** Consecutive milestones increase. */
  predicate Increasing(ms: seq<real>)
  {
    forall i :: 0 <= i < |ms| - 1 ==> ms[i] < ms[i + 1]
  }

  lemma {:induction false} IncreasingOrdered(ms: seq<real>, i: nat, j: nat)
    requires Increasing(ms) && i <= j < |ms|
    ensures ms[i] <= ms[j]
    decreases j - i
  {
    if i < j {
      IncreasingOrdered(ms, i + 1, j);
    }
  }

  /**
   With increasing milestones the unlocked records are a prefix of the series: the
   first `n` records are unlocked and the rest are not, for `n` the unlocked count.
   */
  lemma UnlockedPrefix(s: Series)
    requires Increasing(s.milestones)
    ensures var r := AddSeries(s);
            forall i :: 0 <= i < |r| ==> (r[i].unlocked <==> i < Count(r, Unlocked))
  {
    var r := AddSeries(s);
    forall i, j | 0 <= i <= j < |r| ensures r[j].unlocked ==> r[i].unlocked
    {
      IncreasingOrdered(s.milestones, i, j);
    }
    PrefixCount(r);
  }

  predicate Unlocked(a: Achievement) { a.unlocked }

  /** In a list whose unlocked records come before the locked ones, the unlocked count marks the boundary. */
  lemma {:induction false} PrefixCount(r: seq<Achievement>)
    requires forall i, j :: 0 <= i <= j < |r| && r[j].unlocked ==> r[i].unlocked
    ensures forall i :: 0 <= i < |r| ==> (r[i].unlocked <==> i < Count(r, Unlocked))
  {
    if |r| > 0 {
      PrefixCount(r[1..]);
      assert forall i :: 1 <= i < |r| ==> r[i] == r[1..][i - 1];
      if !r[0].unlocked {
        assert Count(r[1..], Unlocked) == 0;
      }
    }
  }

  /** The figures the series are measured against. */
  datatype Metrics = Metrics(
    totalPL: real, winCount: nat, ruleFollowCount: nat, growth: real, maxR: real,
    compliance: real, psychCount: nat, calmCount: nat, fomoCount: nat,
    streak: int, activeDays: nat, stopLossCount: nat)

  /** `Math.max(...trades.map(t => t.rMultiple || 0), 0)`. */
  function MaxR(ts: seq<Trade>): (r: real)
    ensures r >= 0.0
    ensures forall i :: 0 <= i < |ts| ==> OrZero(ts[i].rMultiple) <= r
    ensures r == 0.0 || exists i :: 0 <= i < |ts| && r == OrZero(ts[i].rMultiple)
  {
    if |ts| == 0 then 0.0
    else
      var rest := MaxR(ts[1..]);
      assert forall i :: 1 <= i < |ts| ==> ts[i] == ts[1..][i - 1];
      Max(OrZero(ts[0].rMultiple), rest)
  }

  /** `new Set(trades.map(t => t.date))`. */
  function DateSet(ts: seq<Trade>): (r: set<string>)
    ensures |r| <= |ts| && (|r| == 0 <==> |ts| == 0)
    ensures forall d :: d in r <==> exists i :: 0 <= i < |ts| && ts[i].date == d
  {
    if |ts| == 0 then {}
    else
      var rest := DateSet(ts[1..]);
      assert forall i :: 1 <= i < |ts| ==> ts[i] == ts[1..][i - 1];
      {ts[0].date} + rest
  }

  /** `(t.stopLoss || 0) > 0`. */
  predicate HasStopLoss(t: Trade)
  {
    t.stopLoss.Some? && t.stopLoss.value > 0.0
  }

  /**
   `(totalPL / (user.startingBalance || 10000)) * 100`: the total P/L as a percentage of
   the starting balance, with the sign of the P/L when that balance is positive.
   */
  function Growth(totalPL: real, startingBalance: Option<real>): (g: real)
    ensures g * Equity.InitialBalance(startingBalance) == totalPL * 100.0
    ensures Equity.InitialBalance(startingBalance) > 0.0 ==> (g > 0.0 <==> totalPL > 0.0) && (g < 0.0 <==> totalPL < 0.0)
    ensures startingBalance.None? ==> g == totalPL / 100.0
  {
    Equity.PctOf(totalPL, Equity.InitialBalance(startingBalance))
  }

  /**
   The metrics: growth is the total P/L as a percentage of the starting balance
   (10000 when unset), the best R multiple is never negative, there are no more active
   days than trades, and the compliance rate is 0 without trades and a percentage
   otherwise.
   */
  function MetricsOf(ts: seq<Trade>, logs: seq<PsychologyEntry>, u: User): (m: Metrics)
    ensures m.totalPL == SumOf(ts, PL) && m.winCount == Count(ts, IsWin) && m.ruleFollowCount == Count(ts, Followed)
    ensures m.growth == Growth(m.totalPL, u.startingBalance)
    ensures m.maxR >= 0.0 && forall i :: 0 <= i < |ts| ==> OrZero(ts[i].rMultiple) <= m.maxR
    ensures m.activeDays <= |ts| && (m.activeDays == 0 <==> |ts| == 0)
    ensures |ts| == 0 ==> m.compliance == 0.0
    ensures |ts| > 0 ==> Times(|ts|, m.compliance) == 100.0 * (m.ruleFollowCount as real)
    ensures 0.0 <= m.compliance <= 100.0
    ensures m.psychCount == |logs| && m.calmCount <= m.psychCount && m.fomoCount <= m.psychCount
    ensures m.calmCount == Count(logs, Tagged("calm")) && m.fomoCount == Count(logs, Tagged("fomo"))
    ensures m.streak == StreakOf(u) && m.stopLossCount <= |ts|
    ensures m.stopLossCount == Count(ts, HasStopLoss)
    ensures m.activeDays == |DateSet(ts)| && m.maxR == MaxR(ts)
  {
    Metrics(
      SumOf(ts, PL), Count(ts, IsWin), Count(ts, Followed), Growth(SumOf(ts, PL), u.startingBalance),
      MaxR(ts), Percent(Count(ts, Followed), |ts|, 0.0),
      |logs|, Count(logs, Tagged("calm")), Count(logs, Tagged("fomo")),
      StreakOf(u), |DateSet(ts)|, Count(ts, HasStopLoss))
  }

  const GrowthMilestones: seq<real> := [1.0, 2.0, 3.0, 5.0, 10.0, 15.0, 20.0, 25.0, 30.0, 40.0, 50.0, 75.0, 100.0, 200.0, 500.0]
  const WinMilestones: seq<real> := [1.0, 5.0, 10.0, 20.0, 30.0, 40.0, 50.0, 60.0, 70.0, 80.0, 90.0, 100.0, 150.0, 200.0, 300.0, 500.0]
  const ProfitMilestones: seq<real> := [10.0, 50.0, 100.0, 250.0, 500.0, 1000.0, 2500.0, 5000.0, 10000.0]
  const RuleMilestones: seq<real> := [1.0, 5.0, 10.0, 20.0, 30.0, 40.0, 50.0, 60.0, 70.0, 80.0, 90.0, 100.0, 150.0, 200.0, 300.0, 500.0]
  const ComplianceMilestones: seq<real> := [50.0, 60.0, 70.0, 80.0, 90.0, 95.0, 100.0]
  const ZeroFailMilestones: seq<real> := [3.0, 5.0, 7.0, 10.0, 15.0, 20.0]
  const PsychMilestones: seq<real> := [1.0, 5.0, 10.0, 15.0, 20.0, 25.0, 30.0, 40.0, 50.0, 60.0, 70.0, 80.0, 90.0, 100.0, 150.0, 200.0]
  const ZenMilestones: seq<real> := [1.0, 3.0, 5.0, 10.0, 20.0, 30.0, 50.0, 100.0]
  const FomoMilestones: seq<real> := [1.0, 5.0, 10.0, 25.0, 50.0]
  const StreakMilestones: seq<real> := [1.0, 2.0, 3.0, 4.0, 5.0, 6.0, 7.0, 10.0, 14.0, 21.0, 30.0, 45.0, 60.0, 90.0, 120.0, 150.0, 180.0, 365.0]
  const DaysMilestones: seq<real> := [5.0, 10.0, 30.0, 50.0, 100.0, 150.0, 200.0, 300.0, 500.0]
  const StopLossMilestones: seq<real> := [1.0, 5.0, 10.0, 25.0, 50.0, 100.0, 200.0, 300.0, 500.0]
  const RMilestones: seq<real> := [1.0, 1.5, 2.0, 2.5, 3.0, 4.0, 5.0, 6.0, 7.0, 8.0, 9.0, 10.0, 15.0, 20.0]

  /** The thirteen `addSeries` calls, in page order, with their sources. */
  function Table(m: Metrics): (t: seq<Series>)
    ensures |t| == 13
  {
    [ Series(PerformanceCategory, "grow", "Account Growth %", GrowthMilestones, m.growth, 50.0),
      Series(PerformanceCategory, "totalwin", "Winning Hand", WinMilestones, m.winCount as real, 15.0),
      Series(PerformanceCategory, "profit_val", "Profit Tier ($)", ProfitMilestones, m.totalPL, 1.0),
      Series(DisciplineCategory, "rules", "Code Keeper", RuleMilestones, m.ruleFollowCount as real, 20.0),
      Series(DisciplineCategory, "compliance", "Execution Accuracy", ComplianceMilestones, m.compliance, 100.0),
      Series(DisciplineCategory, "zero_fail", "Flawless Days", ZeroFailMilestones, m.ruleFollowCount as real, 50.0),
      Series(PsychologyCategory, "psych", "Self Explorer", PsychMilestones, m.psychCount as real, 25.0),
      Series(PsychologyCategory, "zen", "Zen Pulse", ZenMilestones, m.calmCount as real, 40.0),
      Series(PsychologyCategory, "fomo_hunter", "FOMO Conqueror", FomoMilestones, m.fomoCount as real, 30.0),
      Series(ConsistencyCategory, "streak", "Unstoppable", StreakMilestones, m.streak as real, 100.0),
      Series(ConsistencyCategory, "totaldays", "Market Veteran", DaysMilestones, m.activeDays as real, 20.0),
      Series(RiskCategory, "slusage", "Safe Hands", StopLossMilestones, m.stopLossCount as real, 15.0),
      Series(RiskCategory, "rmult", "Efficiency Milestone", RMilestones, m.maxR, 200.0) ]
  }

  /** The records of the series from index `k` on, one series after another. */
  function Flatten(ss: seq<Series>, k: nat): (r: seq<Achievement>)
    ensures |r| == MilestoneTotal(ss, k)
    decreases |ss| - k
  {
    if k >= |ss| then [] else AddSeries(ss[k]) + Flatten(ss, k + 1)
  }

  function MilestoneTotal(ss: seq<Series>, k: nat): nat
    decreases |ss| - k
  {
    if k >= |ss| then 0 else |ss[k].milestones| + MilestoneTotal(ss, k + 1)
  }

  /** The `achievements` memo. */
  function AllAchievements(ts: seq<Trade>, logs: seq<PsychologyEntry>, u: User): seq<Achievement>
  {
    Flatten(Table(MetricsOf(ts, logs, u)), 0)
  }

  /** `unlockedCount`. */
  function UnlockedCount(ts: seq<Trade>, logs: seq<PsychologyEntry>, u: User): (n: nat)
    ensures n <= |AllAchievements(ts, logs, u)|
  {
    Count(AllAchievements(ts, logs, u), Unlocked)
  }

  /** The tab filter: `None` is the "All" tab, `Some(c)` the tab of category `c`. */
  function InCategory(tab: Option<Category>): Achievement -> bool
  {
    (a: Achievement) => tab.None? || a.category == tab.value
  }

  /**
   `filtered`: the "All" tab shows the whole list; a category tab shows exactly the
   records of that category, in list order.
   */
  function Shown(list: seq<Achievement>, tab: Option<Category>): (r: seq<Achievement>)
    ensures tab.None? ==> r == list
    ensures tab.Some? ==> forall i :: 0 <= i < |r| ==> r[i].category == tab.value
    ensures forall a :: a in r <==> a in list && (tab.None? || a.category == tab.value)
  {
    if tab.None? then
      FilterAll(list, InCategory(tab));
      Filter(list, InCategory(tab))
    else Filter(list, InCategory(tab))
  }

  /** A tab walks the list front to back: the head is shown exactly when it is in the tab, ahead of the rest. */
  lemma ShownCons(a: Achievement, list: seq<Achievement>, tab: Option<Category>)
    ensures Shown([a] + list, tab) == (if tab.None? || a.category == tab.value then [a] else []) + Shown(list, tab)
  {
    FilterCons(a, list, InCategory(tab));
  }

  /** The five category tabs together show every record exactly once. */
  lemma {:induction false} TabsPartition(list: seq<Achievement>)
    ensures |Shown(list, Some(PerformanceCategory))| + |Shown(list, Some(DisciplineCategory))|
            + |Shown(list, Some(PsychologyCategory))| + |Shown(list, Some(ConsistencyCategory))|
            + |Shown(list, Some(RiskCategory))| == |list|
  {
    if |list| > 0 {
      TabsPartition(list[1..]);
    }
  }

  /** Every milestone list increases, so each series unlocks a prefix. */
  lemma TableIncreasing(m: Metrics)
    ensures forall i :: 0 <= i < |Table(m)| ==> Increasing(Table(m)[i].milestones)
  {
    PerformanceIncreasing();
    DisciplineIncreasing();
    PsychologyIncreasing();
    ConsistencyIncreasing();
  }

  lemma PerformanceIncreasing()
    ensures Increasing(GrowthMilestones) && Increasing(WinMilestones) && Increasing(ProfitMilestones)
  {
  }

  lemma DisciplineIncreasing()
    ensures Increasing(RuleMilestones) && Increasing(ComplianceMilestones) && Increasing(ZeroFailMilestones)
  {
  }

  lemma PsychologyIncreasing()
    ensures Increasing(PsychMilestones) && Increasing(ZenMilestones) && Increasing(FomoMilestones)
  {
  }

  lemma ConsistencyIncreasing()
    ensures Increasing(StreakMilestones) && Increasing(DaysMilestones)
    ensures Increasing(StopLossMilestones) && Increasing(RMilestones)
  {
  }

  /** The page always lists 148 achievements, of which at most 148 are unlocked. */
  lemma AchievementCount(ts: seq<Trade>, logs: seq<PsychologyEntry>, u: User)
    ensures |AllAchievements(ts, logs, u)| == 148
    ensures UnlockedCount(ts, logs, u) <= 148
  {
    TableTotal(MetricsOf(ts, logs, u));
  }

  lemma TableTotal(m: Metrics)
    ensures MilestoneTotal(Table(m), 0) == 148
  {
    var t := Table(m);
    assert MilestoneTotal(t, 13) == 0;
    assert MilestoneTotal(t, 12) == 14;
    assert MilestoneTotal(t, 11) == 9 + 14;
    assert MilestoneTotal(t, 10) == 9 + 23;
    assert MilestoneTotal(t, 9) == 18 + 32;
    assert MilestoneTotal(t, 8) == 5 + 50;
    assert MilestoneTotal(t, 7) == 8 + 55;
    assert MilestoneTotal(t, 6) == 16 + 63;
    assert MilestoneTotal(t, 5) == 6 + 79;
    assert MilestoneTotal(t, 4) == 7 + 85;
    assert MilestoneTotal(t, 3) == 16 + 92;
    assert MilestoneTotal(t, 2) == 9 + 108;
    assert MilestoneTotal(t, 1) == 16 + 117;
  }

  /**
   The "Flawless Days" series, advertised as trades in a row without violations, is
   measured against the total number of rule-following trades, like "Code Keeper".
   */
  lemma ZeroFailCountsAllFollowed(ts: seq<Trade>, logs: seq<PsychologyEntry>, u: User)
    ensures Table(MetricsOf(ts, logs, u))[5].source == Count(ts, Followed) as real
    ensures Table(MetricsOf(ts, logs, u))[5].source == Table(MetricsOf(ts, logs, u))[3].source
  {
  }
}

=== FILE: calendar.dfy ===
/**
 The calendar page (pages/Calendar.tsx): the month grid of day cells keyed by
 `YYYY-MM-DD`, its split into weeks, the month statistics, the rule-compliance mark
 of a day, month navigation and the win ratio of a selected week.
 */
module Calendar {
  import opened Common
  import opened Records
  import opened Dates

  datatype DayData = DayData(
    day: int, date: string, trades: seq<Trade>, psychology: Option<PsychologyEntry>, pl: real)

  /** The cell of day `d` keyed `key`: the trades and first journal entry dated exactly with the key, and their P/L. */
  function Cell(key: string, d: int, ts: seq<Trade>, logs: seq<PsychologyEntry>): (c: DayData)
  {
    var dayTrades := Filter(ts, DatedOn(key));
    DayData(d, key, dayTrades, Find(logs, EntryDatedOn(key)), SumOf(dayTrades, PL))
  }

  /** The grid: `first` empty slots, then one cell per day of the month. */
  function Grid(y: int, m: int, first: nat, ts: seq<Trade>, logs: seq<PsychologyEntry>): seq<Option<DayData>>
    requires 0 <= m < 12
  {
    Blanks(first) + MonthCells(y, m, ts, logs)
  }

  function Blanks(n: nat): (r: seq<Option<DayData>>)
    ensures |r| == n
  {
    if n == 0 then [] else Blanks(n - 1) + [None]
  }

  lemma {:induction false} BlanksEmpty(n: nat)
    ensures forall k :: 0 <= k < n ==> Blanks(n)[k].None?
  {
    if n > 0 {
      BlanksEmpty(n - 1);
      assert forall k :: 0 <= k < n - 1 ==> Blanks(n)[k] == Blanks(n - 1)[k];
    }
  }

  /** One filled slot per day of the month. */
  function MonthCells(y: int, m: int, ts: seq<Trade>, logs: seq<PsychologyEntry>): seq<Option<DayData>>
    requires 0 <= m < 12
  {
    KeyCells(MonthKeys(y, m), ts, logs)
  }

  function KeyCells(keys: seq<string>, ts: seq<Trade>, logs: seq<PsychologyEntry>): (r: seq<Option<DayData>>)
    ensures |r| == |keys|
  {
    seq(|keys|, k requires 0 <= k < |keys| => Some(Cell(keys[k], k + 1, ts, logs)))
  }

  /** Slot `k` of the month's cells is the cell of day `k + 1`, keyed with that day's date. */
  lemma MonthCellAt(y: int, m: int, ts: seq<Trade>, logs: seq<PsychologyEntry>, k: int)
    requires 0 <= m < 12 && 0 <= k < DaysInMonth(y, m)
    ensures |MonthCells(y, m, ts, logs)| == DaysInMonth(y, m)
    ensures MonthCells(y, m, ts, logs)[k] == Some(Cell(DateKey(y, m, k + 1), k + 1, ts, logs))
  {
    MonthKeyAt(y, m, k);
    KeyCellAt(MonthKeys(y, m), ts, logs, k);
  }

  lemma KeyCellAt(keys: seq<string>, ts: seq<Trade>, logs: seq<PsychologyEntry>, k: int)
    requires 0 <= k < |keys|
    ensures KeyCells(keys, ts, logs)[k] == Some(Cell(keys[k], k + 1, ts, logs))
  {
  }

  /** The month's grid, led by as many empty slots as the weekday of the first of the month. */
  function MonthGrid(y: int, m: int, ts: seq<Trade>, logs: seq<PsychologyEntry>): seq<Option<DayData>>
    requires 0 <= m < 12
  {
    Grid(y, m, Weekday(y, m, 1), ts, logs)
  }

  /**
   The `days` loops of `monthInfo`: one empty slot per weekday before the first of the
   month, then for each day the trades and the first journal entry dated with its key.
   */
  method BuildGrid(y: int, m: int, ts: seq<Trade>, logs: seq<PsychologyEntry>) returns (days: seq<Option<DayData>>)
    requires 0 <= m < 12
    ensures days == MonthGrid(y, m, ts, logs)
  {
    var first := Weekday(y, m, 1);
    var n := DaysInMonth(y, m);
    days := LeadingBlanks(first);
    ghost var lead, cells := days, MonthCells(y, m, ts, logs);
    PrefixNone(lead, cells);
    var i := 1;
    while i <= n
      invariant 1 <= i <= n + 1
      invariant days == lead + cells[..i - 1]
    {
      var key := DateKey(y, m, i);
      GridStep(y, m, ts, logs, lead, i - 1);
      days := days + [Some(Cell(key, i, ts, logs))];
      i := i + 1;
    }
    GridDone(y, m, ts, logs);
  }

  lemma PrefixNone<T>(lead: seq<T>, s: seq<T>)
    ensures lead + s[..0] == lead
  {
  }

  /** Once every day is placed, the slots are the month's grid. */
  lemma GridDone(y: int, m: int, ts: seq<Trade>, logs: seq<PsychologyEntry>)
    requires 0 <= m < 12
    ensures Blanks(Weekday(y, m, 1)) + MonthCells(y, m, ts, logs)[..DaysInMonth(y, m)] == MonthGrid(y, m, ts, logs)
  {
    MonthCellAt(y, m, ts, logs, 0);
    PrefixAll(MonthCells(y, m, ts, logs));
  }

  /** The first loop of `monthInfo`: one empty slot per weekday before the first of the month. */
  method LeadingBlanks(first: nat) returns (days: seq<Option<DayData>>)
    ensures days == Blanks(first)
    ensures forall k :: 0 <= k < |days| ==> days[k].None?
  {
    days := [];
    var i := 0;
    while i < first
      invariant 0 <= i <= first
      invariant days == Blanks(i)
    {
      days := days + [None];
      i := i + 1;
    }
    BlanksEmpty(first);
  }

  /** Appending the cell of day `k + 1` extends the grid built so far by one slot. */
  lemma GridStep(y: int, m: int, ts: seq<Trade>, logs: seq<PsychologyEntry>, lead: seq<Option<DayData>>, k: nat)
    requires 0 <= m < 12 && k < DaysInMonth(y, m)
    ensures var cells := MonthCells(y, m, ts, logs);
            lead + cells[..k] + [Some(Cell(DateKey(y, m, k + 1), k + 1, ts, logs))] == lead + cells[..k + 1]
  {
    MonthCellAt(y, m, ts, logs, k);
    ExtendPrefix(lead, MonthCells(y, m, ts, logs), k, Some(Cell(DateKey(y, m, k + 1), k + 1, ts, logs)));
  }

  lemma ExtendPrefix<T>(lead: seq<T>, s: seq<T>, i: nat, x: T)
    requires i < |s| && s[i] == x
    ensures lead + s[..i] + [x] == lead + s[..i + 1]
  {
    PrefixSnoc(s, i);
  }

  lemma PrefixAll<T>(s: seq<T>)
    ensures s[..|s|] == s
  {
  }

  lemma PrefixSnoc<T>(s: seq<T>, i: nat)
    requires i < |s|
    ensures s[..i + 1] == s[..i] + [s[i]]
  {
  }

  /** The non-empty slots of the grid, in order. */
  function Present(days: seq<Option<DayData>>): (r: seq<DayData>)
    ensures |r| <= |days|
  {
    if |days| == 0 then []
    else (if days[0].Some? then [days[0].value] else []) + Present(days[1..])
  }

  lemma PresentAppend(a: seq<Option<DayData>>, b: seq<Option<DayData>>)
    ensures Present(a + b) == Present(a) + Present(b)
  {
    if |a| > 0 {
      assert (a + b)[0] == a[0];
      assert (a + b)[1..] == a[1..] + b;
      PresentAppend(a[1..], b);
    } else {
      assert a + b == b;
    }
  }

  function Concat(weeks: seq<seq<DayData>>): seq<DayData>
  {
    if |weeks| == 0 then [] else weeks[0] + Concat(weeks[1..])
  }

  /**
   The weeks of a grid: its slots taken seven at a time (the last chunk may be
   shorter), the present days of each chunk, and the chunks without any day dropped.
   */
  function WeeksOf(days: seq<Option<DayData>>): seq<seq<DayData>>
    decreases |days|
  {
    if |days| == 0 then []
    else
      var n := if |days| < 7 then |days| else 7;
      var w := Present(days[..n]);
      (if |w| > 0 then [w] else []) + WeeksOf(days[n..])
  }

  /** Reading the weeks one after another gives back the days in order; every week holds 1 to 7 days. */
  lemma {:induction false} WeeksOfCover(days: seq<Option<DayData>>)
    ensures Concat(WeeksOf(days)) == Present(days)
    ensures forall k :: 0 <= k < |WeeksOf(days)| ==> 1 <= |WeeksOf(days)[k]| <= 7
    decreases |days|
  {
    if |days| > 0 {
      var n := if |days| < 7 then |days| else 7;
      var w := Present(days[..n]);
      var rest := WeeksOf(days[n..]);
      WeeksOfCover(days[n..]);
      assert days == days[..n] + days[n..];
      PresentAppend(days[..n], days[n..]);
      if |w| > 0 {
        assert ([w] + rest)[1..] == rest;
      } else {
        assert [] + rest == rest;
      }
    }
  }

  /** Splitting the grid after a whole number of weeks splits its weeks the same way. */
  lemma {:induction false} WeeksOfAppend(a: seq<Option<DayData>>, b: seq<Option<DayData>>)
    requires |a| % 7 == 0
    ensures WeeksOf(a + b) == WeeksOf(a) + WeeksOf(b)
    decreases |a|
  {
    if |a| == 0 {
      assert a + b == b;
    } else {
      assert (a + b)[..7] == a[..7];
      assert (a + b)[7..] == a[7..] + b;
      WeeksOfAppend(a[7..], b);
    }
  }

  /** A grid of one to seven slots is a single week, dropped when it holds no day. */
  lemma WeeksOfChunk(c: seq<Option<DayData>>)
    requires 1 <= |c| <= 7
    ensures WeeksOf(c) == if |Present(c)| > 0 then [Present(c)] else []
  {
    assert c[..|c|] == c;
    assert c[|c|..] == [];
  }

  /**
   The week split of `monthInfo`: cut after every seventh slot and after the last,
   keep the present days, drop the weeks left empty. The result is `WeeksOf` the grid,
   so reading the weeks one after another gives back the days of the month in order
   and every week holds 1 to 7 days.
   */
  method SplitWeeks(days: seq<Option<DayData>>) returns (weeks: seq<seq<DayData>>)
    ensures weeks == WeeksOf(days)
    ensures Concat(weeks) == Present(days)
    ensures forall k :: 0 <= k < |weeks| ==> 1 <= |weeks[k]| <= 7
  {
    weeks := [];
    var current: seq<DayData> := [];
    var index := 0;
    ghost var start := 0;
    while index < |days|
      invariant 0 <= start <= index <= |days|
      invariant index < |days| ==> start % 7 == 0 && index - start < 7
      invariant index == |days| ==> start == |days|
      invariant weeks == WeeksOf(days[..start])
      invariant current == Present(days[start..index])
    {
      ChunkStep(days, start, index);
      if days[index].Some? {
        current := current + [days[index].value];
      }
      if (index + 1) % 7 == 0 || index == |days| - 1 {
        ChunkClose(days, start, index, current);
        if |current| > 0 {
          weeks := weeks + [current];
        }
        current := [];
        start := index + 1;
      } else {
        SameWeek(start, index);
      }
      index := index + 1;
    }
    assert days[..|days|] == days;
    WeeksOfCover(days);
  }

  /** A slot that does not end a row of seven leaves room in the row for the next one. */
  lemma SameWeek(start: nat, i: nat)
    requires start % 7 == 0 && start <= i && i - start < 7 && (i + 1) % 7 != 0
    ensures i + 1 - start < 7
  {
  }

  lemma ChunkStep(days: seq<Option<DayData>>, start: nat, i: nat)
    requires start <= i < |days|
    ensures Present(days[start..i + 1]) == Present(days[start..i]) + (if days[i].Some? then [days[i].value] else [])
  {
    assert days[start..i + 1] == days[start..i] + [days[i]];
    PresentAppend(days[start..i], [days[i]]);
    assert [days[i]][1..] == [];
  }

  /** Closing the chunk `start..i` adds its week, if it has a day, to the weeks so far. */
  lemma ChunkClose(days: seq<Option<DayData>>, start: nat, i: nat, c: seq<DayData>)
    requires start <= i < |days| && start % 7 == 0 && i - start < 7
    requires c == Present(days[start..i + 1])
    ensures WeeksOf(days[..i + 1]) == WeeksOf(days[..start]) + (if |c| > 0 then [c] else [])
  {
    assert days[..i + 1] == days[..start] + days[start..i + 1];
    WeeksOfAppend(days[..start], days[start..i + 1]);
    WeeksOfChunk(days[start..i + 1]);
  }

  /** The keys of the days of the month, 1 to `DaysInMonth`, as the cells carry them. */
  function MonthKeys(y: int, m: int): (keys: seq<string>)
    requires 0 <= m < 12
    ensures |keys| == DaysInMonth(y, m)
  {
    seq(DaysInMonth(y, m), i requires 0 <= i < DaysInMonth(y, m) => DateKey(y, m, i + 1))
  }

  ghost predicate Distinct(keys: seq<string>)
  {
    forall i, j :: 0 <= i < j < |keys| ==> keys[i] != keys[j]
  }

  /** Different days of a month of a four-digit year have different keys. */
  lemma MonthKeysDistinct(y: int, m: int)
    requires 1000 <= y <= 9999 && 0 <= m < 12
    ensures Distinct(MonthKeys(y, m))
  {
    var keys := MonthKeys(y, m);
    forall i, j | 0 <= i < j < |keys| ensures keys[i] != keys[j]
    {
      KeysDiffer(y, m, i, j);
    }
  }

  lemma KeysDiffer(y: int, m: int, i: int, j: int)
    requires 1000 <= y <= 9999 && 0 <= m < 12
    requires 0 <= i < j < DaysInMonth(y, m)
    ensures MonthKeys(y, m)[i] != MonthKeys(y, m)[j]
  {
    MonthKeyParses(y, m, i);
    MonthKeyParses(y, m, j);
  }

  /** The key of the cell at index `i` reads back as day `i + 1` of the month. */
  lemma MonthKeyParses(y: int, m: int, i: int)
    requires 1000 <= y <= 9999 && 0 <= m < 12
    requires 0 <= i < DaysInMonth(y, m)
    ensures ParseDate(MonthKeys(y, m)[i]) == Some(CalendarDate(y, m, i + 1))
  {
    MonthKeyAt(y, m, i);
    DateKeyParses(y, m, i + 1);
  }

  lemma MonthKeyAt(y: int, m: int, i: int)
    requires 0 <= m < 12 && 0 <= i < DaysInMonth(y, m)
    ensures MonthKeys(y, m)[i] == DateKey(y, m, i + 1)
  {
  }

  /** A trade is dated with one of the keys. */
  function DatedIn(keys: seq<string>): Trade -> bool
  {
    (t: Trade) => t.date in keys
  }

  /** The P/L and the number of the trades in the cells of the given keys. */
  function KeySum(ts: seq<Trade>, keys: seq<string>): real
  {
    if |keys| == 0 then 0.0 else SumOf(Filter(ts, DatedOn(keys[0])), PL) + KeySum(ts, keys[1..])
  }

  function KeyCount(ts: seq<Trade>, keys: seq<string>): nat
  {
    if |keys| == 0 then 0 else Count(ts, DatedOn(keys[0])) + KeyCount(ts, keys[1..])
  }

  lemma {:induction false} KeyHead(ts: seq<Trade>, keys: seq<string>)
    requires Distinct(keys) && |ts| > 0
    ensures KeySum(ts, keys) == (if ts[0].date in keys then ts[0].profitLoss else 0.0) + KeySum(ts[1..], keys)
    ensures KeyCount(ts, keys) == (if ts[0].date in keys then 1 else 0) + KeyCount(ts[1..], keys)
  {
    if |keys| > 0 {
      KeyHead(ts, keys[1..]);
      SumFilterHead(ts, DatedOn(keys[0]), PL);
      InDistinct(ts[0].date, keys);
    }
  }

  /** In a list of distinct keys, a key is either the head or in the tail, never both. */
  lemma InDistinct(x: string, keys: seq<string>)
    requires Distinct(keys) && |keys| > 0
    ensures x in keys <==> x == keys[0] || x in keys[1..]
    ensures !(x == keys[0] && x in keys[1..])
  {
    assert keys == [keys[0]] + keys[1..];
  }

  lemma {:induction false} KeysEmpty(ts: seq<Trade>, keys: seq<string>)
    requires |ts| == 0
    ensures KeySum(ts, keys) == 0.0 && KeyCount(ts, keys) == 0
  {
    if |keys| > 0 {
      KeysEmpty(ts, keys[1..]);
    }
  }

  /**
   With distinct keys each trade lands in at most one cell: the cells together hold
   the P/L and the number of exactly the trades dated with one of the keys.
   */
  lemma {:induction false} KeysPartition(ts: seq<Trade>, keys: seq<string>)
    requires Distinct(keys)
    ensures KeySum(ts, keys) == SumOf(Filter(ts, DatedIn(keys)), PL)
    ensures KeyCount(ts, keys) == Count(ts, DatedIn(keys))
  {
    if |ts| == 0 {
      KeysEmpty(ts, keys);
    } else {
      KeysPartition(ts[1..], keys);
      KeyHead(ts, keys);
      SumFilterHead(ts, DatedIn(keys), PL);
    }
  }

  datatype MonthStats = MonthStats(monthPL: real, totalTrades: nat, tradingDays: nat, profitableDays: nat)

  function DayPL(d: DayData): real { d.pl }

  predicate Trading(d: DayData) { |d.trades| > 0 }

  predicate Profitable(d: DayData) { d.pl > 0.0 }

  /** The sum of the trade counts of the days. */
  function TradeTotal(ds: seq<DayData>): nat
  {
    if |ds| == 0 then 0 else |ds[0].trades| + TradeTotal(ds[1..])
  }

  /** `stats`: over the present cells, the P/L, trade count, days with trades and days in profit. */
  function Stats(days: seq<Option<DayData>>): (s: MonthStats)
    ensures s.tradingDays <= |Present(days)| && s.profitableDays <= |Present(days)|
  {
    var monthDays := Present(days);
    MonthStats(SumOf(monthDays, DayPL), TradeTotal(monthDays), Count(monthDays, Trading), Count(monthDays, Profitable))
  }

  /** A cell holds the trades dated with its key, and their P/L. */
  ghost predicate CellOf(ts: seq<Trade>, key: string, d: DayData)
  {
    d.trades == Filter(ts, DatedOn(key)) && d.pl == SumOf(d.trades, PL)
  }

  lemma {:induction false} CellsAddUp(ts: seq<Trade>, keys: seq<string>, ds: seq<DayData>)
    requires |ds| == |keys| && forall k :: 0 <= k < |ds| ==> CellOf(ts, keys[k], ds[k])
    ensures SumOf(ds, DayPL) == KeySum(ts, keys) && TradeTotal(ds) == KeyCount(ts, keys)
  {
    if |ds| > 0 {
      CellsAddUp(ts, keys[1..], ds[1..]);
    }
  }

  lemma {:induction false} PresentNone(s: seq<Option<DayData>>)
    requires forall i :: 0 <= i < |s| ==> s[i].None?
    ensures Present(s) == []
  {
    if |s| > 0 {
      PresentNone(s[1..]);
    }
  }

  lemma {:induction false} PresentAll(s: seq<Option<DayData>>)
    requires forall i :: 0 <= i < |s| ==> s[i].Some?
    ensures |Present(s)| == |s| && forall i :: 0 <= i < |s| ==> Present(s)[i] == s[i].value
  {
    if |s| > 0 {
      PresentAll(s[1..]);
    }
  }

  /** The present cells of the grid are the days of the month, each holding the trades dated with its key. */
  lemma GridCells(y: int, m: int, first: nat, ts: seq<Trade>, logs: seq<PsychologyEntry>)
    requires 0 <= m < 12
    ensures var cells := Present(Grid(y, m, first, ts, logs));
            |cells| == DaysInMonth(y, m)
            && forall k :: 0 <= k < |cells| ==> cells[k].day == k + 1 && CellOf(ts, MonthKeys(y, m)[k], cells[k])
  {
    GridPresent(y, m, first, ts, logs);
    var keys := MonthKeys(y, m);
    KeyedCells(keys, ts, logs);
  }

  /** Slots that each hold the cell of their key give, read in order, cells carrying those keys' trades. */
  lemma KeyedCells(keys: seq<string>, ts: seq<Trade>, logs: seq<PsychologyEntry>)
    ensures var cells := Present(KeyCells(keys, ts, logs));
            |cells| == |keys|
            && forall k :: 0 <= k < |keys| ==> cells[k].day == k + 1 && CellOf(ts, keys[k], cells[k])
  {
    var cells := Present(KeyCells(keys, ts, logs));
    PresentAll(KeyCells(keys, ts, logs));
    forall k | 0 <= k < |keys|
      ensures cells[k].day == k + 1 && CellOf(ts, keys[k], cells[k])
    {
      KeyedCellAt(keys, ts, logs, k);
    }
  }

  lemma KeyedCellAt(keys: seq<string>, ts: seq<Trade>, logs: seq<PsychologyEntry>, k: int)
    requires 0 <= k < |keys|
    ensures |Present(KeyCells(keys, ts, logs))| == |keys|
    ensures Present(KeyCells(keys, ts, logs))[k] == Cell(keys[k], k + 1, ts, logs)
  {
    PresentAll(KeyCells(keys, ts, logs));
  }

  /** The empty slots before the first of the month contribute no cells. */
  lemma GridPresent(y: int, m: int, first: nat, ts: seq<Trade>, logs: seq<PsychologyEntry>)
    requires 0 <= m < 12
    ensures Present(Grid(y, m, first, ts, logs)) == Present(MonthCells(y, m, ts, logs))
  {
    BlanksPresent(first, MonthCells(y, m, ts, logs));
  }

  lemma {:induction false} BlanksPresent(n: nat, tail: seq<Option<DayData>>)
    ensures Present(Blanks(n) + tail) == Present(tail)
  {
    if n > 0 {
      var t: seq<Option<DayData>> := [None] + tail;
      assert Blanks(n) + tail == Blanks(n - 1) + t;
      BlanksPresent(n - 1, t);
      assert t[0].None? && t[1..] == tail;
      assert Present(t) == Present(tail);
    } else {
      assert Blanks(n) + tail == tail;
    }
  }

  /**
   The month statistics count every trade dated in the month once: the month P/L is
   the P/L of those trades and the trade total their number, and there are no more
   days in profit than trading days and no more trading days than days in the month.
   */
  lemma MonthStatsFacts(y: int, m: int, ts: seq<Trade>, logs: seq<PsychologyEntry>)
    requires 1000 <= y <= 9999 && 0 <= m < 12
    ensures var s := Stats(MonthGrid(y, m, ts, logs));
            s.monthPL == SumOf(Filter(ts, DatedIn(MonthKeys(y, m))), PL)
            && s.totalTrades == Count(ts, DatedIn(MonthKeys(y, m)))
            && s.profitableDays <= s.tradingDays <= DaysInMonth(y, m)
  {
    var first := Weekday(y, m, 1);
    var cells := Present(Grid(y, m, first, ts, logs));
    var keys := MonthKeys(y, m);
    GridCells(y, m, first, ts, logs);
    MonthKeysDistinct(y, m);
    CellsAddUp(ts, keys, cells);
    KeysPartition(ts, keys);
    forall k | 0 <= k < |cells| && Profitable(cells[k]) ensures Trading(cells[k])
    {
      assert cells[k].pl == SumOf(cells[k].trades, PL);
    }
    CountMono(cells, Profitable, Trading);
  }

  datatype Compliance = FullCompliance | PartialCompliance | LowCompliance

  lemma RatioThresholds(k: real, n: real)
    requires 0.0 <= k <= n && n > 0.0
    ensures k / n == 1.0 <==> k == n
    ensures k / n >= 0.5 <==> 2.0 * k >= n
  {
    assert (k / n) * n == k;
    if k / n >= 0.5 {
      assert (k / n) * n >= 0.5 * n;
    } else {
      assert (k / n) * n < 0.5 * n;
    }
  }

  /**
   `getRuleComplianceIcon`: no mark without trades; green when every trade followed
   the rules, amber when at least half did, red otherwise.
   */
  function ComplianceMark(d: DayData): (c: Option<Compliance>)
    ensures c.None? <==> |d.trades| == 0
    ensures c == Some(FullCompliance) <==> |d.trades| > 0 && Count(d.trades, Followed) == |d.trades|
    ensures c == Some(PartialCompliance) <==>
              Count(d.trades, Followed) < |d.trades| && 2 * Count(d.trades, Followed) >= |d.trades|
    ensures c == Some(LowCompliance) <==> |d.trades| > 0 && 2 * Count(d.trades, Followed) < |d.trades|
  {
    if |d.trades| == 0 then None
    else
      var followed := Count(d.trades, Followed);
      var ratio := (followed as real) / (|d.trades| as real);
      RatioThresholds(followed as real, |d.trades| as real);
      if ratio == 1.0 then Some(FullCompliance)
      else if ratio >= 0.5 then Some(PartialCompliance)
      else Some(LowCompliance)
  }

  /** `Math.round(x)` for `x >= 0`: the nearest integer, halves rounding up. */
  function Round(x: real): (r: int)
    requires x >= 0.0
    ensures r >= 0 && x - 0.5 < r as real <= x + 0.5
  {
    (x + 0.5).Floor
  }

  /**
   The selected week's win ratio: the profitable share of its trading days as a
   rounded percentage, 0 without trading days.
   */
  function WeekWinRatio(week: seq<DayData>): (r: int)
    ensures Count(week, Trading) == 0 ==> r == 0
    ensures r >= 0
    ensures Count(week, Profitable) <= Count(week, Trading) ==> r <= 100
    ensures Count(week, Trading) > 0 && Count(week, Profitable) == 0 ==> r == 0
    ensures Count(week, Trading) > 0 && Count(week, Profitable) == Count(week, Trading) ==> r == 100
    ensures Count(week, Trading) > 0 ==>
              var x := 100.0 * (Count(week, Profitable) as real) / (Count(week, Trading) as real);
              x - 0.5 < r as real <= x + 0.5
  {
    var trading := Count(week, Trading);
    if trading > 0 then
      PercentValue(Count(week, Profitable), trading);
      Round(Percent(Count(week, Profitable), trading, 0.0))
    else 0
  }

  /** A percentage of a non-empty whole is `100 * part / whole`. */
  lemma PercentValue(part: nat, whole: nat)
    requires whole > 0
    ensures Percent(part, whole, 0.0) == 100.0 * (part as real) / (whole as real)
  {
  }
}

=== FILE: checklist.dfy ===
/**
 The daily checklist (components/DailyChecklist.tsx): four tasks with XP rewards,
 two of them ticked automatically when a trade or a journal entry is dated today,
 a progress percentage, and the click that flips a task and awards its XP when it
 gets ticked. The stored list of the day is an input; the XP update itself is a
 store routine outside this model, so the award is returned as a number.
 */
module Checklist {
  import opened Common
  import opened Records

  /** A task; `labelKey` is the translation key of its text. */
  datatype Item = Item(id: string, labelKey: string, completed: bool, xp: int)

  /** The day's tasks when nothing was stored for today. */
  const DefaultItems: seq<Item> := [
    Item("log_trade", "logTradeTask", false, 10),
    Item("psych_note", "psychNoteTask", false, 15),
    Item("rules_check", "rulesCheckTask", false, 5),
    Item("review_perf", "reviewPerfTask", false, 10)
  ]

  lemma DefaultRewards()
    ensures |DefaultItems| == 4
    ensures forall i :: 0 <= i < 4 ==> !DefaultItems[i].completed
    ensures DefaultItems[0].xp == 10 && DefaultItems[1].xp == 15 && DefaultItems[2].xp == 5 && DefaultItems[3].xp == 10
  {
  }

  /** The label key the sync refreshes for the four known ids. */
  function LabelFor(item: Item): string
  {
    if item.id == "log_trade" then "logTradeTask"
    else if item.id == "psych_note" then "psychNoteTask"
    else if item.id == "rules_check" then "rulesCheckTask"
    else if item.id == "review_perf" then "reviewPerfTask"
    else item.labelKey
  }

  /** One task after the sync: ticked if it already was, or if today's activity completes it. */
  function SyncItem(item: Item, tradedToday: bool, journaledToday: bool): (r: Item)
    ensures r.id == item.id && r.xp == item.xp
    ensures r.completed <==> item.completed || (item.id == "log_trade" && tradedToday)
                                            || (item.id == "psych_note" && journaledToday)
  {
    var refreshed := item.(labelKey := LabelFor(item));
    var refreshed := if item.id == "log_trade" && tradedToday then refreshed.(completed := true) else refreshed;
    if item.id == "psych_note" && journaledToday then refreshed.(completed := true) else refreshed
  }

  /**
   The first effect: today's stored list (or the defaults), each task synced with the
   trades and journal entries dated today. No task loses its tick; the trade-logging
   task gets one when some trade is dated today, the journal task when some entry is,
   and no task gets one otherwise.
   */
  function Sync(saved: Option<seq<Item>>, ts: seq<Trade>, es: seq<PsychologyEntry>, today: string): (r: seq<Item>)
    ensures |r| == |if saved.Some? then saved.value else DefaultItems|
    ensures forall i :: 0 <= i < |r| ==>
              var item := (if saved.Some? then saved.value else DefaultItems)[i];
              r[i].id == item.id && r[i].xp == item.xp && (item.completed ==> r[i].completed)
    ensures forall i :: 0 <= i < |r| ==>
              var item := (if saved.Some? then saved.value else DefaultItems)[i];
              r[i].completed <==> item.completed
                                  || (item.id == "log_trade" && exists k :: 0 <= k < |ts| && ts[k].date == today)
                                  || (item.id == "psych_note" && exists k :: 0 <= k < |es| && es[k].date == today)
  {
    var initial := if saved.Some? then saved.value else DefaultItems;
    SyncAll(initial, |Filter(ts, DatedOn(today))| > 0, |Filter(es, EntryDatedOn(today))| > 0)
  }

  function SyncAll(initial: seq<Item>, tradedToday: bool, journaledToday: bool): (r: seq<Item>)
    ensures |r| == |initial|
    ensures forall i :: 0 <= i < |r| ==> r[i] == SyncItem(initial[i], tradedToday, journaledToday)
  {
    seq(|initial|, i requires 0 <= i < |initial| => SyncItem(initial[i], tradedToday, journaledToday))
  }

  /** A trade dated today ticks the trade-logging task, wherever it sits in the list. */
  lemma TradeTodayTicksLog(saved: Option<seq<Item>>, ts: seq<Trade>, es: seq<PsychologyEntry>, today: string, k: int)
    requires 0 <= k < |ts| && ts[k].date == today
    ensures forall i :: 0 <= i < |Sync(saved, ts, es, today)| && Sync(saved, ts, es, today)[i].id == "log_trade" ==>
              Sync(saved, ts, es, today)[i].completed
  {
    assert DatedOn(today)(ts[k]);
    assert ts[k] in Filter(ts, DatedOn(today));
    var initial := if saved.Some? then saved.value else DefaultItems;
    assert Sync(saved, ts, es, today) == SyncAll(initial, true, |Filter(es, EntryDatedOn(today))| > 0);
  }

  predicate Done(item: Item) { item.completed }

  /** `progress`: the ticked share in percent, 0 for an empty list. */
  function Progress(items: seq<Item>): (p: real)
    ensures 0.0 <= p <= 100.0
    ensures |items| == 0 ==> p == 0.0
    ensures |items| > 0 ==> Times(|items|, p) == 100.0 * (Count(items, Done) as real)
    ensures p == 100.0 <==> |items| > 0 && forall i :: 0 <= i < |items| ==> items[i].completed
  {
    Percent(Count(items, Done), |items|, 0.0)
  }

  /** The item after a click on the task `id`. */
  function Flip(item: Item, id: string): Item
  {
    if item.id == id then item.(completed := !item.completed) else item
  }

  /** The XP a click on `id` awards: the reward of each matching task that was not yet ticked. */
  function Award(items: seq<Item>, id: string): int
  {
    if |items| == 0 then 0
    else (if items[0].id == id && !items[0].completed then items[0].xp else 0) + Award(items[1..], id)
  }

  /**
   `toggleItem`: the task with the id flips its tick; every other task is unchanged.
   Returns the new list and the XP the click awards.
   */
  function ToggleItem(items: seq<Item>, id: string): (r: (seq<Item>, int))
    ensures |r.0| == |items|
    ensures forall i :: 0 <= i < |items| && items[i].id == id ==>
              r.0[i].completed == !items[i].completed && r.0[i] == items[i].(completed := r.0[i].completed)
    ensures forall i :: 0 <= i < |items| && items[i].id != id ==> r.0[i] == items[i]
    ensures r.1 == Award(items, id)
  {
    (seq(|items|, i requires 0 <= i < |items| => Flip(items[i], id)), Award(items, id))
  }

  /** Two clicks on the same task give back the list as it was. */
  lemma ToggleTwice(items: seq<Item>, id: string)
    ensures ToggleItem(ToggleItem(items, id).0, id).0 == items
  {
  }

  predicate UniqueIds(items: seq<Item>)
  {
    forall i, j :: 0 <= i < j < |items| ==> items[i].id != items[j].id
  }

  /** Without a matching task a click awards nothing. */
  lemma {:induction false} AwardAbsent(items: seq<Item>, id: string)
    requires forall i :: 0 <= i < |items| ==> items[i].id != id
    ensures Award(items, id) == 0
  {
    if |items| > 0 {
      AwardAbsent(items[1..], id);
    }
  }

  /** With unique ids, the task's reward is awarded exactly when the click ticks it. */
  lemma {:induction false} AwardOnTick(items: seq<Item>, k: int)
    requires UniqueIds(items) && 0 <= k < |items|
    ensures Award(items, items[k].id) == if items[k].completed then 0 else items[k].xp
  {
    var id := items[k].id;
    if k == 0 {
      AwardAbsent(items[1..], id);
    } else {
      assert UniqueIds(items[1..]);
      assert items[1..][k - 1] == items[k];
      AwardOnTick(items[1..], k - 1);
    }
  }

  /** Unticking a task and ticking it again awards its reward a second time. */
  lemma RecheckAwardsAgain(items: seq<Item>, k: int)
    requires UniqueIds(items) && 0 <= k < |items| && items[k].completed
    ensures ToggleItem(items, items[k].id).1 == 0
    ensures ToggleItem(ToggleItem(items, items[k].id).0, items[k].id).1 == items[k].xp
  {
    var id := items[k].id;
    var once := ToggleItem(items, id).0;
    AwardOnTick(items, k);
    assert UniqueIds(once) by {
      forall i, j | 0 <= i < j < |once| ensures once[i].id != once[j].id {
        assert once[i].id == items[i].id && once[j].id == items[j].id;
      }
    }
    AwardOnTick(once, k);
  }
}

=== FILE: coach.dfy ===
/**
 The motivational coach (components/MotivationalCoach.tsx): a greeting by the hour
 and one message chosen by a fixed chain of rules, the first rule that fires
 winning. The hour, today's date and the dashboard's drawdown and win rate are
 inputs; the message texts come from the translation table and are not modelled.
 */
module Coach {
  import opened Common
  import opened Records
  import Sorting

  datatype Greeting = Morning | Afternoon | Evening

  /** The greeting: morning before noon, afternoon until 18:00, evening after. */
  function GreetingAt(hour: int): (g: Greeting)
    ensures g == Morning <==> hour < 12
    ensures g == Afternoon <==> 12 <= hour < 18
    ensures g == Evening <==> hour >= 18
  {
    if hour >= 18 then Evening else if hour >= 12 then Afternoon else Morning
  }

  /** The message the coach shows, one per rule plus the default. */
  datatype Message = StreakMilestone | DrawdownWarning | ProfitToday(pl: real) | WinRun | LossRun | HighWinRate | Ready

  datatype Tone = Info | Success | Warning | StreakTone

  /** The `type` each message is shown with. */
  function ToneOf(m: Message): Tone
  {
    match m
    case StreakMilestone => StreakTone
    case DrawdownWarning => Warning
    case ProfitToday(_) => Success
    case WinRun => Success
    case LossRun => Warning
    case HighWinRate => Info
    case Ready => Info
  }

  /** `streak > 0 && [3, 7, 14, 30].includes(streak)`. */
  predicate StreakAt(streak: int)
  {
    streak > 0 && streak in [3, 7, 14, 30]
  }

  /** `analytics.currentDDPct > 5`; a NaN drawdown compares false. */
  predicate DeepDrawdown(currentDDPct: Option<real>)
  {
    currentDDPct.Some? && currentDDPct.value > 5.0
  }

  /** The P/L of the trades dated today. */
  function TodayPL(ts: seq<Trade>, today: string): real
  {
    SumOf(Filter(ts, DatedOn(today)), PL)
  }

  /**
   The three most recent trades, newest first: three of the trades, in descending date
   order, and no trade left out is newer than the third.
   */
  function LastThree(ts: seq<Trade>): (r: seq<Trade>)
    requires |ts| >= 3
    ensures |r| == 3 && multiset(r) <= multiset(ts)
    ensures TradeDay(r[0]) >= TradeDay(r[1]) >= TradeDay(r[2])
    ensures forall t :: t in multiset(ts) - multiset(r) ==> TradeDay(t) <= TradeDay(r[2])
  {
    var sorted := Sorting.SortDesc(ts, TradeDay);
    TopThree(sorted);
    sorted[..3]
  }

  /** In a list sorted newest first, whatever follows the first three is no newer than the third. */
  lemma TopThree(s: seq<Trade>)
    requires |s| >= 3 && forall i, j :: 0 <= i < j < |s| ==> TradeDay(s[i]) >= TradeDay(s[j])
    ensures multiset(s) - multiset(s[..3]) == multiset(s[3..])
    ensures forall t :: t in multiset(s[3..]) ==> TradeDay(t) <= TradeDay(s[2])
  {
    assert s == s[..3] + s[3..];
    forall t | t in multiset(s[3..]) ensures TradeDay(t) <= TradeDay(s[2])
    {
      var j :| 0 <= j < |s[3..]| && s[3..][j] == t;
      assert s[3 + j] == t;
    }
  }

  /** At least three trades, and the three most recent all won. */
  predicate WinningRun(ts: seq<Trade>)
  {
    |ts| >= 3 && forall i :: 0 <= i < 3 ==> IsWin(LastThree(ts)[i])
  }

  /** At least three trades, and the three most recent all lost. */
  predicate LosingRun(ts: seq<Trade>)
  {
    |ts| >= 3 && forall i :: 0 <= i < 3 ==> IsLoss(LastThree(ts)[i])
  }

  /** More than ten trades and a win rate above 50%. */
  predicate Seasoned(ts: seq<Trade>, winRate: real)
  {
    |ts| > 10 && winRate > 50.0
  }

  /**
   `coachData`'s message: the first rule that fires, in the order streak milestone,
   drawdown above 5%, profit today, three wins, three losses, a seasoned winner;
   the default otherwise.
   */
  function Choose(ts: seq<Trade>, streak: int, currentDDPct: Option<real>, winRate: real, today: string): (m: Message)
    ensures m == StreakMilestone <==> StreakAt(streak)
    ensures m == DrawdownWarning <==> !StreakAt(streak) && DeepDrawdown(currentDDPct)
    ensures m.ProfitToday? <==> !StreakAt(streak) && !DeepDrawdown(currentDDPct) && TodayPL(ts, today) > 0.0
    ensures m.ProfitToday? ==> m.pl == TodayPL(ts, today)
    ensures m == WinRun <==>
              !StreakAt(streak) && !DeepDrawdown(currentDDPct) && TodayPL(ts, today) <= 0.0 && WinningRun(ts)
    ensures m == LossRun <==>
              !StreakAt(streak) && !DeepDrawdown(currentDDPct) && TodayPL(ts, today) <= 0.0 && !WinningRun(ts)
              && LosingRun(ts)
    ensures m == HighWinRate <==>
              !StreakAt(streak) && !DeepDrawdown(currentDDPct) && TodayPL(ts, today) <= 0.0 && !WinningRun(ts)
              && !LosingRun(ts) && Seasoned(ts, winRate)
  {
    var pl := TodayPL(ts, today);
    if StreakAt(streak) then StreakMilestone
    else if DeepDrawdown(currentDDPct) then DrawdownWarning
    else if pl > 0.0 then ProfitToday(pl)
    else if WinningRun(ts) then WinRun
    else if LosingRun(ts) then LossRun
    else if Seasoned(ts, winRate) then HighWinRate
    else Ready
  }

  /** With no rule firing the coach falls back to the default message, shown as "info". */
  lemma DefaultIsInfo(ts: seq<Trade>, streak: int, currentDDPct: Option<real>, winRate: real, today: string)
    requires !StreakAt(streak) && !DeepDrawdown(currentDDPct) && TodayPL(ts, today) <= 0.0
    requires !WinningRun(ts) && !LosingRun(ts) && !Seasoned(ts, winRate)
    ensures Choose(ts, streak, currentDDPct, winRate, today) == Ready
    ensures ToneOf(Choose(ts, streak, currentDDPct, winRate, today)) == Info
  {
  }

  /** A streak milestone outranks a drawdown warning, however deep the drawdown. */
  lemma StreakOutranksDrawdown(ts: seq<Trade>, streak: int, currentDDPct: Option<real>, winRate: real, today: string)
    requires StreakAt(streak) && DeepDrawdown(currentDDPct)
    ensures ToneOf(Choose(ts, streak, currentDDPct, winRate, today)) == StreakTone
  {
  }

  /** The last three trades cannot all win and all lose. */
  lemma RunsExclusive(ts: seq<Trade>)
    ensures WinningRun(ts) ==> !LosingRun(ts)
  {
    if WinningRun(ts) {
      assert IsWin(LastThree(ts)[0]);
    }
  }

  /** The only streak lengths that earn the milestone message. */
  lemma StreakMilestones(streak: int)
    ensures StreakAt(streak) <==> streak == 3 || streak == 7 || streak == 14 || streak == 30
  {
  }
}

=== FILE: common.dfy ===
/**
 The list primitives the journal's pages use over and over: `filter(...).length`,
 `filter`, `reduce((s, t) => s + f(t), 0)`, and the percentage ratios built from
 them. Every aggregate of the model is written with these, so each fact about
 them (append, partition, permutation) is proved once here.
 */
module Common {

  /** A value that may be missing (`undefined`, `null`, or a JS `NaN` result). */
  datatype Option<+T> = None | Some(value: T)

  /** Number of elements satisfying `p`: `s.filter(p).length`. */
  function Count<T>(s: seq<T>, p: T -> bool): (n: nat)
    ensures n <= |s|
    ensures n == 0 <==> forall i :: 0 <= i < |s| ==> !p(s[i])
    ensures n == |s| <==> forall i :: 0 <= i < |s| ==> p(s[i])
  {
    if |s| == 0 then 0
    else
      var rest := Count(s[1..], p);
      assert forall i :: 1 <= i < |s| ==> s[i] == s[1..][i - 1];
      (if p(s[0]) then 1 else 0) + rest
  }

  /** `s.filter(p)`: the elements satisfying `p`, in their original order. */
  function Filter<T>(s: seq<T>, p: T -> bool): (r: seq<T>)
    ensures |r| == Count(s, p)
    ensures forall i :: 0 <= i < |r| ==> p(r[i])
    ensures forall x :: x in r ==> x in s && p(x)
    ensures forall x :: x in s && p(x) ==> x in r
  {
    if |s| == 0 then []
    else
      var rest := Filter(s[1..], p);
      Uncons(s);
      (if p(s[0]) then [s[0]] else []) + rest
  }

  /** Filtering only drops elements: each value occurs at most as often as in the input. */
  lemma {:induction false} FilterSubMultiset<T>(s: seq<T>, p: T -> bool)
    ensures multiset(Filter(s, p)) <= multiset(s)
  {
    if |s| > 0 {
      FilterSubMultiset(s[1..], p);
      Uncons(s);
      FilterCons(s[0], s[1..], p);
    }
  }

  /** `s.reduce((acc, x) => acc + f(x), 0)`. */
  function SumOf<T>(s: seq<T>, f: T -> real): real
  {
    if |s| == 0 then 0.0 else f(s[0]) + SumOf(s[1..], f)
  }

  lemma FilterCons<T>(a: T, t: seq<T>, p: T -> bool)
    ensures Filter([a] + t, p) == (if p(a) then [a] else []) + Filter(t, p)
  {
    assert ([a] + t)[1..] == t;
  }

  /** Filtering a three-element list of which only the first element qualifies. */
  lemma FilterFirstOfThree<T>(a: T, b: T, c: T, p: T -> bool)
    requires p(a) && !p(b) && !p(c)
    ensures Filter([a, b, c], p) == [a]
  {
    FilterCons(c, [], p);
    assert [b, c] == [b] + [c] && [c] == [c] + [];
    FilterCons(b, [c], p);
    assert [a, b, c] == [a] + [b, c];
    FilterCons(a, [b, c], p);
  }

  /** Filtering a three-element list of which only the last element qualifies. */
  lemma FilterLastOfThree<T>(a: T, b: T, c: T, p: T -> bool)
    requires !p(a) && !p(b) && p(c)
    ensures Filter([a, b, c], p) == [c]
  {
    FilterCons(c, [], p);
    assert [b, c] == [b] + [c] && [c] == [c] + [];
    FilterCons(b, [c], p);
    assert [a, b, c] == [a] + [b, c];
    FilterCons(a, [b, c], p);
  }

  lemma SumThree<T>(a: T, b: T, c: T, f: T -> real)
    ensures SumOf([a, b, c], f) == f(a) + f(b) + f(c)
  {
    assert [c][1..] == [];
    assert SumOf([c], f) == f(c);
    assert [b, c][1..] == [c];
    assert SumOf([b, c], f) == f(b) + f(c);
    assert [a, b, c][1..] == [b, c];
  }

  lemma SumOne<T>(x: T, f: T -> real)
    ensures SumOf([x], f) == f(x)
  {
    assert [x][1..] == [];
  }

  /** `n` copies of `x` added up: a count times an average or a share. */
  function Times(n: nat, x: real): real
  {
    (n as real) * x
  }

  /** A share of a count as a percentage, with the value the page shows for no data. */
  function Percent(part: nat, whole: nat, whenEmpty: real): (r: real)
    ensures whole == 0 ==> r == whenEmpty
    ensures whole > 0 ==> Times(whole, r) == 100.0 * (part as real)
    ensures part <= whole && 0.0 <= whenEmpty <= 100.0 ==> 0.0 <= r <= 100.0
    ensures whole > 0 ==> r >= 0.0 && (r == 0.0 <==> part == 0) && (r == 100.0 <==> part == whole)
  {
    if whole > 0 then PercentBounds(part, whole); (part as real / whole as real) * 100.0
    else whenEmpty
  }

  lemma PercentBounds(part: nat, whole: nat)
    requires 0 < whole
    ensures part <= whole ==> 0.0 <= (part as real / whole as real) * 100.0 <= 100.0
    ensures (whole as real) * ((part as real / whole as real) * 100.0) == 100.0 * (part as real)
    ensures 0.0 <= (part as real / whole as real) * 100.0
    ensures (part as real / whole as real) * 100.0 == 0.0 <==> part == 0
    ensures (part as real / whole as real) * 100.0 == 100.0 <==> part == whole
  {
    var q := part as real / whole as real;
    assert q * (whole as real) == part as real;
    assert q >= 0.0;
  }

  function Max(a: real, b: real): (m: real)
    ensures m >= a && m >= b && (m == a || m == b)
  {
    if a >= b then a else b
  }

  /** `s.find(p)`: the first element satisfying `p`, if any. */
  function Find<T>(s: seq<T>, p: T -> bool): (r: Option<T>)
    ensures r.None? <==> forall i :: 0 <= i < |s| ==> !p(s[i])
    ensures r.Some? ==> exists i :: 0 <= i < |s| && s[i] == r.value && p(s[i]) && forall j :: 0 <= j < i ==> !p(s[j])
  {
    if |s| == 0 then None
    else if p(s[0]) then Some(s[0])
    else
      var r := Find(s[1..], p);
      assert forall i :: 1 <= i < |s| ==> s[i] == s[1..][i - 1];
      r
  }

  /** The search returns the first element that satisfies the predicate. */
  lemma {:induction false} FindFirst<T>(s: seq<T>, p: T -> bool, i: int)
    requires 0 <= i < |s| && p(s[i])
    requires forall j :: 0 <= j < i ==> !p(s[j])
    ensures Find(s, p) == Some(s[i])
  {
    if i > 0 {
      assert s[1..][i - 1] == s[i];
      FindFirst(s[1..], p, i - 1);
    }
  }

  /** `s.slice().reverse()`. */
  function Reverse<T>(s: seq<T>): (r: seq<T>)
    ensures |r| == |s| && forall i :: 0 <= i < |s| ==> r[i] == s[|s| - 1 - i]
  {
    if |s| == 0 then [] else [s[|s| - 1]] + Reverse(s[..|s| - 1])
  }

  // ---------------------------------------------------------------------------
  // Append, partition and permutation facts

  lemma {:induction false} CountAppend<T>(a: seq<T>, b: seq<T>, p: T -> bool)
    ensures Count(a + b, p) == Count(a, p) + Count(b, p)
  {
    if |a| == 0 {
      assert a + b == b;
    } else {
      assert (a + b)[1..] == a[1..] + b;
      CountAppend(a[1..], b, p);
    }
  }

  lemma {:induction false} FilterAppend<T>(a: seq<T>, b: seq<T>, p: T -> bool)
    ensures Filter(a + b, p) == Filter(a, p) + Filter(b, p)
  {
    if |a| == 0 {
      assert a + b == b;
    } else {
      assert (a + b)[1..] == a[1..] + b;
      FilterAppend(a[1..], b, p);
    }
  }

  lemma {:induction false} SumAppend<T>(a: seq<T>, b: seq<T>, f: T -> real)
    ensures SumOf(a + b, f) == SumOf(a, f) + SumOf(b, f)
  {
    if |a| == 0 {
      assert a + b == b;
    } else {
      assert (a + b)[1..] == a[1..] + b;
      SumAppend(a[1..], b, f);
    }
  }

  /** Filtering with a predicate every element satisfies changes nothing. */
  lemma {:induction false} FilterAll<T>(s: seq<T>, p: T -> bool)
    requires forall i :: 0 <= i < |s| ==> p(s[i])
    ensures Filter(s, p) == s
  {
    if |s| > 0 {
      FilterAll(s[1..], p);
      assert s == [s[0]] + s[1..];
    }
  }

  /** Two predicates that never hold together count at most every element once. */
  lemma {:induction false} CountDisjoint<T>(s: seq<T>, p: T -> bool, q: T -> bool)
    requires forall i :: 0 <= i < |s| ==> !(p(s[i]) && q(s[i]))
    ensures Count(s, p) + Count(s, q) <= |s|
  {
    if |s| > 0 {
      CountDisjoint(s[1..], p, q);
    }
  }

  /** A predicate implied by another counts at least as many elements. */
  lemma {:induction false} CountMono<T>(s: seq<T>, p: T -> bool, q: T -> bool)
    requires forall i :: 0 <= i < |s| ==> p(s[i]) ==> q(s[i])
    ensures Count(s, p) <= Count(s, q)
  {
    if |s| > 0 {
      CountMono(s[1..], p, q);
    }
  }

  /** Complementary predicates split the list: the counts add up to its length. */
  lemma {:induction false} CountSplit<T>(s: seq<T>, p: T -> bool, q: T -> bool)
    requires forall i :: 0 <= i < |s| ==> (q(s[i]) <==> !p(s[i]))
    ensures Count(s, p) + Count(s, q) == |s|
  {
    if |s| > 0 {
      CountSplit(s[1..], p, q);
    }
  }

  /** Complementary predicates split the sum as well. */
  lemma {:induction false} SumSplit<T>(s: seq<T>, p: T -> bool, q: T -> bool, f: T -> real)
    requires forall i :: 0 <= i < |s| ==> (q(s[i]) <==> !p(s[i]))
    ensures SumOf(Filter(s, p), f) + SumOf(Filter(s, q), f) == SumOf(s, f)
  {
    if |s| > 0 {
      SumSplit(s[1..], p, q, f);
      var a := if p(s[0]) then [s[0]] else [];
      var b := if q(s[0]) then [s[0]] else [];
      SumAppend(a, Filter(s[1..], p), f);
      SumAppend(b, Filter(s[1..], q), f);
    }
  }

  /** Every element bounded below and above bounds the sum by the count times the bounds. */
  lemma {:induction false} SumBounds<T>(s: seq<T>, f: T -> real, lo: real, hi: real)
    requires forall i :: 0 <= i < |s| ==> lo <= f(s[i]) <= hi
    ensures (|s| as real) * lo <= SumOf(s, f) <= (|s| as real) * hi
  {
    if |s| > 0 {
      SumBounds(s[1..], f, lo, hi);
    }
  }

  /** Terms that are all non-negative have a non-negative sum; all positive and at least one, a positive sum. */
  lemma {:induction false} SumNonNegative<T>(s: seq<T>, f: T -> real)
    requires forall i :: 0 <= i < |s| ==> f(s[i]) >= 0.0
    ensures SumOf(s, f) >= 0.0
    ensures |s| > 0 && (forall i :: 0 <= i < |s| ==> f(s[i]) > 0.0) ==> SumOf(s, f) > 0.0
  {
    if |s| > 0 {
      SumNonNegative(s[1..], f);
    }
  }

  /** Terms that are all non-positive have a non-positive sum. */
  lemma {:induction false} SumNonPositive<T>(s: seq<T>, f: T -> real)
    requires forall i :: 0 <= i < |s| ==> f(s[i]) <= 0.0
    ensures SumOf(s, f) <= 0.0
  {
    if |s| > 0 {
      SumNonPositive(s[1..], f);
    }
  }

  /** The filtered sum, peeled at the first element. */
  lemma SumFilterHead<T>(s: seq<T>, p: T -> bool, f: T -> real)
    requires |s| > 0
    ensures SumOf(Filter(s, p), f) == (if p(s[0]) then f(s[0]) else 0.0) + SumOf(Filter(s[1..], p), f)
  {
    var hd := if p(s[0]) then [s[0]] else [];
    assert Filter(s, p) == hd + Filter(s[1..], p);
    SumAppend(hd, Filter(s[1..], p), f);
    if p(s[0]) {
      assert SumOf(hd, f) == f(s[0]) + SumOf(hd[1..], f);
    }
  }

  /** Filtering depends only on the predicate's values on the list's own elements. */
  lemma {:induction false} FilterExt<T>(s: seq<T>, p: T -> bool, q: T -> bool)
    requires forall i :: 0 <= i < |s| ==> (p(s[i]) <==> q(s[i]))
    ensures Filter(s, p) == Filter(s, q)
  {
    if |s| > 0 {
      FilterExt(s[1..], p, q);
    }
  }

  /** Removing the element at position `i` from a list. */
  function RemoveAt<T>(s: seq<T>, i: nat): (r: seq<T>)
    requires i < |s|
    ensures |r| == |s| - 1
    ensures multiset(r) == multiset(s) - multiset{s[i]}
  {
    assert s == s[..i] + [s[i]] + s[i + 1..];
    s[..i] + s[i + 1..]
  }

  /** Taking one element out of a list takes its share out of the count and the sum. */
  lemma CountSumRemoveAt<T>(b: seq<T>, i: nat, p: T -> bool, f: T -> real)
    requires i < |b|
    ensures Count(b, p) == Count(RemoveAt(b, i), p) + (if p(b[i]) then 1 else 0)
    ensures SumOf(b, f) == SumOf(RemoveAt(b, i), f) + f(b[i])
  {
    Around(b, i);
    CountMiddle(b[..i], b[i], b[i + 1..], p);
    SumMiddle(b[..i], b[i], b[i + 1..], f);
  }

  /** Lists with the same multiset hold the same elements. */
  lemma SameElements<T>(a: seq<T>, b: seq<T>)
    requires multiset(a) == multiset(b)
    ensures forall e :: e in a <==> e in b
  {
    forall e
      ensures e in a <==> e in b
    {
      assert e in a <==> e in multiset(a);
      assert e in b <==> e in multiset(b);
    }
  }

  lemma Uncons<T>(s: seq<T>)
    requires |s| > 0
    ensures [s[0]] + s[1..] == s
  {
  }

  lemma Around<T>(b: seq<T>, i: nat)
    requires i < |b|
    ensures b == b[..i] + [b[i]] + b[i + 1..]
  {
  }

  lemma CountMiddle<T>(u: seq<T>, x: T, v: seq<T>, p: T -> bool)
    ensures Count(u + [x] + v, p) == Count(u + v, p) + (if p(x) then 1 else 0)
  {
    CountAppend(u + [x], v, p);
    CountAppend(u, [x], p);
    CountAppend(u, v, p);
  }

  lemma SumMiddle<T>(u: seq<T>, x: T, v: seq<T>, f: T -> real)
    ensures SumOf(u + [x] + v, f) == SumOf(u + v, f) + f(x)
  {
    SumAppend(u + [x], v, f);
    SumAppend(u, [x], f);
    SumAppend(u, v, f);
  }

  /** Count and sum depend only on the multiset of elements, not on their order. */
  lemma {:induction false} PermutationInvariance<T>(a: seq<T>, b: seq<T>, p: T -> bool, f: T -> real)
    requires multiset(a) == multiset(b)
    ensures Count(a, p) == Count(b, p)
    ensures SumOf(a, f) == SumOf(b, f)
    decreases |a|
  {
    if |a| == 0 {
      assert |b| == |multiset(b)| == 0;
    } else {
      var x := a[0];
      assert x in multiset(b);
      var i :| 0 <= i < |b| && b[i] == x;
      var b' := RemoveAt(b, i);
      assert a == [x] + a[1..];
      assert multiset(a[1..]) == multiset(b');
      PermutationInvariance(a[1..], b', p, f);
      CountSumRemoveAt(b, i, p, f);
    }
  }
}

=== FILE: dashboard.dfy ===
/**
 The dashboard's gamification read-outs (pages/Dashboard.tsx): the level title,
 the XP progress bar, and the once-a-session celebration guard. The page's
 analytics figures are `Equity.Dashboard`.
 */
module DashboardPage {
  import opened Common
  import opened Records

  const LevelNames: seq<string> :=
    ["Beginner", "Apprentice", "Skilled", "Professional", "Elite", "Master", "Legend"]

  /**
   `levels[Math.min(level - 1, levels.length - 1)]`. An absent level (NaN) or one
   below 1 (a negative index) reads `undefined`, which is None here.
   */
  function LevelName(level: Option<int>): (r: Option<string>)
    ensures r.Some? <==> level.Some? && level.value >= 1
    ensures level == Some(1) ==> r == Some("Beginner")
    ensures level.Some? && level.value >= 7 ==> r == Some("Legend")
    ensures level.Some? && 1 <= level.value <= 7 ==> r == Some(LevelNames[level.value - 1])
  {
    match level
    case None => None
    case Some(l) =>
      var idx := if l - 1 < |LevelNames| - 1 then l - 1 else |LevelNames| - 1;
      if 0 <= idx then Some(LevelNames[idx]) else None
  }

  /** Titles never go down as the level rises: the title index is monotone in the level. */
  lemma LevelNameMonotone(a: int, b: int)
    requires 1 <= a <= b
    ensures exists i, j :: 0 <= i <= j < |LevelNames|
              && LevelName(Some(a)) == Some(LevelNames[i]) && LevelName(Some(b)) == Some(LevelNames[j])
  {
    var i := if a - 1 < 6 then a - 1 else 6;
    var j := if b - 1 < 6 then b - 1 else 6;
    assert LevelName(Some(a)) == Some(LevelNames[i]);
    assert LevelName(Some(b)) == Some(LevelNames[j]);
  }

  const XpPerLevel: int := 1000

  /** The "Next:" figure, `level * 1000` (NaN for an absent level). */
  function NextLevelXp(level: Option<int>): (r: Option<int>)
    ensures r.Some? <==> level.Some?
    ensures level.Some? && level.value >= 1 ==> r.value >= XpPerLevel && r.value % XpPerLevel == 0
  {
    match level
    case None => None
    case Some(l) => Some(l * XpPerLevel)
  }

  /** JavaScript's `%` on integers: the remainder takes the sign of the dividend. */
  function JsRem(a: int, b: int): (r: int)
    requires b > 0
    ensures a >= 0 ==> r == a % b && 0 <= r < b
    ensures a < 0 ==> r == -((-a) % b) && -b < r <= 0
  {
    if a >= 0 then a % b else -((-a) % b)
  }

  /** The progress bar width in percent, `(xp % 1000) / 10` (NaN for absent XP). */
  function XpBarWidth(xp: Option<int>): (r: Option<real>)
    ensures r.Some? <==> xp.Some?
    ensures xp.Some? && xp.value >= 0 ==> 0.0 <= r.value < 100.0
  {
    match xp
    case None => None
    case Some(x) => Some((JsRem(x, XpPerLevel) as real) / 10.0)
  }

  /**
   When the stored level is the one the XP has reached (each level spanning 1000 XP),
   the bar shows the fraction of the current level done: the part still missing is
   exactly the XP the "Next:" threshold asks for.
   */
  lemma XpBarMatchesThreshold(xp: nat)
    ensures var level := xp / XpPerLevel + 1;
            (NextLevelXp(Some(level)).value - xp) as real == 1000.0 - XpBarWidth(Some(xp)).value * 10.0
  {
    var level := xp / XpPerLevel + 1;
    assert xp == (xp / XpPerLevel) * XpPerLevel + xp % XpPerLevel;
    assert NextLevelXp(Some(level)).value - xp == XpPerLevel - xp % XpPerLevel;
  }

  /**
   The celebration effect: with a positive return and at least one trade, the last
   listed trade must be dated today with positive P/L and the session flag unset.
   Returns whether the confetti shows and the flag afterwards.
   */
  function Celebrate(totalPLPct: real, trades: seq<Trade>, today: string, celebrated: bool): (r: (bool, bool))
    ensures r.0 <==> totalPLPct > 0.0 && |trades| > 0 && trades[|trades| - 1].date == today
                     && trades[|trades| - 1].profitLoss > 0.0 && !celebrated
    ensures r.1 <==> celebrated || r.0
  {
    if totalPLPct > 0.0 && |trades| > 0 then
      var last := trades[|trades| - 1];
      if last.date == today && last.profitLoss > 0.0 && !celebrated then (true, true)
      else (false, celebrated)
    else (false, celebrated)
  }

  /** Once it has fired, the flag it sets keeps it from firing again in the session. */
  lemma CelebratesAtMostOnce(pct1: real, ts1: seq<Trade>, pct2: real, ts2: seq<Trade>, today: string, celebrated: bool)
    ensures var first := Celebrate(pct1, ts1, today, celebrated);
            first.0 ==> !Celebrate(pct2, ts2, today, first.1).0
    ensures var first := Celebrate(pct1, ts1, today, celebrated);
            Celebrate(pct2, ts2, today, first.1).1
              == (celebrated || first.0 || Celebrate(pct2, ts2, today, celebrated).0)
  {
  }
}

=== FILE: dates.dfy ===
/**
 Calendar arithmetic and the date strings the journal stores.

 Dates are kept as `YYYY-MM-DD` strings (what an `<input type="date">` produces and
 what the calendar page builds as a cell key). `new Date("YYYY-MM-DD")` reads such a
 string as midnight UTC of that day; the model maps it to a day number counted in
 the proleptic Gregorian calendar, which orders dates exactly as the millisecond
 timestamps do. Months are numbered 0..11 as `Date.prototype.getMonth` numbers them.
 */
module Dates {
  import opened Common

  predicate IsLeapYear(y: int)
  {
    y % 4 == 0 && (y % 100 != 0 || y % 400 == 0)
  }

  function YearLength(y: int): int
  {
    if IsLeapYear(y) then 366 else 365
  }

  /** `new Date(y, m + 1, 0).getDate()`: the last day of month `m`. */
  function DaysInMonth(y: int, m: int): (n: int)
    requires 0 <= m < 12
    ensures 28 <= n <= 31
  {
    if m == 1 then (if IsLeapYear(y) then 29 else 28)
    else if m == 3 || m == 5 || m == 8 || m == 10 then 30
    else 31
  }

  /** Days of year `y` that lie before the first of month `m`. */
  function DaysBeforeMonth(y: int, m: int): int
    requires 0 <= m <= 12
  {
    if m == 0 then 0 else DaysBeforeMonth(y, m - 1) + DaysInMonth(y, m - 1)
  }

  /** The twelve month lengths add up to the length of the year. */
  lemma MonthsFillYear(y: int)
    ensures DaysBeforeMonth(y, 12) == YearLength(y)
  {
    assert DaysBeforeMonth(y, 1) == 31;
    assert DaysBeforeMonth(y, 2) == 31 + DaysInMonth(y, 1);
    assert DaysBeforeMonth(y, 3) == 62 + DaysInMonth(y, 1);
    assert DaysBeforeMonth(y, 4) == 92 + DaysInMonth(y, 1);
    assert DaysBeforeMonth(y, 5) == 123 + DaysInMonth(y, 1);
    assert DaysBeforeMonth(y, 6) == 153 + DaysInMonth(y, 1);
    assert DaysBeforeMonth(y, 7) == 184 + DaysInMonth(y, 1);
    assert DaysBeforeMonth(y, 8) == 215 + DaysInMonth(y, 1);
    assert DaysBeforeMonth(y, 9) == 245 + DaysInMonth(y, 1);
    assert DaysBeforeMonth(y, 10) == 276 + DaysInMonth(y, 1);
    assert DaysBeforeMonth(y, 11) == 306 + DaysInMonth(y, 1);
  }

  /** Days from 0001-01-01 to the first of January of year `y` (negative before year 1). */
  function DaysBeforeYear(y: int): int
  {
    365 * (y - 1) + (y - 1) / 4 - (y - 1) / 100 + (y - 1) / 400
  }

  /** Consecutive years are one year length apart. */
  lemma YearStep(y: int)
    ensures DaysBeforeYear(y + 1) == DaysBeforeYear(y) + YearLength(y)
  {
    FourStep(y);
    HundredStep(y);
    FourHundredStep(y);
  }

  lemma FourStep(y: int)
    ensures y / 4 - (y - 1) / 4 == if y % 4 == 0 then 1 else 0
  {
  }

  lemma HundredStep(y: int)
    ensures y / 100 - (y - 1) / 100 == if y % 100 == 0 then 1 else 0
  {
  }

  lemma FourHundredStep(y: int)
    ensures y / 400 - (y - 1) / 400 == if y % 400 == 0 then 1 else 0
  {
  }

  /** Day number of a calendar date, 0 being 0001-01-01. */
  function DayNumber(y: int, m: int, d: int): int
    requires 0 <= m < 12
  {
    DaysBeforeYear(y) + DaysBeforeMonth(y, m) + (d - 1)
  }

  /** Normalised (year, month) of `new Date(y, m + offset, 1)`: month overflow carries into the year. */
  function ChangeMonth(y: int, m: int, offset: int): (r: (int, int))
    ensures 0 <= r.1 < 12
    ensures r.0 * 12 + r.1 == y * 12 + m + offset
  {
    (y + (m + offset) / 12, (m + offset) % 12)
  }

  /** The first of the month after (y, m) is exactly DaysInMonth(y, m) days after the first of (y, m). */
  lemma ConsecutiveMonths(y: int, m: int)
    requires 0 <= m < 12
    ensures var next := ChangeMonth(y, m, 1);
            DayNumber(next.0, next.1, 1) == DayNumber(y, m, 1) + DaysInMonth(y, m)
  {
    if m == 11 {
      MonthsFillYear(y);
      YearStep(y);
    }
  }

  /** `getDay()` of a date: 0 = Sunday ... 6 = Saturday (0001-01-01 was a Monday). */
  function Weekday(y: int, m: int, d: int): (w: int)
    requires 0 <= m < 12
    ensures 0 <= w < 7
  {
    (DayNumber(y, m, d) + 1) % 7
  }

  /** The weekday of the first of the next month follows from the month length. */
  lemma NextFirstWeekday(y: int, m: int)
    requires 0 <= m < 12
    ensures var next := ChangeMonth(y, m, 1);
            Weekday(next.0, next.1, 1) == (Weekday(y, m, 1) + DaysInMonth(y, m)) % 7
  {
    var next := ChangeMonth(y, m, 1);
    ConsecutiveMonths(y, m);
    ShiftWeekday(Weekday(y, m, 1), Weekday(next.0, next.1, 1), DayNumber(y, m, 1), DayNumber(next.0, next.1, 1), DaysInMonth(y, m));
  }

  /** Moving `k` days ahead moves the weekday `(day + 1) % 7` ahead by `k`, modulo 7. */
  lemma ShiftWeekday(wa: int, wb: int, a: int, b: int, k: int)
    requires wa == (a + 1) % 7 && wb == (b + 1) % 7 && b == a + k
    ensures wb == (wa + k) % 7
  {
  }

  /** Day number of 1970-01-01, the origin of JS timestamps. */
  const UnixEpochDay: int := 719162

  const MsPerDay: int := 24 * 60 * 60 * 1000

  lemma UnixEpochAnchor()
    ensures DayNumber(1970, 0, 1) == UnixEpochDay
    ensures Weekday(1970, 0, 1) == 4
  {
  }

  // ---------------------------------------------------------------------------
  // Decimal digits

  predicate IsDigit(c: char)
  {
    '0' <= c <= '9'
  }

  predicate AllDigits(s: string)
  {
    forall i :: 0 <= i < |s| ==> IsDigit(s[i])
  }

  function DigitChar(d: nat): (c: char)
    requires d < 10
    ensures IsDigit(c)
  {
    ('0' as int + d) as char
  }

  function DigitValue(c: char): (d: nat)
    requires IsDigit(c)
    ensures d < 10 && DigitChar(d) == c
  {
    c as int - '0' as int
  }

  /** `String(n)` for a non-negative integer. */
  function NatToString(n: nat): (s: string)
    ensures 1 <= |s| && AllDigits(s)
    ensures |s| > 1 ==> s[0] != '0'
    decreases n
  {
    if n < 10 then [DigitChar(n)] else NatToString(n / 10) + [DigitChar(n % 10)]
  }

  /** `String(n)` for any integer. */
  function IntToString(n: int): string
  {
    if n < 0 then "-" + NatToString(-n) else NatToString(n)
  }

  /** The value of a string of decimal digits (leading zeros allowed). */
  function ParseNat(s: string): nat
    requires AllDigits(s)
  {
    if |s| == 0 then 0 else ParseNat(s[..|s| - 1]) * 10 + DigitValue(s[|s| - 1])
  }

  lemma {:induction false} ParseNatToString(n: nat)
    ensures ParseNat(NatToString(n)) == n
    decreases n
  {
    if n >= 10 {
      var s := NatToString(n);
      assert s[..|s| - 1] == NatToString(n / 10);
      ParseNatToString(n / 10);
    }
  }

  /** `n` copies of `c`. */
  function Fill(n: nat, c: char): (r: string)
    ensures |r| == n && forall i :: 0 <= i < n ==> r[i] == c
  {
    seq(n, _ => c)
  }

  /** `s.padStart(width, fill)`. */
  function PadStart(s: string, width: nat, fill: char): (r: string)
    ensures |r| == if |s| >= width then |s| else width
    ensures r[|r| - |s|..] == s
    ensures forall i :: 0 <= i < |r| - |s| ==> r[i] == fill
  {
    if |s| >= width then s else Fill(width - |s|, fill) + s
  }

  /** Leading zeros do not change the value of a digit string. */
  lemma {:induction false} ParseLeadingZeros(z: string, s: string)
    requires AllDigits(s) && forall i :: 0 <= i < |z| ==> z[i] == '0'
    ensures AllDigits(z + s) && ParseNat(z + s) == ParseNat(s)
    decreases |s|
  {
    if |s| == 0 {
      assert z + s == z;
      ParseZeros(z);
    } else {
      var t := z + s;
      assert t[..|t| - 1] == z + s[..|s| - 1];
      ParseLeadingZeros(z, s[..|s| - 1]);
    }
  }

  lemma {:induction false} ParseZeros(z: string)
    requires forall i :: 0 <= i < |z| ==> z[i] == '0'
    ensures AllDigits(z) && ParseNat(z) == 0
    decreases |z|
  {
    if |z| > 0 {
      ParseZeros(z[..|z| - 1]);
    }
  }

  lemma ParsePadded(s: string, width: nat)
    requires AllDigits(s)
    ensures AllDigits(PadStart(s, width, '0')) && ParseNat(PadStart(s, width, '0')) == ParseNat(s)
  {
    if |s| < width {
      ParseLeadingZeros(Fill(width - |s|, '0'), s);
    }
  }

  lemma NatToStringWidth(n: nat)
    ensures n < 10 ==> |NatToString(n)| == 1
    ensures 10 <= n < 100 ==> |NatToString(n)| == 2
    ensures 1000 <= n < 10000 ==> |NatToString(n)| == 4
  {
    if n >= 10 {
      assert |NatToString(n)| == |NatToString(n / 10)| + 1;
      if n >= 1000 {
        assert |NatToString(n / 10)| == |NatToString(n / 100)| + 1;
        assert |NatToString(n / 100)| == |NatToString(n / 1000)| + 1;
      }
    }
  }

  // ---------------------------------------------------------------------------
  // ISO 8601 calendar dates

  datatype CalendarDate = CalendarDate(year: int, month: int, day: int)

  predicate ValidDate(c: CalendarDate)
  {
    0 <= c.month < 12 && 1 <= c.day <= DaysInMonth(c.year, c.month)
  }

  /**
   The complete extended calendar-date representation of section 4.1.2.2 of
   ISO 8601:2004: four year digits, two month digits, two day digits, hyphen separated.
   */
  predicate IsIsoDate(s: string)
  {
    |s| == 10 && s[4] == '-' && s[7] == '-'
    && AllDigits(s[..4]) && AllDigits(s[5..7]) && AllDigits(s[8..])
  }

  /** A month or day number written with at least two digits: `String(n).padStart(2, '0')`. */
  function TwoDigits(n: nat): string
  {
    PadStart(NatToString(n), 2, '0')
  }

  /** The calendar cell key `${year}-${pad(month + 1)}-${pad(day)}`. */
  function DateKey(y: int, m: int, d: nat): string
    requires 0 <= m < 12
  {
    IntToString(y) + "-" + TwoDigits(m + 1) + "-" + TwoDigits(d)
  }

  /**
   Reads a `YYYY-MM-DD` string as a date on the strict reading of the ECMAScript date
   format, where a day past the end of its month is not a date; None stands for an
   invalid date.
   */
  function ParseDate(s: string): (r: Option<CalendarDate>)
    ensures r.Some? ==> IsIsoDate(s) && ValidDate(r.value)
  {
    if !IsIsoDate(s) then None
    else
      var y := ParseNat(s[..4]);
      var m := ParseNat(s[5..7]);
      var d := ParseNat(s[8..]);
      if 1 <= m <= 12 && 1 <= d <= DaysInMonth(y, m - 1) then Some(CalendarDate(y, m - 1, d))
      else None
  }

  lemma TwoDigitsReadBack(n: nat)
    requires 1 <= n < 100
    ensures |TwoDigits(n)| == 2 && AllDigits(TwoDigits(n)) && ParseNat(TwoDigits(n)) == n
  {
    NatToStringWidth(n);
    ParseNatToString(n);
    ParsePadded(NatToString(n), 2);
  }

  lemma IsoParts(a: string, b: string, c: string)
    requires |a| == 4 && |b| == 2 && |c| == 2
    requires AllDigits(a) && AllDigits(b) && AllDigits(c)
    ensures var k := a + "-" + b + "-" + c;
            IsIsoDate(k) && k[..4] == a && k[5..7] == b && k[8..] == c
  {
    var k := a + "-" + b + "-" + c;
    assert k[..4] == a;
    assert k[5..7] == b;
    assert k[8..] == c;
  }

  lemma ParseDateFields(k: string, y: nat, m: nat, d: nat)
    requires IsIsoDate(k)
    requires ParseNat(k[..4]) == y && ParseNat(k[5..7]) == m + 1 && ParseNat(k[8..]) == d
    requires m < 12 && 1 <= d <= DaysInMonth(y, m)
    ensures ParseDate(k) == Some(CalendarDate(y, m, d))
  {
  }

  /** The cell key of a date in a four-digit year is an ISO date that reads back as that date. */
  lemma DateKeyRoundTrip(y: int, m: int, d: nat)
    requires 1000 <= y <= 9999 && 0 <= m < 12 && 1 <= d <= DaysInMonth(y, m)
    ensures IsIsoDate(DateKey(y, m, d))
    ensures ParseDate(DateKey(y, m, d)) == Some(CalendarDate(y, m, d))
  {
    YearText(y);
    TwoDigitsReadBack(m + 1);
    TwoDigitsReadBack(d);
    ReadsBack(IntToString(y), TwoDigits(m + 1), TwoDigits(d), y, m, d);
  }

  lemma DateKeyParses(y: int, m: int, d: nat)
    requires 1000 <= y <= 9999 && 0 <= m < 12 && 1 <= d <= DaysInMonth(y, m)
    ensures ParseDate(DateKey(y, m, d)) == Some(CalendarDate(y, m, d))
  {
    DateKeyRoundTrip(y, m, d);
  }

  lemma YearText(y: int)
    requires 1000 <= y <= 9999
    ensures |IntToString(y)| == 4 && AllDigits(IntToString(y)) && ParseNat(IntToString(y)) == y
  {
    NatToStringWidth(y);
    ParseNatToString(y);
  }

  lemma ReadsBack(a: string, b: string, c: string, y: nat, m: nat, d: nat)
    requires |a| == 4 && |b| == 2 && |c| == 2
    requires AllDigits(a) && AllDigits(b) && AllDigits(c)
    requires ParseNat(a) == y && ParseNat(b) == m + 1 && ParseNat(c) == d
    requires m < 12 && 1 <= d <= DaysInMonth(y, m)
    ensures IsIsoDate(a + "-" + b + "-" + c)
    ensures ParseDate(a + "-" + b + "-" + c) == Some(CalendarDate(y, m, d))
  {
    IsoParts(a, b, c);
    ParseDateFields(a + "-" + b + "-" + c, y, m, d);
  }

  /** Days since 1970-01-01 of a valid date. */
  function EpochDay(c: CalendarDate): int
    requires ValidDate(c)
  {
    DayNumber(c.year, c.month, c.day) - UnixEpochDay
  }

  /** `new Date(s).getTime()`, or None for NaN. */
  function TimeMs(s: string): (r: Option<int>)
    ensures r.Some? <==> ParseDate(s).Some?
  {
    match ParseDate(s)
    case Some(c) => Some(EpochDay(c) * MsPerDay)
    case None => None
  }

  /** Chronological sort key of a date string; an invalid date sorts as day 0 (see README). */
  function SortKey(s: string): int
  {
    match ParseDate(s)
    case Some(c) => EpochDay(c)
    case None => 0
  }

  /** Later days have larger keys: within a month the key grows with the day. */
  lemma SortKeyOrdersDays(y: int, m: int, d1: nat, d2: nat)
    requires 1000 <= y <= 9999 && 0 <= m < 12
    requires 1 <= d1 < d2 <= DaysInMonth(y, m)
    ensures SortKey(DateKey(y, m, d1)) < SortKey(DateKey(y, m, d2))
  {
    DateKeyRoundTrip(y, m, d1);
    DateKeyRoundTrip(y, m, d2);
  }

  /** (y1, m1, d1) comes strictly before (y2, m2, d2) in year, month, day order. */
  predicate Before(y1: int, m1: int, d1: int, y2: int, m2: int, d2: int)
  {
    y1 < y2 || (y1 == y2 && (m1 < m2 || (m1 == m2 && d1 < d2)))
  }

  /** Later dates have larger keys, across months and years as well as within a month. */
  lemma SortKeyChronological(y1: int, m1: int, d1: nat, y2: int, m2: int, d2: nat)
    requires 1000 <= y1 <= 9999 && 0 <= m1 < 12 && 1 <= d1 <= DaysInMonth(y1, m1)
    requires 1000 <= y2 <= 9999 && 0 <= m2 < 12 && 1 <= d2 <= DaysInMonth(y2, m2)
    requires Before(y1, m1, d1, y2, m2, d2)
    ensures SortKey(DateKey(y1, m1, d1)) < SortKey(DateKey(y2, m2, d2))
  {
    DateKeyRoundTrip(y1, m1, d1);
    DateKeyRoundTrip(y2, m2, d2);
    DayNumberChronological(y1, m1, d1, y2, m2, d2);
  }

  lemma DayNumberChronological(y1: int, m1: int, d1: int, y2: int, m2: int, d2: int)
    requires 0 <= m1 < 12 && 1 <= d1 <= DaysInMonth(y1, m1)
    requires 0 <= m2 < 12 && 1 <= d2
    requires Before(y1, m1, d1, y2, m2, d2)
    ensures DayNumber(y1, m1, d1) < DayNumber(y2, m2, d2)
  {
    if y1 < y2 {
      MonthsGrow(y1, m1 + 1, 12);
      MonthsFillYear(y1);
      YearsGrow(y1 + 1, y2);
      YearStep(y1);
      MonthsGrow(y2, 0, m2);
    } else if m1 < m2 {
      MonthsGrow(y1, m1 + 1, m2);
    }
  }

  /** Earlier months start no later within the year. */
  lemma {:induction false} MonthsGrow(y: int, m1: int, m2: int)
    requires 0 <= m1 <= m2 <= 12
    ensures DaysBeforeMonth(y, m1) <= DaysBeforeMonth(y, m2)
    decreases m2 - m1
  {
    if m1 < m2 {
      MonthsGrow(y, m1 + 1, m2);
    }
  }

  /** Earlier years start no later. */
  lemma {:induction false} YearsGrow(y1: int, y2: int)
    requires y1 <= y2
    ensures DaysBeforeYear(y1) <= DaysBeforeYear(y2)
    decreases y2 - y1
  {
    if y1 < y2 {
      YearStep(y1);
      YearsGrow(y1 + 1, y2);
    }
  }
}

=== FILE: discipline.dfy ===
/**
 The discipline ranking (pages/DisciplineRanking.tsx): an integrity score over the
 last seven days and the seven days before, the trend between them, the tier the
 current score earns, and the three session factors shown beside it. "Now" is a
 parameter, in milliseconds since the Unix epoch.
 */
module Discipline {
  import opened Common
  import opened Records
  import Dates

  const WeekMs: int := 7 * Dates.MsPerDay

  /** `new Date(t.date) >= new Date(now - 7 days)`; an invalid date compares false. */
  function InRecent(now: int): Trade -> bool
  {
    (t: Trade) => Dates.TimeMs(t.date).Some? && Dates.TimeMs(t.date).value >= now - WeekMs
  }

  /** `date >= now - 14 days && date < now - 7 days`. */
  function InPast(now: int): Trade -> bool
  {
    (t: Trade) => Dates.TimeMs(t.date).Some?
                  && now - 2 * WeekMs <= Dates.TimeMs(t.date).value < now - WeekMs
  }

  /** `(t.autoFlags || []).includes('Risk escalation')`. */
  predicate RiskEscalated(t: Trade)
  {
    t.autoFlags.Some? && Includes(t.autoFlags.value, "Risk escalation")
  }

  /** `(t.autoFlags || []).length > 0`. */
  predicate Flagged(t: Trade)
  {
    t.autoFlags.Some? && |t.autoFlags.value| > 0
  }

  /** The points a window loses: 15 per rule violation, 10 per risk escalation. */
  function Penalty(ds: seq<Trade>): (p: nat)
    ensures p == 0 <==> Count(ds, Broken) == 0 && Count(ds, RiskEscalated) == 0
  {
    15 * Count(ds, Broken) + 10 * Count(ds, RiskEscalated)
  }

  /** `calculateScore`: 100 for an empty window, else `max(0, min(100, 100 - penalty))`. */
  function Score(ds: seq<Trade>): (s: int)
    ensures 0 <= s <= 100
    ensures |ds| == 0 ==> s == 100
    ensures s == 100 <==> Penalty(ds) == 0
    ensures s == 0 <==> Penalty(ds) >= 100
    ensures 0 < s < 100 ==> s == 100 - Penalty(ds)
  {
    if |ds| == 0 then 100
    else
      var s := 100 - Penalty(ds);
      if s < 0 then 0 else if s > 100 then 100 else s
  }

  /**
   Adding a trade to a window never raises its score; a compliant, unflagged trade
   leaves it unchanged, and a violation lowers any score above zero.
   */
  lemma AppendNeverRaises(ds: seq<Trade>, t: Trade)
    ensures Score(ds + [t]) <= Score(ds)
    ensures Followed(t) && !RiskEscalated(t) ==> Score(ds + [t]) == Score(ds)
    ensures Broken(t) && Score(ds) > 0 ==> Score(ds + [t]) < Score(ds)
  {
    CountAppend(ds, [t], Broken);
    CountAppend(ds, [t], RiskEscalated);
    assert [t][1..] == [];
  }

  /** The two windows never share a trade, so together they hold at most all of them. */
  lemma WindowsDisjoint(ts: seq<Trade>, now: int)
    ensures forall t :: !(InRecent(now)(t) && InPast(now)(t))
    ensures Count(ts, InRecent(now)) + Count(ts, InPast(now)) <= |ts|
  {
    CountDisjoint(ts, InRecent(now), InPast(now));
  }

  datatype Tier = Tier(name: string, min: int)

  const Tiers: seq<Tier> :=
    [Tier("Bronze", 0), Tier("Silver", 21), Tier("Gold", 41), Tier("Platinum", 61), Tier("Diamond", 81)]

  function Reaches(score: int): Tier -> bool
  {
    (t: Tier) => score >= t.min
  }

  /**
   `tiers.slice().reverse().find(t => score >= t.min) || tiers[0]`: the highest tier
   whose minimum the score reaches.
   */
  function TierOf(score: int): (r: Tier)
    ensures r in Tiers
    ensures score >= 0 ==> r.min <= score
    ensures forall i :: 0 <= i < |Tiers| && Tiers[i].min <= score ==> Tiers[i].min <= r.min
  {
    HighestReached(score);
    TiersAscending();
    match Find(Reverse(Tiers), Reaches(score))
    case Some(t) => t
    case None => Tiers[0]
  }

  /** The search from the top stops at the highest tier reached; only a negative score finds none. */
  lemma HighestReached(score: int)
    ensures Find(Reverse(Tiers), Reaches(score)) ==
              if score >= 81 then Some(Tiers[4]) else if score >= 61 then Some(Tiers[3])
              else if score >= 41 then Some(Tiers[2]) else if score >= 21 then Some(Tiers[1])
              else if score >= 0 then Some(Tiers[0]) else None
  {
    var rev := Reverse(Tiers);
    ReversedTiers();
    if score >= 81 {
      FindFirst(rev, Reaches(score), 0);
    } else if score >= 61 {
      FindFirst(rev, Reaches(score), 1);
    } else if score >= 41 {
      FindFirst(rev, Reaches(score), 2);
    } else if score >= 21 {
      FindFirst(rev, Reaches(score), 3);
    } else if score >= 0 {
      FindFirst(rev, Reaches(score), 4);
    } else {
      assert forall i :: 0 <= i < |rev| ==> !Reaches(score)(rev[i]);
    }
  }

  lemma ReversedTiers()
    ensures Reverse(Tiers) == [Tiers[4], Tiers[3], Tiers[2], Tiers[1], Tiers[0]]
  {
    var rev := Reverse(Tiers);
    assert rev[0] == Tiers[4] && rev[1] == Tiers[3] && rev[2] == Tiers[2] && rev[3] == Tiers[1] && rev[4] == Tiers[0];
  }

  lemma TiersAscending()
    ensures forall a, b :: 0 <= a <= b < |Tiers| ==> Tiers[a].min <= Tiers[b].min
  {
  }

  /** The integer score bands of the five tiers. */
  lemma TierBands(score: int)
    requires 0 <= score <= 100
    ensures score <= 20 ==> TierOf(score).name == "Bronze"
    ensures 21 <= score <= 40 ==> TierOf(score).name == "Silver"
    ensures 41 <= score <= 60 ==> TierOf(score).name == "Gold"
    ensures 61 <= score <= 80 ==> TierOf(score).name == "Platinum"
    ensures 81 <= score ==> TierOf(score).name == "Diamond"
  {
    HighestReached(score);
  }

  /** A higher score never earns a lower tier. */
  lemma TierMonotone(a: int, b: int)
    requires a <= b
    ensures TierOf(a).min <= TierOf(b).min
  {
    HighestReached(a);
    HighestReached(b);
  }

  datatype RankInfo = RankInfo(score: int, trendUp: bool, tier: Tier)

  /** `rankInfo`: the current week's score, whether it is at least last week's, and its tier. */
  function Rank(ts: seq<Trade>, now: int): (r: RankInfo)
    ensures r.score == Score(Filter(ts, InRecent(now)))
    ensures r.trendUp <==> r.score >= Score(Filter(ts, InPast(now)))
    ensures r.tier == TierOf(r.score) && r.tier.min <= r.score
  {
    var current := Score(Filter(ts, InRecent(now)));
    var past := Score(Filter(ts, InPast(now)));
    RankInfo(current, current >= past, TierOf(current))
  }

  /** With no trades in either window both scores are 100, and the trend shows up. */
  lemma QuietFortnightTrendsUp(ts: seq<Trade>, now: int)
    requires forall i :: 0 <= i < |ts| ==> !InRecent(now)(ts[i]) && !InPast(now)(ts[i])
    ensures Rank(ts, now) == RankInfo(100, true, Tier("Diamond", 81))
  {
    assert Count(ts, InRecent(now)) == 0 && Count(ts, InPast(now)) == 0;
    TierBands(100);
  }

  datatype SessionFactors = SessionFactors(ruleFidelity: real, riskProtection: real, routineConsistency: int)

  /**
   The session factors over all trades: the followed share and 100 minus the flagged
   share, as percentages (each 100 without trades), and `min(100, streak * 10)`.
   */
  function Factors(ts: seq<Trade>, u: User): (f: SessionFactors)
    ensures 0.0 <= f.ruleFidelity <= 100.0 && 0.0 <= f.riskProtection <= 100.0
    ensures |ts| == 0 ==> f.ruleFidelity == 100.0 && f.riskProtection == 100.0
    ensures |ts| > 0 ==> Times(|ts|, f.ruleFidelity) == 100.0 * (Count(ts, Followed) as real)
    ensures |ts| > 0 ==> Times(|ts|, 100.0 - f.riskProtection) == 100.0 * (Count(ts, Flagged) as real)
    ensures f.routineConsistency <= 100 && (StreakOf(u) >= 0 ==> 0 <= f.routineConsistency)
    ensures f.routineConsistency == 100 <==> StreakOf(u) >= 10
  {
    var flaggedPct := Percent(Count(ts, Flagged), |ts|, 0.0);
    var streak := StreakOf(u) * 10;
    SessionFactors(
      Percent(Count(ts, Followed), |ts|, 100.0),
      100.0 - flaggedPct,
      if streak < 100 then streak else 100)
  }
}

=== FILE: equity.dfy ===
/**
 The equity curve and drawdown loop, written once and used by both pages that
 carry a copy of it: the journal report's `stats` (pages/JournalReport.tsx) and
 the dashboard's `analytics` (pages/Dashboard.tsx).
 */
module Equity {
  import opened Common
  import opened Records
  import Sorting

  const DefaultStartingBalance: real := 10000.0

  /** `user.startingBalance || 10000`: an absent or zero balance falls back to the default. */
  function InitialBalance(startingBalance: Option<real>): (b: real)
    ensures b != 0.0
    ensures startingBalance.Some? && startingBalance.value != 0.0 ==> b == startingBalance.value
    ensures startingBalance == None || startingBalance == Some(0.0) ==> b == DefaultStartingBalance
  {
    match startingBalance
    case Some(v) => if v != 0.0 then v else DefaultStartingBalance
    case None => DefaultStartingBalance
  }

  /** The highest curve point among positions 0..i: the running peak after step i. */
  function PeakUpTo(c: seq<real>, i: nat): (r: real)
    requires i < |c|
    ensures forall j :: 0 <= j <= i ==> c[j] <= r
    ensures exists j :: 0 <= j <= i && c[j] == r
  {
    if i == 0 then c[0] else Max(PeakUpTo(c, i - 1), c[i])
  }

  /** How far point i lies below the running peak. */
  function DrawdownAt(c: seq<real>, i: nat): real
    requires i < |c|
  {
    PeakUpTo(c, i) - c[i]
  }

  /** The largest drop below the running peak among positions 0..i. */
  function LargestDrawdown(c: seq<real>, i: nat): (r: real)
    requires i < |c|
    ensures forall j :: 0 <= j <= i ==> DrawdownAt(c, j) <= r
    ensures exists j :: 0 <= j <= i && DrawdownAt(c, j) == r
  {
    if i == 0 then DrawdownAt(c, 0) else Max(LargestDrawdown(c, i - 1), DrawdownAt(c, i))
  }

  lemma {:induction false} PeakUpToExtend(c: seq<real>, e: real, i: nat)
    requires i < |c|
    ensures PeakUpTo(c + [e], i) == PeakUpTo(c, i)
  {
    assert (c + [e])[i] == c[i];
    if i > 0 {
      PeakUpToExtend(c, e, i - 1);
    }
  }

  lemma PeakUpToExtendAll(c: seq<real>, e: real)
    ensures forall i :: 0 <= i < |c| ==> PeakUpTo(c + [e], i) == PeakUpTo(c, i)
  {
    forall i | 0 <= i < |c| {
      PeakUpToExtend(c, e, i);
    }
  }

  /** The loop state: current equity, running peak, largest drawdown so far, and the curve. */
  datatype Walk = Walk(equity: real, peak: real, maxDD: real, curve: seq<real>)

  /** Facts the loop keeps about its peak and its largest drawdown, for a curve `c`. */
  ghost predicate Tracks(c: seq<real>, peak: real, maxDD: real)
  {
    && |c| > 0
    && peak == PeakUpTo(c, |c| - 1)
    && (forall i :: 0 <= i < |c| ==> DrawdownAt(c, i) <= maxDD)
    && (exists i :: 0 <= i < |c| && DrawdownAt(c, i) == maxDD)
  }

  /**
   The loop body for one trade: add its P/L, append the new equity to the curve,
   raise the peak if exceeded, widen the max drawdown if the drop below the peak is larger.
   */
  function Step(w: Walk, pl: real): Walk
  {
    var equity := w.equity + pl;
    var peak := if equity > w.peak then equity else w.peak;
    var dd := peak - equity;
    Walk(equity, peak, if dd > w.maxDD then dd else w.maxDD, w.curve + [equity])
  }

  /**
   The `forEach` over the (already ordered) trades. Point i of the curve is the
   balance after the first i trades.
   */
  function Run(start: real, ts: seq<Trade>): (w: Walk)
    ensures |w.curve| == |ts| + 1
    ensures forall i :: 0 <= i <= |ts| ==> w.curve[i] == start + SumOf(ts[..i], PL)
    ensures w.equity == w.curve[|ts|]
    decreases |ts|
  {
    if |ts| == 0 then
      assert ts[..0] == [];
      Walk(start, start, 0.0, [start])
    else
      var n := |ts| - 1;
      var prev := Run(start, ts[..n]);
      CurveExtend(start, ts, prev.curve, prev.equity + ts[n].profitLoss);
      Step(prev, ts[n].profitLoss)
  }

  /** One loop step keeps the peak and the max drawdown in step with the extended curve. */
  lemma StepTracks(w: Walk, pl: real)
    requires Tracks(w.curve, w.peak, w.maxDD)
    ensures var w' := Step(w, pl); Tracks(w'.curve, w'.peak, w'.maxDD)
  {
    var c, eq := w.curve, w.equity + pl;
    var w' := Step(w, pl);
    var c' := c + [eq];
    assert w'.curve == c';
    ExtendDrawdowns(c, eq);
    assert w'.peak == PeakUpTo(c', |c|);
    assert DrawdownAt(c', |c|) == w'.peak - eq;
    var k :| 0 <= k < |c| && DrawdownAt(c, k) == w.maxDD;
    if w'.peak - eq > w.maxDD {
      assert DrawdownAt(c', |c|) == w'.maxDD;
    } else {
      assert DrawdownAt(c', k) == w'.maxDD;
    }
    assert w.maxDD <= w'.maxDD && DrawdownAt(c', |c|) <= w'.maxDD;
    BoundExtended(c, eq, w.maxDD, w'.maxDD);
  }

  /** A bound on every drawdown of a curve that also covers the new point bounds the extended curve. */
  lemma BoundExtended(c: seq<real>, e: real, oldMax: real, newMax: real)
    requires |c| > 0 && forall i :: 0 <= i < |c| ==> DrawdownAt(c, i) <= oldMax
    requires oldMax <= newMax && DrawdownAt(c + [e], |c|) <= newMax
    ensures forall i :: 0 <= i < |c + [e]| ==> DrawdownAt(c + [e], i) <= newMax
  {
    ExtendDrawdowns(c, e);
    forall i | 0 <= i < |c + [e]|
      ensures DrawdownAt(c + [e], i) <= newMax
    {
      if i < |c| {
        assert DrawdownAt(c + [e], i) == DrawdownAt(c, i);
      }
    }
  }

  /** Appending a point keeps the earlier drawdowns and adds one below the new peak. */
  lemma ExtendDrawdowns(c: seq<real>, e: real)
    requires |c| > 0
    ensures forall i :: 0 <= i < |c| ==> DrawdownAt(c + [e], i) == DrawdownAt(c, i)
    ensures PeakUpTo(c + [e], |c|) == Max(PeakUpTo(c, |c| - 1), e)
    ensures DrawdownAt(c + [e], |c|) == Max(PeakUpTo(c, |c| - 1), e) - e
  {
    var c' := c + [e];
    PeakUpToExtendAll(c, e);
    assert forall i :: 0 <= i < |c| ==> c'[i] == c[i];
    assert c'[|c|] == e;
  }

  lemma CurveExtend(start: real, ts: seq<Trade>, c: seq<real>, eq: real)
    requires |ts| > 0 && |c| == |ts|
    requires forall i :: 0 <= i < |ts| ==> c[i] == start + SumOf(ts[..|ts| - 1][..i], PL)
    requires eq == c[|ts| - 1] + ts[|ts| - 1].profitLoss
    ensures forall i :: 0 <= i <= |ts| ==> (c + [eq])[i] == start + SumOf(ts[..i], PL)
  {
    var n := |ts| - 1;
    forall i | 0 <= i <= |ts|
      ensures (c + [eq])[i] == start + SumOf(ts[..i], PL)
    {
      if i <= n {
        assert ts[..n][..i] == ts[..i];
      } else {
        assert ts[..n][..n] == ts[..n];
        assert ts[..i] == ts[..n] + [ts[n]];
        SumAppend(ts[..n], [ts[n]], PL);
      }
    }
  }

  lemma PrefixSumSteps(start: real, ts: seq<Trade>, c: seq<real>)
    requires |c| == |ts| + 1
    requires forall i :: 0 <= i <= |ts| ==> c[i] == start + SumOf(ts[..i], PL)
    ensures c[0] == start && c[|ts|] == start + SumOf(ts, PL)
    ensures forall i :: 0 <= i < |ts| ==> c[i + 1] - c[i] == ts[i].profitLoss
  {
    assert ts[..0] == [] && ts[..|ts|] == ts;
    forall i | 0 <= i < |ts|
      ensures c[i + 1] - c[i] == ts[i].profitLoss
    {
      assert ts[..i + 1] == ts[..i] + [ts[i]];
      SumAppend(ts[..i], [ts[i]], PL);
    }
  }

  /** Consecutive curve points differ by exactly one trade's P/L; the final equity is the start plus the total P/L. */
  lemma CurveSteps(start: real, ts: seq<Trade>)
    ensures var c := Run(start, ts).curve;
            c[0] == start && forall i :: 0 <= i < |ts| ==> c[i + 1] - c[i] == ts[i].profitLoss
    ensures Run(start, ts).equity == start + SumOf(ts, PL)
  {
    PrefixSumSteps(start, ts, Run(start, ts).curve);
  }

  /** The curve never goes down from one point to the next. */
  ghost predicate NeverDecreases(c: seq<real>)
  {
    forall i :: 0 < i < |c| ==> c[i - 1] <= c[i]
  }

  lemma {:induction false} PeakOfNonDecreasing(c: seq<real>, i: nat)
    requires NeverDecreases(c) && i < |c|
    ensures PeakUpTo(c, i) == c[i]
  {
    if i > 0 {
      PeakOfNonDecreasing(c, i - 1);
    }
  }

  /** The loop's peak is the curve's running maximum and its max drawdown the largest drop below it. */
  lemma {:induction false} RunTracks(start: real, ts: seq<Trade>)
    ensures var w := Run(start, ts); Tracks(w.curve, w.peak, w.maxDD)
    decreases |ts|
  {
    if |ts| == 0 {
      assert PeakUpTo([start], 0) == start;
      assert DrawdownAt([start], 0) == 0.0;
    } else {
      var n := |ts| - 1;
      RunTracks(start, ts[..n]);
      StepTracks(Run(start, ts[..n]), ts[n].profitLoss);
    }
  }

  /** The tracked peak and drawdown are the curve's overall peak and its largest drawdown. */
  lemma TracksLargest(c: seq<real>, peak: real, maxDD: real)
    requires Tracks(c, peak, maxDD)
    ensures peak == PeakUpTo(c, |c| - 1) && maxDD == LargestDrawdown(c, |c| - 1)
  {
    var i :| 0 <= i < |c| && DrawdownAt(c, i) == LargestDrawdown(c, |c| - 1);
  }

  lemma ZeroDrawdownIff(c: seq<real>, peak: real, maxDD: real)
    requires Tracks(c, peak, maxDD)
    ensures maxDD == 0.0 <==> NeverDecreases(c)
  {
    if maxDD == 0.0 {
      forall i | 0 < i < |c|
        ensures c[i - 1] <= c[i]
      {
        assert DrawdownAt(c, i) <= 0.0;
        assert PeakUpTo(c, i) >= PeakUpTo(c, i - 1);
      }
    }
    if NeverDecreases(c) {
      forall i | 0 <= i < |c|
        ensures DrawdownAt(c, i) == 0.0
      {
        PeakOfNonDecreasing(c, i);
      }
    }
  }

  lemma NeverDecreasesIffNoLoss(ts: seq<Trade>, c: seq<real>)
    requires |c| == |ts| + 1
    requires forall i :: 0 <= i < |ts| ==> c[i + 1] - c[i] == ts[i].profitLoss
    ensures NeverDecreases(c) <==> forall i :: 0 <= i < |ts| ==> ts[i].profitLoss >= 0.0
  {
    if NeverDecreases(c) {
      forall i | 0 <= i < |ts|
        ensures ts[i].profitLoss >= 0.0
      {
        assert c[i] <= c[i + 1];
      }
    }
    if forall i :: 0 <= i < |ts| ==> ts[i].profitLoss >= 0.0 {
      forall i | 0 < i < |c|
        ensures c[i - 1] <= c[i]
      {
        assert c[i] - c[i - 1] == ts[i - 1].profitLoss;
      }
    }
  }

  /**
   The largest drawdown is zero exactly when the curve never decreases, that is,
   exactly when no trade lost money.
   */
  lemma MaxDrawdownZeroIff(start: real, ts: seq<Trade>)
    ensures Run(start, ts).maxDD == 0.0 <==> NeverDecreases(Run(start, ts).curve)
    ensures Run(start, ts).maxDD == 0.0 <==> forall i :: 0 <= i < |ts| ==> ts[i].profitLoss >= 0.0
  {
    var w := Run(start, ts);
    RunTracks(start, ts);
    ZeroDrawdownIff(w.curve, w.peak, w.maxDD);
    CurveSteps(start, ts);
    NeverDecreasesIffNoLoss(ts, w.curve);
  }

  /** `(num / den) * 100`, or None where JS would produce NaN or an infinity. */
  function Pct(num: real, den: real): (r: Option<real>)
    ensures r.Some? <==> den != 0.0
    ensures r.Some? ==> r.value * den == num * 100.0
  {
    if den == 0.0 then None else Some(num / den * 100.0)
  }

  /** Sign and size of a percentage `r` of a positive base. */
  lemma PctBounds(num: real, den: real, r: real)
    requires den > 0.0 && r * den == num * 100.0
    ensures num >= 0.0 ==> r >= 0.0
    ensures num < den ==> r < 100.0
  {
    if r < 0.0 {
      assert r * den < 0.0;
    }
    if r >= 100.0 {
      assert r * den >= 100.0 * den;
    }
  }

  /** A percentage of a positive base is non-negative for a non-negative part, below 100 for a smaller part. */
  lemma PctRange(num: real, den: real)
    ensures den > 0.0 ==> Pct(num, den).Some?
    ensures den > 0.0 && num >= 0.0 ==> Pct(num, den).value >= 0.0
    ensures den > 0.0 && num < den ==> Pct(num, den).value < 100.0
    ensures den > 0.0 ==> (Pct(num, den).value == 0.0 <==> num == 0.0)
  {
    if den > 0.0 {
      PctBounds(num, den, Pct(num, den).value);
      SignOfScaled(Pct(num, den).value, den, num * 100.0);
    }
  }

  /** With a positive start the peak is positive and the max drawdown non-negative; it stays below the peak while the curve stays positive. */
  lemma TrackedBounds(c: seq<real>, peak: real, maxDD: real)
    requires Tracks(c, peak, maxDD)
    ensures c[0] > 0.0 ==> peak > 0.0 && maxDD >= 0.0
    ensures (forall i :: 0 <= i < |c| ==> c[i] > 0.0) ==> maxDD < peak
  {
    assert c[0] <= PeakUpTo(c, |c| - 1);
    assert PeakUpTo(c, 0) == c[0];
    assert DrawdownAt(c, 0) == 0.0;
    if forall i :: 0 <= i < |c| ==> c[i] > 0.0 {
      var i :| 0 <= i < |c| && DrawdownAt(c, i) == maxDD;
      PeakUpToMono(c, i, |c| - 1);
      assert c[i] > 0.0;
    }
  }

  lemma PctOfTracked(c: seq<real>, peak: real, maxDD: real)
    requires Tracks(c, peak, maxDD)
    ensures c[0] > 0.0 ==> Pct(maxDD, peak).Some? && Pct(maxDD, peak).value >= 0.0
    ensures (forall i :: 0 <= i < |c| ==> c[i] > 0.0) ==> Pct(maxDD, peak).Some? && Pct(maxDD, peak).value < 100.0
  {
    TrackedBounds(c, peak, maxDD);
    PctRange(maxDD, peak);
  }

  /** The drawdown percentage bounds: non-negative for a positive start, below 100 while every point is positive. */
  lemma DrawdownPctBounds(start: real, ts: seq<Trade>)
    ensures var w := Run(start, ts);
            start > 0.0 ==> Pct(w.maxDD, w.peak).Some? && Pct(w.maxDD, w.peak).value >= 0.0
    ensures var w := Run(start, ts);
            (forall i :: 0 <= i < |w.curve| ==> w.curve[i] > 0.0) ==> Pct(w.maxDD, w.peak).Some? && Pct(w.maxDD, w.peak).value < 100.0
  {
    var w := Run(start, ts);
    RunTracks(start, ts);
    CurveSteps(start, ts);
    PctOfTracked(w.curve, w.peak, w.maxDD);
  }

  lemma {:induction false} PeakUpToMono(c: seq<real>, i: nat, j: nat)
    requires i <= j < |c|
    ensures PeakUpTo(c, i) <= PeakUpTo(c, j)
    decreases j - i
  {
    if i < j {
      PeakUpToMono(c, i, j - 1);
    }
  }

  // ---------------------------------------------------------------------------
  // The two pages

  /** The walk over the date-sorted copy of the trades, as both pages run it. */
  function SortedRun(start: real, trades: seq<Trade>): (w: Walk)
    ensures |w.curve| == |trades| + 1 && w.curve[0] == start
    ensures w.equity == start + SumOf(trades, PL)
    ensures Tracks(w.curve, w.peak, w.maxDD)
  {
    var sorted := Sorting.SortAsc(trades, TradeDay);
    SortedRunFacts(start, trades, sorted);
    Run(start, sorted)
  }

  lemma SortedRunFacts(start: real, trades: seq<Trade>, sorted: seq<Trade>)
    requires sorted == Sorting.SortAsc(trades, TradeDay)
    ensures var w := Run(start, sorted);
            && |w.curve| == |trades| + 1 && w.curve[0] == start
            && w.equity == start + SumOf(trades, PL)
            && Tracks(w.curve, w.peak, w.maxDD)
  {
    Sorting.SortPreservesAggregates(trades, TradeDay, IsWin, PL);
    CurveSteps(start, sorted);
    RunTracks(start, sorted);
  }

  /** `(x / base) * 100` for a non-zero base. */
  function PctOf(x: real, base: real): (r: real)
    requires base != 0.0
    ensures r * base == x * 100.0
    ensures base > 0.0 ==> (r > 0.0 <==> x > 0.0) && (r < 0.0 <==> x < 0.0) && (r == 0.0 <==> x == 0.0)
  {
    var r := x / base * 100.0;
    if base > 0.0 then SignOfScaled(r, base, x * 100.0); r else r
  }

  datatype ReportStats = ReportStats(
    totalPL: real, winRate: real, discipline: real, currentEquity: real,
    maxDDPct: Option<real>, equityCurve: seq<real>)

  /** The journal report's `stats` memo over its date-sorted trades. */
  function JournalReport(startingBalance: Option<real>, trades: seq<Trade>): (r: ReportStats)
    ensures |r.equityCurve| == |trades| + 1
    ensures r.equityCurve[0] == InitialBalance(startingBalance)
    ensures var sorted := Sorting.SortAsc(trades, TradeDay);
            forall i :: 0 <= i < |trades| ==> r.equityCurve[i + 1] == r.equityCurve[i] + sorted[i].profitLoss
    ensures r.totalPL == SumOf(trades, PL)
    ensures r.currentEquity == InitialBalance(startingBalance) + SumOf(trades, PL)
    ensures r.winRate == Percent(Count(trades, IsWin), |trades|, 0.0)
    ensures r.discipline == Percent(Count(trades, Followed), |trades|, 100.0)
    ensures r.maxDDPct == Pct(LargestDrawdown(r.equityCurve, |trades|), PeakUpTo(r.equityCurve, |trades|))
    ensures 0.0 <= r.winRate <= 100.0 && 0.0 <= r.discipline <= 100.0
    ensures InitialBalance(startingBalance) > 0.0 ==> r.maxDDPct.Some? && r.maxDDPct.value >= 0.0
  {
    var sorted := Sorting.SortAsc(trades, TradeDay);
    var start := InitialBalance(startingBalance);
    var w := Run(start, sorted);
    PageRunFacts(start, trades, sorted);
    SortedDrawdownPct(start, trades, sorted);
    SortedCounts(trades, sorted);
    ReportStats(
      w.equity - start,
      Percent(Count(sorted, IsWin), |sorted|, 0.0),
      Percent(Count(sorted, Followed), |sorted|, 100.0),
      w.equity,
      Pct(w.maxDD, w.peak),
      w.curve)
  }

  /** What both pages rely on about the walk over the date-sorted copy. */
  lemma PageRunFacts(start: real, trades: seq<Trade>, sorted: seq<Trade>)
    requires sorted == Sorting.SortAsc(trades, TradeDay)
    ensures var w := Run(start, sorted);
            && |w.curve| == |trades| + 1 && w.curve[0] == start
            && (forall i :: 0 <= i < |trades| ==> w.curve[i + 1] == w.curve[i] + sorted[i].profitLoss)
            && w.equity == start + SumOf(trades, PL)
            && w.equity == w.curve[|trades|]
            && w.peak == PeakUpTo(w.curve, |trades|)
            && w.maxDD == LargestDrawdown(w.curve, |trades|)
  {
    var w := Run(start, sorted);
    SortedRunFacts(start, trades, sorted);
    CurveSteps(start, sorted);
    TracksLargest(w.curve, w.peak, w.maxDD);
  }

  /** The report's drawdown percentage is a non-negative number for a positive start. */
  lemma SortedDrawdownPct(start: real, trades: seq<Trade>, sorted: seq<Trade>)
    requires sorted == Sorting.SortAsc(trades, TradeDay)
    ensures var w := Run(start, sorted);
            start > 0.0 ==> Pct(w.maxDD, w.peak).Some? && Pct(w.maxDD, w.peak).value >= 0.0
  {
    var w := Run(start, sorted);
    SortedRunFacts(start, trades, sorted);
    PctOfTracked(w.curve, w.peak, w.maxDD);
  }

  /** Sorting keeps the win and rule-following counts. */
  lemma SortedCounts(trades: seq<Trade>, sorted: seq<Trade>)
    requires sorted == Sorting.SortAsc(trades, TradeDay)
    ensures Count(sorted, IsWin) == Count(trades, IsWin) && Count(sorted, Followed) == Count(trades, Followed)
    ensures |sorted| == |trades|
  {
    Sorting.SortPreservesAggregates(trades, TradeDay, IsWin, PL);
    Sorting.SortPreservesAggregates(trades, TradeDay, Followed, PL);
  }

  /** `((maxEquity - currentEquity) / maxEquity) * 100`: how far the equity stands below the peak, in percent of the peak. */
  function DrawdownFromPeak(peak: real, equity: real): (r: Option<real>)
    ensures r.Some? <==> peak != 0.0
    ensures r.Some? ==> r.value * peak == (peak - equity) * 100.0
    ensures peak > 0.0 ==> r.Some? && (r.value == 0.0 <==> equity == peak) && (equity <= peak ==> r.value >= 0.0)
  {
    PctRange(peak - equity, peak);
    Pct(peak - equity, peak)
  }

  datatype DashboardAnalytics = DashboardAnalytics(
    totalPL: real, totalPLPct: real, currentDDPct: Option<real>, winRate: real,
    disciplineScore: real, equityCurve: seq<real>, currentEquity: real)

  /**
   The dashboard's `analytics` memo: the same loop over a date-sorted copy, while
   win rate and discipline are counted over the trades as listed.
   */
  function Dashboard(startingBalance: Option<real>, trades: seq<Trade>): (r: DashboardAnalytics)
    ensures |r.equityCurve| == |trades| + 1
    ensures r.equityCurve[0] == InitialBalance(startingBalance)
    ensures var sorted := Sorting.SortAsc(trades, TradeDay);
            forall i :: 0 <= i < |trades| ==> r.equityCurve[i + 1] == r.equityCurve[i] + sorted[i].profitLoss
    ensures r.totalPL == SumOf(trades, PL)
    ensures r.currentEquity == InitialBalance(startingBalance) + SumOf(trades, PL)
    ensures r.totalPLPct == PctOf(r.totalPL, InitialBalance(startingBalance))
    ensures r.currentDDPct == DrawdownFromPeak(PeakUpTo(r.equityCurve, |trades|), r.currentEquity)
    ensures r.winRate == Percent(Count(trades, IsWin), |trades|, 0.0)
    ensures r.disciplineScore == Percent(Count(trades, Followed), |trades|, 100.0)
    ensures InitialBalance(startingBalance) > 0.0 ==>
              (r.totalPLPct > 0.0 <==> r.totalPL > 0.0) && (r.totalPLPct < 0.0 <==> r.totalPL < 0.0)
    ensures InitialBalance(startingBalance) > 0.0 ==>
              && r.currentDDPct.Some? && r.currentDDPct.value >= 0.0
              && (r.currentDDPct.value == 0.0 <==>
                    forall i :: 0 <= i < |r.equityCurve| ==> r.equityCurve[i] <= r.currentEquity)
    ensures 0.0 <= r.winRate <= 100.0 && 0.0 <= r.disciplineScore <= 100.0
  {
    DashboardFrom(InitialBalance(startingBalance), trades)
  }

  /** The dashboard's figures for a given non-zero starting balance. */
  function DashboardFrom(start: real, trades: seq<Trade>): (r: DashboardAnalytics)
    requires start != 0.0
    ensures |r.equityCurve| == |trades| + 1 && r.equityCurve[0] == start
    ensures var sorted := Sorting.SortAsc(trades, TradeDay);
            forall i :: 0 <= i < |trades| ==> r.equityCurve[i + 1] == r.equityCurve[i] + sorted[i].profitLoss
    ensures r.totalPL == SumOf(trades, PL) && r.currentEquity == start + SumOf(trades, PL)
    ensures r.totalPLPct == PctOf(r.totalPL, start)
    ensures r.currentDDPct == DrawdownFromPeak(PeakUpTo(r.equityCurve, |trades|), r.currentEquity)
    ensures r.winRate == Percent(Count(trades, IsWin), |trades|, 0.0)
    ensures r.disciplineScore == Percent(Count(trades, Followed), |trades|, 100.0)
    ensures start > 0.0 ==> (r.totalPLPct > 0.0 <==> r.totalPL > 0.0) && (r.totalPLPct < 0.0 <==> r.totalPL < 0.0)
    ensures start > 0.0 ==>
              && r.currentDDPct.Some? && r.currentDDPct.value >= 0.0
              && (r.currentDDPct.value == 0.0 <==>
                    forall i :: 0 <= i < |r.equityCurve| ==> r.equityCurve[i] <= r.currentEquity)
    ensures 0.0 <= r.winRate <= 100.0 && 0.0 <= r.disciplineScore <= 100.0
  {
    var sorted := Sorting.SortAsc(trades, TradeDay);
    var w := Run(start, sorted);
    PageRunFacts(start, trades, sorted);
    DashboardDrawdown(start, w.curve, w.peak, w.equity);
    var totalPL := w.equity - start;
    DashboardAnalytics(
      totalPL,
      PctOf(totalPL, start),
      DrawdownFromPeak(w.peak, w.equity),
      Percent(Count(trades, IsWin), |trades|, 0.0),
      Percent(Count(trades, Followed), |trades|, 100.0),
      w.curve,
      w.equity)
  }

  /** The current drawdown of a curve whose peak is its maximum and whose start is positive. */
  lemma DashboardDrawdown(start: real, c: seq<real>, peak: real, equity: real)
    requires |c| > 0 && c[0] == start && equity == c[|c| - 1] && peak == PeakUpTo(c, |c| - 1)
    ensures start > 0.0 ==>
              && DrawdownFromPeak(peak, equity).Some? && DrawdownFromPeak(peak, equity).value >= 0.0
              && (DrawdownFromPeak(peak, equity).value == 0.0 <==> forall i :: 0 <= i < |c| ==> c[i] <= equity)
  {
    if start > 0.0 && forall i :: 0 <= i < |c| ==> c[i] <= equity {
      var j :| 0 <= j < |c| && c[j] == peak;
    }
  }

  /** Both copies of the loop agree on every figure they share. */
  lemma ReportAndDashboardAgree(startingBalance: Option<real>, trades: seq<Trade>)
    ensures var rep, dash := JournalReport(startingBalance, trades), Dashboard(startingBalance, trades);
            && rep.equityCurve == dash.equityCurve
            && rep.currentEquity == dash.currentEquity
            && rep.totalPL == dash.totalPL
            && rep.winRate == dash.winRate
            && rep.discipline == dash.disciplineScore
  {
    Sorting.SortPreservesAggregates(trades, TradeDay, IsWin, PL);
    Sorting.SortPreservesAggregates(trades, TradeDay, Followed, PL);
  }

  lemma SignOfScaled(r: real, b: real, x: real)
    requires b > 0.0 && r * b == x
    ensures (r > 0.0 <==> x > 0.0) && (r < 0.0 <==> x < 0.0) && (r == 0.0 <==> x == 0.0)
  {
    if r > 0.0 { assert r * b > 0.0; }
    if r < 0.0 { assert r * b < 0.0; }
  }

  /** The final equity is at most the peak, and equals it exactly when no earlier point lies above it. */
  lemma FinalAgainstPeak(c: seq<real>, peak: real, maxDD: real, equity: real)
    requires Tracks(c, peak, maxDD) && equity == c[|c| - 1]
    ensures equity <= peak && c[0] <= peak
    ensures equity == peak <==> forall i :: 0 <= i < |c| ==> c[i] <= equity
  {
    if forall i :: 0 <= i < |c| ==> c[i] <= equity {
      var j :| 0 <= j < |c| && c[j] == peak;
    }
  }

  // ---------------------------------------------------------------------------
  // Worked examples

  function Sample(date: string, pl: real): Trade
  {
    Trade("t-" + date, "u", date, "XAUUSD", Buy, 1.0, pl, "", "", true, None, None, None, None, None)
  }

  /**
   Starting from 10000 with P/L +500, -200, +300 the curve is 10000, 10500, 10300,
   10600 and the worst drawdown is 200; the percentage divides it by the final peak
   10600, not by the peak 10500 at which the drawdown happened.
   */
  lemma ThreeTradeExample()
    ensures var w := Run(10000.0, [Sample("2024-01-01", 500.0), Sample("2024-01-02", -200.0), Sample("2024-01-03", 300.0)]);
            && w.curve == [10000.0, 10500.0, 10300.0, 10600.0]
            && w.maxDD == 200.0
            && Pct(w.maxDD, w.peak) == Some(200.0 / 10600.0 * 100.0)
  {
    var a, b, c := Sample("2024-01-01", 500.0), Sample("2024-01-02", -200.0), Sample("2024-01-03", 300.0);
    var w0 := Run(10000.0, []);
    assert w0 == Walk(10000.0, 10000.0, 0.0, [10000.0]);
    assert [a][..0] == [] && [a, b][..1] == [a] && [a, b, c][..2] == [a, b];
    var w1 := Run(10000.0, [a]);
    assert w1 == Step(w0, 500.0);
    assert w1 == Walk(10500.0, 10500.0, 0.0, [10000.0, 10500.0]);
    var w2 := Run(10000.0, [a, b]);
    assert w2 == Step(w1, -200.0);
    assert w2 == Walk(10300.0, 10500.0, 200.0, [10000.0, 10500.0, 10300.0]);
    assert Run(10000.0, [a, b, c]) == Step(w2, 300.0);
  }

  /** A loss larger than the balance drives the drawdown percentage past 100. */
  lemma DrawdownPastWholeBalance()
    ensures var w := Run(10000.0, [Sample("2024-01-01", -20000.0)]);
            Pct(w.maxDD, w.peak) == Some(200.0)
  {
    var a := Sample("2024-01-01", -20000.0);
    assert [a][..0] == [];
    assert Run(10000.0, [a]) == Step(Run(10000.0, []), -20000.0);
  }
}

=== FILE: performance.dfy ===
/**
 The performance page (pages/Performance.tsx): headline statistics, P/L grouped by
 asset, by setup and by weekday, and the average P/L with rules followed versus broken.
 */
module Performance {
  import opened Common
  import opened Records

  function Abs(x: real): (r: real)
    ensures r >= 0.0 && (r == x || r == -x)
  {
    if x < 0.0 then -x else x
  }

  /** `list.reduce(sum of P/L) / list.length`, or 0 for an empty list. */
  function MeanPL(s: seq<Trade>): (r: real)
    ensures Times(|s|, r) == SumOf(s, PL)
    ensures |s| == 0 ==> r == 0.0
  {
    if |s| > 0 then SumOf(s, PL) / (|s| as real) else 0.0
  }

  /** `x || 1` on a number: zero becomes one. */
  function OrOne(x: real): (r: real)
    ensures r != 0.0 && (x != 0.0 ==> r == x)
  {
    if x == 0.0 then 1.0 else x
  }

  datatype PerfStats = PerfStats(
    avgWin: real, avgLoss: real, profitFactor: real, expectancy: real,
    totalTrades: nat, winCount: nat, lossCount: nat, ruleAdherence: real)

  /** The sum of the winning trades' P/L. */
  function GrossProfit(ts: seq<Trade>): (r: real)
    ensures r >= 0.0 && (r > 0.0 <==> Count(ts, IsWin) > 0)
  {
    SumNonNegative(Filter(ts, IsWin), PL);
    SumOf(Filter(ts, IsWin), PL)
  }

  /** The sum of the losing trades' P/L, never positive. */
  function LossSum(ts: seq<Trade>): (r: real)
    ensures r <= 0.0 && (Count(ts, IsLoss) == 0 ==> r == 0.0)
  {
    SumNonPositive(Filter(ts, IsLoss), PL);
    SumOf(Filter(ts, IsLoss), PL)
  }

  /** A mean of `k > 0` values has the sign of their sum. */
  lemma MeanSign(k: nat, m: real, sum: real)
    requires k > 0 && Times(k, m) == sum
    ensures sum >= 0.0 ==> m >= 0.0
    ensures sum <= 0.0 ==> m <= 0.0
  {
    RealMeanSign(k as real, m, sum);
  }

  lemma RealMeanSign(k: real, m: real, sum: real)
    requires k > 0.0 && k * m == sum
    ensures sum >= 0.0 ==> m >= 0.0
    ensures sum <= 0.0 ==> m <= 0.0
  {
    if m < 0.0 {
      assert k * m < 0.0;
    }
    if m > 0.0 {
      assert k * m > 0.0;
    }
  }

  /** The average winning P/L: non-negative, 0 without wins. */
  function AvgWin(ts: seq<Trade>): (r: real)
    ensures r >= 0.0 && (Count(ts, IsWin) == 0 ==> r == 0.0)
    ensures Times(Count(ts, IsWin), r) == GrossProfit(ts)
  {
    var m := MeanPL(Filter(ts, IsWin));
    if |Filter(ts, IsWin)| > 0 then
      MeanSign(|Filter(ts, IsWin)|, m, GrossProfit(ts));
      m
    else m
  }

  lemma TimesNegated(k: nat, m: real)
    ensures Times(k, -m) == -Times(k, m)
  {
  }

  /** The average losing P/L as a magnitude, `Math.abs(mean)`: non-negative, 0 without losses. */
  function AvgLoss(ts: seq<Trade>): (r: real)
    ensures r >= 0.0 && (Count(ts, IsLoss) == 0 ==> r == 0.0)
    ensures Times(Count(ts, IsLoss), r) == -LossSum(ts)
  {
    var losses := Filter(ts, IsLoss);
    var m := MeanPL(losses);
    LossMagnitude(|losses|, m, LossSum(ts));
    Magnitude(|losses|, m)
  }

  /** `Math.abs` of a mean of `k` values that is known to be at most 0 when `k > 0`. */
  function Magnitude(k: nat, m: real): real
  {
    if k > 0 then -m else m
  }

  lemma LossMagnitude(k: nat, m: real, sum: real)
    requires Times(k, m) == sum && sum <= 0.0 && (k == 0 ==> m == 0.0)
    ensures Magnitude(k, m) >= 0.0 && Times(k, Magnitude(k, m)) == -sum
  {
    if k > 0 {
      MeanSign(k, m, sum);
      TimesNegated(k, m);
    }
  }

  lemma DivSign(num: real, den: real)
    requires den != 0.0
    ensures (num / den) * den == num
    ensures den > 0.0 && num >= 0.0 ==> num / den >= 0.0
    ensures den > 0.0 ==> (num > 0.0 <==> num / den > 0.0)
  {
    if den > 0.0 {
      RealMeanSign(den, num / den, num);
    }
  }

  /** `grossProfit / (grossLoss || 1)`. */
  function ProfitFactor(grossProfit: real, grossLoss: real): (r: real)
    requires grossProfit >= 0.0 && grossLoss >= 0.0
    ensures r * OrOne(grossLoss) == grossProfit
    ensures r >= 0.0 && (r > 0.0 <==> grossProfit > 0.0)
  {
    DivSign(grossProfit, OrOne(grossLoss));
    grossProfit / OrOne(grossLoss)
  }

  /** The win share `wins / total`, a number in [0, 1]. */
  function WinShare(wins: nat, total: nat): (w: real)
    requires 0 < total && wins <= total
    ensures 0.0 <= w <= 1.0 && Times(total, w) == wins as real
  {
    RatioUnit(wins as real, total as real);
    (wins as real) / (total as real)
  }

  lemma RatioUnit(k: real, n: real)
    requires 0.0 <= k <= n && n > 0.0
    ensures 0.0 <= k / n <= 1.0 && n * (k / n) == k
  {
    RealMeanSign(n, k / n, k);
    RealMeanSign(n, k / n - 1.0, k - n);
  }

  /**
   The `stats` memo. The page shows profit factor and expectancy through `toFixed(2)`;
   here they are the numbers before formatting.
   */
  function Stats(ts: seq<Trade>): (s: PerfStats)
    ensures |ts| == 0 ==> s == PerfStats(0.0, 0.0, 0.0, 0.0, 0, 0, 0, 0.0)
    ensures s.totalTrades == |ts| && s.winCount == Count(ts, IsWin) && s.lossCount == Count(ts, IsLoss)
    ensures s.winCount + s.lossCount <= s.totalTrades
    ensures s.avgWin >= 0.0 && (s.winCount == 0 ==> s.avgWin == 0.0)
    ensures s.avgLoss >= 0.0 && (s.lossCount == 0 ==> s.avgLoss == 0.0)
    ensures s.profitFactor >= 0.0 && (s.profitFactor > 0.0 <==> s.winCount > 0)
    ensures |ts| > 0 ==> s.avgWin == AvgWin(ts) && s.avgLoss == AvgLoss(ts)
    ensures |ts| > 0 ==> s.profitFactor == ProfitFactor(GrossProfit(ts), -LossSum(ts))
    ensures |ts| > 0 ==> s.expectancy == Expectancy(WinShare(s.winCount, |ts|), s.avgWin, s.avgLoss)
    ensures |ts| > 0 ==> Times(|ts|, s.ruleAdherence) == 100.0 * (Count(ts, Followed) as real)
    ensures 0.0 <= s.ruleAdherence <= 100.0
  {
    if |ts| == 0 then PerfStats(0.0, 0.0, 0.0, 0.0, 0, 0, 0, 0.0)
    else
      CountDisjoint(ts, IsWin, IsLoss);
      var expectancy := Expectancy(WinShare(Count(ts, IsWin), |ts|), AvgWin(ts), AvgLoss(ts));
      PerfStats(AvgWin(ts), AvgLoss(ts), ProfitFactor(GrossProfit(ts), -LossSum(ts)), expectancy,
        |ts|, Count(ts, IsWin), Count(ts, IsLoss), Percent(Count(ts, Followed), |ts|, 0.0))
  }

  /** `winRate * avgWin - (1 - winRate) * avgLoss`. */
  function Expectancy(w: real, avgWin: real, avgLoss: real): real
  {
    w * avgWin - (1.0 - w) * avgLoss
  }

  /** The expectancy formula over plain numbers: with every trade a win or a loss it is the mean. */
  lemma ExpectancyAlgebra(n: nat, w: real, wins: nat, losses: nat, avgWin: real, avgLoss: real, gp: real, gl: real, total: real)
    requires n > 0 && wins + losses == n
    requires Times(n, w) == wins as real
    requires Times(wins, avgWin) == gp && Times(losses, avgLoss) == -gl
    requires gp + gl == total
    ensures Expectancy(w, avgWin, avgLoss) == total / (n as real)
  {
    RealExpectancy(n as real, w, wins as real, losses as real, avgWin, avgLoss, gp, gl);
  }

  lemma RealExpectancy(n: real, w: real, wins: real, losses: real, avgWin: real, avgLoss: real, gp: real, gl: real)
    requires n > 0.0 && wins + losses == n
    requires n * w == wins
    requires wins * avgWin == gp && losses * avgLoss == -gl
    ensures w * avgWin - (1.0 - w) * avgLoss == (gp + gl) / n
  {
    assert n * (w * avgWin) == gp by {
      assert n * (w * avgWin) == (n * w) * avgWin;
    }
    assert n * ((1.0 - w) * avgLoss) == -gl by {
      assert n * (1.0 - w) == losses;
      assert n * ((1.0 - w) * avgLoss) == (n * (1.0 - w)) * avgLoss;
    }
    assert n * (w * avgWin - (1.0 - w) * avgLoss) == gp + gl;
    assert n * ((gp + gl) / n) == gp + gl;
    Cancel(n, w * avgWin - (1.0 - w) * avgLoss, (gp + gl) / n);
  }

  lemma Cancel(n: real, a: real, b: real)
    requires n > 0.0 && n * a == n * b
    ensures a == b
  {
    RealMeanSign(n, a - b, 0.0);
  }

  /**
   Without break-even trades every trade is a win or a loss, and the expectancy is
   the mean P/L per trade.
   */
  lemma ExpectancyIsMeanPL(ts: seq<Trade>)
    requires |ts| > 0
    requires forall i :: 0 <= i < |ts| ==> ts[i].profitLoss != 0.0
    ensures Stats(ts).expectancy == SumOf(ts, PL) / (|ts| as real)
  {
    CountSplit(ts, IsWin, IsLoss);
    SumSplit(ts, IsWin, IsLoss, PL);
    CountDisjoint(ts, IsWin, IsLoss);
    var w := WinShare(Count(ts, IsWin), |ts|);
    assert Stats(ts).expectancy == Expectancy(w, AvgWin(ts), AvgLoss(ts));
    ExpectancyAlgebra(|ts|, w, Count(ts, IsWin), Count(ts, IsLoss),
      AvgWin(ts), AvgLoss(ts), GrossProfit(ts), LossSum(ts), SumOf(ts, PL));
  }

  function Sample(pl: real): Trade
  {
    Trade("t", "u", "2024-01-01", "EURUSD", Buy, 1.0, pl, "", "", true, None, None, None, None, None)
  }

  /**
   A break-even trade counts against the win share without adding to either average:
   for P/L +10, 0, -10 the mean is 0 but the expectancy is -10/3.
   */
  lemma BreakEvenShiftsExpectancy()
    ensures var ts := [Sample(10.0), Sample(0.0), Sample(-10.0)];
            SumOf(ts, PL) == 0.0 && Stats(ts).expectancy == -10.0 / 3.0
  {
    var ts := [Sample(10.0), Sample(0.0), Sample(-10.0)];
    BreakEvenCounts(ts);
    var w, aw, al := WinShare(1, 3), AvgWin(ts), AvgLoss(ts);
    assert Times(1, aw) == 10.0 && Times(1, al) == 10.0 && Times(3, w) == 1.0;
    assert Stats(ts).expectancy == Expectancy(w, aw, al);
  }

  lemma BreakEvenCounts(ts: seq<Trade>)
    requires ts == [Sample(10.0), Sample(0.0), Sample(-10.0)]
    ensures SumOf(ts, PL) == 0.0
    ensures Count(ts, IsWin) == 1 && Count(ts, IsLoss) == 1
    ensures GrossProfit(ts) == 10.0 && LossSum(ts) == -10.0
  {
    SumThree(Sample(10.0), Sample(0.0), Sample(-10.0), PL);
    BreakEvenWins(ts);
    BreakEvenLosses(ts);
  }

  lemma BreakEvenWins(ts: seq<Trade>)
    requires ts == [Sample(10.0), Sample(0.0), Sample(-10.0)]
    ensures Filter(ts, IsWin) == [Sample(10.0)] && GrossProfit(ts) == 10.0
  {
    var a, b, c := Sample(10.0), Sample(0.0), Sample(-10.0);
    FilterFirstOfThree(a, b, c, IsWin);
    SumOne(a, PL);
  }

  lemma BreakEvenLosses(ts: seq<Trade>)
    requires ts == [Sample(10.0), Sample(0.0), Sample(-10.0)]
    ensures Filter(ts, IsLoss) == [Sample(-10.0)] && LossSum(ts) == -10.0
  {
    var a, b, c := Sample(10.0), Sample(0.0), Sample(-10.0);
    FilterLastOfThree(a, b, c, IsLoss);
    SumOne(c, PL);
  }

  // ---------------------------------------------------------------------------
  // Grouping: `groups[key] = (groups[key] || 0) + t.profitLoss`

  /**
   Running totals keyed by name, one entry per key, kept in the order the keys are
   first met. A JavaScript object enumerates string keys in that order except for
   keys that read as array indices ("42"), which it lists first in ascending numeric
   order; the model does not reorder those (see README).
   */
  type Groups = seq<(string, real)>

  function Keys(g: Groups): (r: seq<string>)
    ensures |r| == |g| && forall i :: 0 <= i < |g| ==> r[i] == g[i].0
  {
    if |g| == 0 then [] else [g[0].0] + Keys(g[1..])
  }

  ghost predicate DistinctKeys(g: Groups)
  {
    forall i, j :: 0 <= i < j < |g| ==> g[i].0 != g[j].0
  }

  /** `groups[k] || 0`: the total under `k`, 0 when absent. */
  function Total(g: Groups, k: string): (r: real)
    ensures k !in Keys(g) ==> r == 0.0
  {
    if |g| == 0 then 0.0
    else if g[0].0 == k then g[0].1
    else Total(g[1..], k)
  }

  /** With distinct keys, the total under a listed key is that entry's value. */
  lemma {:induction false} TotalAt(g: Groups, i: nat)
    requires DistinctKeys(g) && i < |g|
    ensures Total(g, g[i].0) == g[i].1
  {
    if i > 0 {
      assert DistinctKeys(g[1..]);
      TotalAt(g[1..], i - 1);
    }
  }

  /** The sum of all totals. */
  function GroupSum(g: Groups): real
  {
    if |g| == 0 then 0.0 else g[0].1 + GroupSum(g[1..])
  }

  /** `groups[k] = (groups[k] || 0) + v`: adds `v` under `k`, creating the entry at the end the first time `k` is seen. */
  function AddTo(g: Groups, k: string, v: real): (r: Groups)
    ensures k in Keys(g) ==> Keys(r) == Keys(g)
    ensures k !in Keys(g) ==> Keys(r) == Keys(g) + [k]
  {
    if |g| == 0 then [(k, v)]
    else if g[0].0 == k then [(k, g[0].1 + v)] + g[1..]
    else
      var rest := AddTo(g[1..], k, v);
      assert Keys([g[0]] + rest) == [g[0].0] + Keys(rest);
      [g[0]] + rest
  }

  /** Only the total under `k` changes, and it grows by `v`. */
  lemma {:induction false} AddToTotal(g: Groups, k: string, v: real, j: string)
    ensures Total(AddTo(g, k, v), j) == Total(g, j) + (if j == k then v else 0.0)
  {
    if |g| > 0 && g[0].0 != k {
      AddToTotal(g[1..], k, v, j);
      assert ([g[0]] + AddTo(g[1..], k, v))[1..] == AddTo(g[1..], k, v);
    } else if |g| > 0 {
      assert ([(k, g[0].1 + v)] + g[1..])[1..] == g[1..];
    }
  }

  lemma {:induction false} AddToSum(g: Groups, k: string, v: real)
    ensures GroupSum(AddTo(g, k, v)) == GroupSum(g) + v
  {
    if |g| > 0 && g[0].0 != k {
      AddToSum(g[1..], k, v);
      assert ([g[0]] + AddTo(g[1..], k, v))[1..] == AddTo(g[1..], k, v);
    } else if |g| > 0 {
      assert ([(k, g[0].1 + v)] + g[1..])[1..] == g[1..];
    }
  }

  lemma AddToDistinct(g: Groups, k: string, v: real)
    requires DistinctKeys(g)
    ensures DistinctKeys(AddTo(g, k, v))
  {
    var r := AddTo(g, k, v);
    var kg, kr := Keys(g), Keys(r);
    forall i, j | 0 <= i < j < |r|
      ensures r[i].0 != r[j].0
    {
      assert r[i].0 == kr[i] && r[j].0 == kr[j];
      if j < |g| {
        assert kr[i] == kg[i] == g[i].0 && kr[j] == kg[j] == g[j].0;
      } else {
        assert kr[i] == kg[i] && kg[i] in kg && kr[j] == k;
      }
    }
  }

  /** A trade's key is `k`. */
  function KeyedAs(keyOf: Trade -> string, k: string): Trade -> bool
  {
    (t: Trade) => keyOf(t) == k
  }

  /** The `forEach` adding each trade's P/L to its group, from the groups `g` so far. */
  function Accumulate(g: Groups, ts: seq<Trade>, keyOf: Trade -> string): (r: Groups)
    decreases |ts|
  {
    if |ts| == 0 then g
    else Accumulate(AddTo(g, keyOf(ts[0]), ts[0].profitLoss), ts[1..], keyOf)
  }

  lemma {:induction false} AccumulateTotal(g: Groups, ts: seq<Trade>, keyOf: Trade -> string, k: string)
    ensures Total(Accumulate(g, ts, keyOf), k) == Total(g, k) + SumOf(Filter(ts, KeyedAs(keyOf, k)), PL)
    decreases |ts|
  {
    if |ts| > 0 {
      var g' := AddTo(g, keyOf(ts[0]), ts[0].profitLoss);
      AddToTotal(g, keyOf(ts[0]), ts[0].profitLoss, k);
      AccumulateTotal(g', ts[1..], keyOf, k);
      SumFilterHead(ts, KeyedAs(keyOf, k), PL);
    }
  }

  lemma {:induction false} AccumulateSum(g: Groups, ts: seq<Trade>, keyOf: Trade -> string)
    ensures GroupSum(Accumulate(g, ts, keyOf)) == GroupSum(g) + SumOf(ts, PL)
    decreases |ts|
  {
    if |ts| > 0 {
      AddToSum(g, keyOf(ts[0]), ts[0].profitLoss);
      AccumulateSum(AddTo(g, keyOf(ts[0]), ts[0].profitLoss), ts[1..], keyOf);
    }
  }

  lemma {:induction false} AccumulateKeys(g: Groups, ts: seq<Trade>, keyOf: Trade -> string)
    requires DistinctKeys(g)
    ensures DistinctKeys(Accumulate(g, ts, keyOf))
    ensures forall k :: k in Keys(Accumulate(g, ts, keyOf)) <==> k in Keys(g) || k in KeysOf(ts, keyOf)
    decreases |ts|
  {
    if |ts| > 0 {
      var g' := AddTo(g, keyOf(ts[0]), ts[0].profitLoss);
      AddToDistinct(g, keyOf(ts[0]), ts[0].profitLoss);
      AccumulateKeys(g', ts[1..], keyOf);
      assert forall k :: k in Keys(g') <==> k in Keys(g) || k == keyOf(ts[0]);
    }
  }

  /** The keys of the trades, in order (with repeats). */
  function KeysOf(ts: seq<Trade>, keyOf: Trade -> string): (r: seq<string>)
    ensures |r| == |ts| && forall i :: 0 <= i < |ts| ==> r[i] == keyOf(ts[i])
  {
    if |ts| == 0 then [] else [keyOf(ts[0])] + KeysOf(ts[1..], keyOf)
  }

  /** The object built from no groups by the `forEach`. */
  function GroupBy(ts: seq<Trade>, keyOf: Trade -> string): Groups
  {
    Accumulate([], ts, keyOf)
  }

  /**
   The groups partition the trades: one entry per key that occurs, none other, each
   holding exactly the P/L of the trades with its key, and together all of it.
   */
  lemma GroupByPartition(ts: seq<Trade>, keyOf: Trade -> string)
    ensures DistinctKeys(GroupBy(ts, keyOf))
    ensures forall k :: k in Keys(GroupBy(ts, keyOf)) <==> k in KeysOf(ts, keyOf)
    ensures forall i :: 0 <= i < |GroupBy(ts, keyOf)| ==>
              GroupBy(ts, keyOf)[i].1 == SumOf(Filter(ts, KeyedAs(keyOf, GroupBy(ts, keyOf)[i].0)), PL)
    ensures GroupSum(GroupBy(ts, keyOf)) == SumOf(ts, PL)
  {
    var r := GroupBy(ts, keyOf);
    AccumulateKeys([], ts, keyOf);
    AccumulateSum([], ts, keyOf);
    forall i | 0 <= i < |r|
      ensures r[i].1 == SumOf(Filter(ts, KeyedAs(keyOf, r[i].0)), PL)
    {
      TotalAt(r, i);
      AccumulateTotal([], ts, keyOf, r[i].0);
    }
  }

  /** The total under any key, present or not, is the P/L of the trades with that key. */
  lemma GroupByTotal(ts: seq<Trade>, keyOf: Trade -> string, k: string)
    ensures Total(GroupBy(ts, keyOf), k) == SumOf(Filter(ts, KeyedAs(keyOf, k)), PL)
  {
    AccumulateTotal([], ts, keyOf, k);
  }

  function AssetKey(t: Trade): string { t.asset }

  /** `t.setup || 'Unknown'`. */
  function SetupKey(t: Trade): (k: string)
    ensures k != "" && (t.setup != "" ==> k == t.setup)
  {
    if t.setup == "" then "Unknown" else t.setup
  }

  /**
   `assetData`: the groups keyed by the asset string exactly as entered, one entry
   per asset with its P/L total. The entries are in first-met order, which is the
   order of `Object.entries` unless some asset reads as an array index.
   */
  function AssetData(ts: seq<Trade>): Groups
  {
    GroupBy(ts, AssetKey)
  }

  /** `setupData`: the groups keyed by setup, the trades without one pooled under "Unknown". */
  function SetupData(ts: seq<Trade>): Groups
  {
    GroupBy(ts, SetupKey)
  }

  /** Every trade's asset has an entry, and each asset's entry holds exactly that asset's P/L. */
  lemma AssetGroups(ts: seq<Trade>)
    ensures var r := AssetData(ts);
            DistinctKeys(r) && GroupSum(r) == SumOf(ts, PL)
            && (forall i :: 0 <= i < |ts| ==> ts[i].asset in Keys(r))
            && (forall k :: k in Keys(r) ==> exists i :: 0 <= i < |ts| && ts[i].asset == k)
            && forall i :: 0 <= i < |r| ==> r[i].1 == SumOf(Filter(ts, KeyedAs(AssetKey, r[i].0)), PL)
  {
    GroupByPartition(ts, AssetKey);
    var ks := KeysOf(ts, AssetKey);
    assert forall i :: 0 <= i < |ts| ==> ks[i] == ts[i].asset;
  }

  /** No setup group is keyed by the empty string; trades without a setup are under "Unknown". */
  lemma SetupGroups(ts: seq<Trade>)
    ensures var r := SetupData(ts);
            DistinctKeys(r) && GroupSum(r) == SumOf(ts, PL) && "" !in Keys(r)
            && (forall i :: 0 <= i < |ts| && ts[i].setup == "" ==> "Unknown" in Keys(r))
            && (forall i :: 0 <= i < |ts| && ts[i].setup != "" ==> ts[i].setup in Keys(r))
            && forall i :: 0 <= i < |r| ==> r[i].1 == SumOf(Filter(ts, KeyedAs(SetupKey, r[i].0)), PL)
  {
    GroupByPartition(ts, SetupKey);
    var ks := KeysOf(ts, SetupKey);
    assert forall i :: 0 <= i < |ts| ==> ks[i] == SetupKey(ts[i]);
  }

  /** The "Unknown" group holds the trades with no setup together with any literally named "Unknown". */
  lemma UnknownSetupGroup(ts: seq<Trade>)
    ensures Total(SetupData(ts), "Unknown")
            == SumOf(Filter(ts, (t: Trade) => t.setup == "" || t.setup == "Unknown"), PL)
  {
    GroupByTotal(ts, SetupKey, "Unknown");
    forall i | 0 <= i < |ts|
      ensures KeyedAs(SetupKey, "Unknown")(ts[i]) <==> ts[i].setup == "" || ts[i].setup == "Unknown"
    {
      var t := ts[i];
      assert KeyedAs(SetupKey, "Unknown")(t) == (SetupKey(t) == "Unknown");
      assert SetupKey(t) == (if t.setup == "" then "Unknown" else t.setup);
    }
    FilterExt(ts, KeyedAs(SetupKey, "Unknown"), (t: Trade) => t.setup == "" || t.setup == "Unknown");
  }

  // ---------------------------------------------------------------------------
  // Weekday buckets

  const DayNames: seq<string> :=
    ["Sunday", "Monday", "Tuesday", "Wednesday", "Thursday", "Friday", "Saturday"]

  type WeekdayIndex = d: int | 0 <= d < 7

  /**
   `days[new Date(t.date).getDay()]`: the weekday comes from outside (it depends on the
   local time zone); an invalid date has none and lands under the key "undefined".
   */
  function DayKey(weekdayOf: Trade -> Option<WeekdayIndex>): Trade -> string
  {
    (t: Trade) => match weekdayOf(t) case Some(d) => DayNames[d] case None => "undefined"
  }

  function OnWeekday(weekdayOf: Trade -> Option<WeekdayIndex>, d: int): Trade -> bool
  {
    (t: Trade) => weekdayOf(t) == Some(d)
  }

  function HasWeekday(weekdayOf: Trade -> Option<WeekdayIndex>): Trade -> bool
  {
    (t: Trade) => weekdayOf(t).Some?
  }

  /** The day names are seven different strings, none of them "undefined". */
  lemma DayNamesDistinct(d: WeekdayIndex, e: WeekdayIndex)
    ensures DayNames[d] == DayNames[e] <==> d == e
    ensures DayNames[d] != "undefined"
  {
  }

  /** `dayData`: `days.map(name => groups[name] || 0)`, Sunday to Saturday. */
  function DayData(ts: seq<Trade>, weekdayOf: Trade -> Option<WeekdayIndex>): (r: Groups)
    ensures |r| == 7 && Keys(r) == DayNames
  {
    var g := GroupBy(ts, DayKey(weekdayOf));
    seq(7, (d: int) requires 0 <= d < 7 => (DayNames[d], Total(g, DayNames[d])))
  }

  /** The bucket of weekday `d` holds exactly the P/L of the trades falling on `d` (0 if none). */
  lemma DayBucket(ts: seq<Trade>, weekdayOf: Trade -> Option<WeekdayIndex>, d: WeekdayIndex)
    ensures DayData(ts, weekdayOf)[d].1 == SumOf(Filter(ts, OnWeekday(weekdayOf, d)), PL)
    ensures (forall i :: 0 <= i < |ts| ==> weekdayOf(ts[i]) != Some(d)) ==> DayData(ts, weekdayOf)[d].1 == 0.0
  {
    DayDataAt(ts, weekdayOf, d);
    GroupByTotal(ts, DayKey(weekdayOf), DayNames[d]);
    DayKeyFilter(ts, weekdayOf, d);
    if forall i :: 0 <= i < |ts| ==> weekdayOf(ts[i]) != Some(d) {
      NoTradeOnWeekday(ts, weekdayOf, d);
    }
  }

  lemma DayDataAt(ts: seq<Trade>, weekdayOf: Trade -> Option<WeekdayIndex>, d: WeekdayIndex)
    ensures DayData(ts, weekdayOf)[d].1 == Total(GroupBy(ts, DayKey(weekdayOf)), DayNames[d])
  {
  }

  /** The trades keyed with the name of day `d` are exactly the trades on day `d`. */
  lemma DayKeyFilter(ts: seq<Trade>, weekdayOf: Trade -> Option<WeekdayIndex>, d: WeekdayIndex)
    ensures Filter(ts, KeyedAs(DayKey(weekdayOf), DayNames[d])) == Filter(ts, OnWeekday(weekdayOf, d))
  {
    forall i | 0 <= i < |ts|
      ensures KeyedAs(DayKey(weekdayOf), DayNames[d])(ts[i]) <==> OnWeekday(weekdayOf, d)(ts[i])
    {
      DayNamesDistinct(d, d);
      if weekdayOf(ts[i]).Some? {
        DayNamesDistinct(weekdayOf(ts[i]).value, d);
      }
    }
    FilterExt(ts, KeyedAs(DayKey(weekdayOf), DayNames[d]), OnWeekday(weekdayOf, d));
  }

  lemma NoTradeOnWeekday(ts: seq<Trade>, weekdayOf: Trade -> Option<WeekdayIndex>, d: WeekdayIndex)
    requires forall i :: 0 <= i < |ts| ==> weekdayOf(ts[i]) != Some(d)
    ensures SumOf(Filter(ts, OnWeekday(weekdayOf, d)), PL) == 0.0
  {
    assert Filter(ts, OnWeekday(weekdayOf, d)) == [];
  }

  /** The P/L of the trades on weekdays `from` .. 6. */
  function DaysFrom(ts: seq<Trade>, weekdayOf: Trade -> Option<WeekdayIndex>, from: nat): real
    decreases 7 - from
  {
    if from >= 7 then 0.0 else SumOf(Filter(ts, OnWeekday(weekdayOf, from)), PL) + DaysFrom(ts, weekdayOf, from + 1)
  }

  lemma {:induction false} DaysFromHead(ts: seq<Trade>, weekdayOf: Trade -> Option<WeekdayIndex>, from: nat)
    requires |ts| > 0
    ensures DaysFrom(ts, weekdayOf, from)
            == (if weekdayOf(ts[0]).Some? && weekdayOf(ts[0]).value >= from then ts[0].profitLoss else 0.0)
               + DaysFrom(ts[1..], weekdayOf, from)
    decreases 7 - from
  {
    if from < 7 {
      DaysFromHead(ts, weekdayOf, from + 1);
      SumFilterHead(ts, OnWeekday(weekdayOf, from), PL);
      var w := weekdayOf(ts[0]);
      var here := if w == Some(from) then ts[0].profitLoss else 0.0;
      var later := if w.Some? && w.value >= from + 1 then ts[0].profitLoss else 0.0;
      assert OnWeekday(weekdayOf, from)(ts[0]) <==> w == Some(from);
      assert DaysFrom(ts[1..], weekdayOf, from)
          == SumOf(Filter(ts[1..], OnWeekday(weekdayOf, from)), PL) + DaysFrom(ts[1..], weekdayOf, from + 1);
      Regroup(DaysFrom(ts, weekdayOf, from), SumOf(Filter(ts, OnWeekday(weekdayOf, from)), PL),
        DaysFrom(ts, weekdayOf, from + 1), SumOf(Filter(ts[1..], OnWeekday(weekdayOf, from)), PL),
        DaysFrom(ts[1..], weekdayOf, from + 1), here, later);
      HereOrLater(w, from, ts[0].profitLoss);
    }
  }

  /** A trade on weekday `from` or later is on `from` or on `from + 1` or later, not both. */
  lemma HereOrLater(w: Option<WeekdayIndex>, from: nat, pl: real)
    ensures (if w == Some(from) then pl else 0.0) + (if w.Some? && w.value >= from + 1 then pl else 0.0)
            == (if w.Some? && w.value >= from then pl else 0.0)
  {
  }

  /** The bookkeeping of one step of DaysFromHead, over plain numbers. */
  lemma Regroup(total: real, bucket: real, rest: real, tailBucket: real, tailRest: real, here: real, later: real)
    requires total == bucket + rest && bucket == here + tailBucket && rest == later + tailRest
    ensures total == (here + later) + (tailBucket + tailRest)
  {
  }

  lemma {:induction false} DaysFromEmpty(ts: seq<Trade>, weekdayOf: Trade -> Option<WeekdayIndex>, from: nat)
    requires |ts| == 0
    ensures DaysFrom(ts, weekdayOf, from) == 0.0
    decreases 7 - from
  {
    if from < 7 {
      DaysFromEmpty(ts, weekdayOf, from + 1);
    }
  }

  /** Each trade with a weekday falls in exactly one bucket. */
  lemma {:induction false} DaysPartition(ts: seq<Trade>, weekdayOf: Trade -> Option<WeekdayIndex>)
    ensures DaysFrom(ts, weekdayOf, 0) == SumOf(Filter(ts, HasWeekday(weekdayOf)), PL)
  {
    if |ts| == 0 {
      DaysFromEmpty(ts, weekdayOf, 0);
    } else {
      DaysPartition(ts[1..], weekdayOf);
      DaysFromHead(ts, weekdayOf, 0);
      SumFilterHead(ts, HasWeekday(weekdayOf), PL);
    }
  }

  lemma {:induction false} BucketSuffix(r: Groups, ts: seq<Trade>, weekdayOf: Trade -> Option<WeekdayIndex>, k: nat)
    requires |r| == 7 && k <= 7
    requires forall d :: 0 <= d < 7 ==> r[d].1 == SumOf(Filter(ts, OnWeekday(weekdayOf, d)), PL)
    ensures GroupSum(r[k..]) == DaysFrom(ts, weekdayOf, k)
    decreases 7 - k
  {
    if k < 7 {
      BucketSuffix(r, ts, weekdayOf, k + 1);
      assert r[k..][1..] == r[k + 1..];
    }
  }

  /** The seven buckets together hold the P/L of every trade whose date has a weekday. */
  lemma DayDataSum(ts: seq<Trade>, weekdayOf: Trade -> Option<WeekdayIndex>)
    ensures GroupSum(DayData(ts, weekdayOf)) == SumOf(Filter(ts, HasWeekday(weekdayOf)), PL)
    ensures (forall i :: 0 <= i < |ts| ==> weekdayOf(ts[i]).Some?) ==>
              GroupSum(DayData(ts, weekdayOf)) == SumOf(ts, PL)
  {
    var r := DayData(ts, weekdayOf);
    forall d | 0 <= d < 7
      ensures r[d].1 == SumOf(Filter(ts, OnWeekday(weekdayOf, d)), PL)
    {
      DayBucket(ts, weekdayOf, d);
    }
    BucketSuffix(r, ts, weekdayOf, 0);
    assert r[0..] == r;
    DaysPartition(ts, weekdayOf);
    if forall i :: 0 <= i < |ts| ==> weekdayOf(ts[i]).Some? {
      FilterAll(ts, HasWeekday(weekdayOf));
    }
  }

  // ---------------------------------------------------------------------------
  // Rule edge

  /** `ruleEdgeData`: the mean P/L with rules followed and with rules broken (0 for an empty side). */
  function RuleEdge(ts: seq<Trade>): (r: (real, real))
    ensures Count(ts, Followed) == 0 ==> r.0 == 0.0
    ensures Count(ts, Broken) == 0 ==> r.1 == 0.0
    ensures Times(Count(ts, Followed), r.0) == SumOf(Filter(ts, Followed), PL)
    ensures Times(Count(ts, Broken), r.1) == SumOf(Filter(ts, Broken), PL)
  {
    (MeanPL(Filter(ts, Followed)), MeanPL(Filter(ts, Broken)))
  }

  /** Weighting the two averages by their group sizes gives back the total P/L. */
  lemma RuleEdgeRecombines(ts: seq<Trade>)
    ensures var r := RuleEdge(ts);
            Times(Count(ts, Followed), r.0) + Times(Count(ts, Broken), r.1) == SumOf(ts, PL)
    ensures Count(ts, Followed) + Count(ts, Broken) == |ts|
  {
    SumSplit(ts, Followed, Broken, PL);
    CountSplit(ts, Followed, Broken);
  }
}

=== FILE: psychcoach.dfy ===
/**
 The psychology coach (components/PsychCoach.tsx): up to three rule-based insights
 from the journal's emotion tags and the trade list, in a fixed order, or one
 reassuring default when no rule fires. The message texts are not modelled.
 */
module PsychCoach {
  import opened Common
  import opened Records

  datatype Kind = Positive | Risk

  datatype Insight = FearInsight | OvertradingInsight | ConfidenceInsight | SteadyInsight

  function KindOf(i: Insight): Kind
  {
    match i
    case FearInsight => Risk
    case OvertradingInsight => Risk
    case ConfidenceInsight => Positive
    case SteadyInsight => Positive
  }

  /** The position of a rule's message in the fixed order fear, overtrading, confidence. */
  function Rank(i: Insight): nat
  {
    match i
    case FearInsight => 0
    case OvertradingInsight => 1
    case ConfidenceInsight => 2
    case SteadyInsight => 3
  }

  /** `trades.slice(-3)`: the last three listed trades, or all of them when fewer. */
  function LastListed(ts: seq<Trade>): (r: seq<Trade>)
    ensures |r| == if |ts| < 3 then |ts| else 3
    ensures forall i :: 0 <= i < |r| ==> r[i] == ts[|ts| - |r| + i]
  {
    if |ts| <= 3 then ts else ts[|ts| - 3..]
  }

  /** At least three fear-tagged entries and at least two losses among the last three trades. */
  predicate FearRule(ts: seq<Trade>, es: seq<PsychologyEntry>)
  {
    Count(es, Tagged("fear")) >= 3 && Count(LastListed(ts), IsLoss) >= 2
  }

  /** At least two overtrading-tagged entries. */
  predicate OvertradingRule(es: seq<PsychologyEntry>)
  {
    Count(es, Tagged("overtrading")) >= 2
  }

  /** At least three confidence-tagged entries and at least five winning trades. */
  predicate ConfidenceRule(ts: seq<Trade>, es: seq<PsychologyEntry>)
  {
    Count(es, Tagged("confidence")) >= 3 && Count(ts, IsWin) >= 5
  }

  /**
   `insights`: the messages of the rules that fire, in rule order, or the default
   alone when none does; so there are one to three messages.
   */
  function Insights(ts: seq<Trade>, es: seq<PsychologyEntry>): (r: seq<Insight>)
    ensures 1 <= |r| <= 3
    ensures FearInsight in r <==> FearRule(ts, es)
    ensures OvertradingInsight in r <==> OvertradingRule(es)
    ensures ConfidenceInsight in r <==> ConfidenceRule(ts, es)
    ensures SteadyInsight in r <==> !FearRule(ts, es) && !OvertradingRule(es) && !ConfidenceRule(ts, es)
    ensures SteadyInsight in r ==> r == [SteadyInsight]
    ensures forall i, j :: 0 <= i < j < |r| ==> Rank(r[i]) < Rank(r[j])
  {
    Messages(FearRule(ts, es), OvertradingRule(es), ConfidenceRule(ts, es))
  }

  /** The messages pushed for the given rule outcomes. */
  function Messages(fear: bool, over: bool, confident: bool): (r: seq<Insight>)
    ensures 1 <= |r| <= 3
    ensures FearInsight in r <==> fear
    ensures OvertradingInsight in r <==> over
    ensures ConfidenceInsight in r <==> confident
    ensures SteadyInsight in r <==> !fear && !over && !confident
    ensures SteadyInsight in r ==> r == [SteadyInsight]
    ensures forall i, j :: 0 <= i < j < |r| ==> Rank(r[i]) < Rank(r[j])
  {
    var fired := (if fear then [FearInsight] else [])
                 + (if over then [OvertradingInsight] else [])
                 + (if confident then [ConfidenceInsight] else []);
    if |fired| == 0 then [SteadyInsight] else fired
  }

  /** A risk message appears exactly when the fear or the overtrading rule fires. */
  lemma RiskIffWarning(ts: seq<Trade>, es: seq<PsychologyEntry>)
    ensures (exists i :: 0 <= i < |Insights(ts, es)| && KindOf(Insights(ts, es)[i]) == Risk)
            <==> FearRule(ts, es) || OvertradingRule(es)
  {
    var r := Insights(ts, es);
    if FearRule(ts, es) {
      var i :| 0 <= i < |r| && r[i] == FearInsight;
    } else if OvertradingRule(es) {
      var i :| 0 <= i < |r| && r[i] == OvertradingInsight;
    }
  }
}

=== FILE: psychology.dfy ===
/**
 The psychology journal (pages/Psychology.tsx): the save guard of the entry form,
 the emotion tag toggle, the filter over dates, emotion and intensity with its
 newest-first order, and the average intensity and dominant emotion of what the
 filter shows. Fresh ids and the clock are parameters.
 */
module Psychology {
  import opened Common
  import opened Records
  import Dates
  import Sorting

  /** The fields of the entry form. */
  datatype EntryForm = EntryForm(date: string, emotions: seq<string>, intensity: real, notes: string)

  /** The form as `handleEdit` fills it from an existing entry. */
  function FormOf(e: PsychologyEntry): EntryForm
  {
    EntryForm(e.date, e.emotions, e.intensity, e.notes)
  }

  /**
   `handleSave`: nothing is saved without notes or without an emotion; otherwise the
   entry takes the form's fields, the edited entry's id (a fresh one for a new entry),
   the user's id and the current time.
   */
  function Save(form: EntryForm, editing: Option<string>, freshId: string, userId: string, now: int): (r: Option<PsychologyEntry>)
    ensures r.None? <==> form.notes == "" || |form.emotions| == 0
    ensures r.Some? ==> FormOf(r.value) == form && r.value.userId == userId && r.value.timestamp == now
    ensures r.Some? && editing.Some? && editing.value != "" ==> r.value.id == editing.value
    ensures r.Some? && editing.None? ==> r.value.id == freshId
  {
    if form.notes == "" || |form.emotions| == 0 then None
    else Some(PsychologyEntry(SavedId(editing, freshId), userId, form.date, form.emotions, form.intensity, form.notes, now))
  }

  /**
   Opening an entry and saving it unchanged gives back the same entry, re-stamped
   with the time of the save, as long as it has notes and an emotion.
   */
  lemma EditRoundTrip(e: PsychologyEntry, now: int)
    requires e.id != "" && e.notes != "" && |e.emotions| > 0
    ensures Save(FormOf(e), Some(e.id), "unused", e.userId, now) == Some(e.(timestamp := now))
  {
  }

  /** Removes every copy of one tag. */
  function Without(emo: string): string -> bool
  {
    (x: string) => x != emo
  }

  /**
   `toggleEmotion`: a selected tag is removed (every copy of it), an unselected one is
   appended at the end; the other tags stay as they were.
   */
  function ToggleEmotion(current: seq<string>, emo: string): (r: seq<string>)
    ensures emo in r <==> emo !in current
    ensures forall x :: x != emo ==> (x in r <==> x in current)
    ensures emo !in current ==> |r| == |current| + 1 && r[..|current|] == current && r[|current|] == emo
    ensures emo in current ==> multiset(r) == multiset(current)[emo := 0]
  {
    if emo in current then
      FilterOutMultiset(current, emo);
      Filter(current, Without(emo))
    else
      current + [emo]
  }

  lemma {:induction false} FilterOutMultiset(s: seq<string>, emo: string)
    ensures multiset(Filter(s, Without(emo))) == multiset(s)[emo := 0]
  {
    if |s| > 0 {
      FilterOutMultiset(s[1..], emo);
      Uncons(s);
      FilterCons(s[0], s[1..], Without(emo));
    }
  }

  /** Selecting a tag and unselecting it again restores the form's tags. */
  lemma ToggleEmotionTwice(current: seq<string>, emo: string)
    requires emo !in current
    ensures ToggleEmotion(ToggleEmotion(current, emo), emo) == current
  {
    var once := current + [emo];
    FilterAppend(current, [emo], Without(emo));
    FilterAll(current, Without(emo));
    assert Filter([emo], Without(emo)) == [];
  }

  /** The filter panel; an empty date or emotion leaves that criterion off. */
  datatype Filters = Filters(startDate: string, endDate: string, emotion: string, minIntensity: real, maxIntensity: real)

  /** The panel as the page opens it. */
  const DefaultFilters: Filters := Filters("", "", "", 1.0, 10.0)

  /** `!start || entryDate >= start`: an invalid date on either side compares false. */
  predicate OnOrAfter(date: string, start: string)
  {
    start == ""
    || (Dates.TimeMs(date).Some? && Dates.TimeMs(start).Some? && Dates.TimeMs(date).value >= Dates.TimeMs(start).value)
  }

  /** `!end || entryDate <= end`. */
  predicate OnOrBefore(date: string, end: string)
  {
    end == ""
    || (Dates.TimeMs(date).Some? && Dates.TimeMs(end).Some? && Dates.TimeMs(date).value <= Dates.TimeMs(end).value)
  }

  /** The test `filteredEntries` applies to each entry. */
  function Keeps(f: Filters): PsychologyEntry -> bool
  {
    (e: PsychologyEntry) =>
      OnOrAfter(e.date, f.startDate) && OnOrBefore(e.date, f.endDate)
      && (f.emotion == "" || Includes(e.emotions, f.emotion))
      && f.minIntensity <= e.intensity <= f.maxIntensity
  }

  /**
   `filteredEntries`: exactly the entries the filter keeps, each as often as in the
   journal, newest date first.
   */
  function Filtered(es: seq<PsychologyEntry>, f: Filters): (r: seq<PsychologyEntry>)
    ensures forall e :: e in r <==> e in es && Keeps(f)(e)
    ensures multiset(r) == multiset(Filter(es, Keeps(f))) && multiset(r) <= multiset(es)
    ensures forall i, j :: 0 <= i < j < |r| ==> EntryDay(r[i]) >= EntryDay(r[j])
  {
    var kept := Filter(es, Keeps(f));
    var r := Sorting.SortDesc(kept, EntryDay);
    SameElements(r, kept);
    FilterSubMultiset(es, Keeps(f));
    r
  }

  /** The page's initial filter keeps every entry whose intensity is on the 1 to 10 scale. */
  lemma DefaultKeepsAll(es: seq<PsychologyEntry>)
    requires forall i :: 0 <= i < |es| ==> 1.0 <= es[i].intensity <= 10.0
    ensures multiset(Filtered(es, DefaultFilters)) == multiset(es)
  {
    FilterAll(es, Keeps(DefaultFilters));
  }

  /** All emotion tags of the entries, entry by entry, in order. */
  function Tags(es: seq<PsychologyEntry>): seq<string>
  {
    if |es| == 0 then [] else es[0].emotions + Tags(es[1..])
  }

  function IsTag(x: string): string -> bool
  {
    (y: string) => y == x
  }

  /** `emotionCounts[x]`: how often a tag occurs. */
  function Occurrences(tags: seq<string>, x: string): nat
  {
    Count(tags, IsTag(x))
  }

  /** Where a tag first occurs. */
  function FirstIndex(tags: seq<string>, x: string): (k: nat)
    requires x in tags
    ensures k < |tags| && tags[k] == x && x !in tags[..k]
  {
    if tags[0] == x then 0
    else
      assert tags[1..][..FirstIndex(tags[1..], x)] == tags[1..FirstIndex(tags[1..], x) + 1];
      1 + FirstIndex(tags[1..], x)
  }

  /** An index holding `x` with no `x` before it is the first index of `x`. */
  lemma FirstIndexUnique(tags: seq<string>, x: string, k: nat)
    requires k < |tags| && tags[k] == x && x !in tags[..k]
    ensures FirstIndex(tags, x) == k
  {
  }

  /** Appending a tag leaves the first index of the earlier tags alone and puts a new tag last. */
  lemma FirstIndexSnoc(tags: seq<string>, x: string)
    ensures forall y :: y in tags ==> FirstIndex(tags + [x], y) == FirstIndex(tags, y)
    ensures x !in tags ==> FirstIndex(tags + [x], x) == |tags|
  {
    var s := tags + [x];
    forall y | y in tags
      ensures FirstIndex(s, y) == FirstIndex(tags, y)
    {
      var k := FirstIndex(tags, y);
      assert s[..k] == tags[..k];
      FirstIndexUnique(s, y, k);
    }
    if x !in tags {
      assert s[..|tags|] == tags;
      FirstIndexUnique(s, x, |tags|);
    }
  }

  /**
   The keys of `emotionCounts` in insertion order: each tag once, ordered by where
   it first occurs.
   */
  function FirstSeen(tags: seq<string>): (r: seq<string>)
    ensures forall x :: x in r <==> x in tags
    ensures forall i, j :: 0 <= i < j < |r| ==> r[i] != r[j]
    ensures forall i, j :: 0 <= i < j < |r| ==> FirstIndex(tags, r[i]) < FirstIndex(tags, r[j])
  {
    if |tags| == 0 then []
    else
      var init := tags[..|tags| - 1];
      var r := FirstSeen(init);
      var x := tags[|tags| - 1];
      assert tags == init + [x];
      FirstIndexSnoc(init, x);
      if x in r then r else r + [x]
  }

  /**
   The loop over `emotionCounts` with a strict `>`: the dominant tag occurs most often,
   and every tag seen before it occurs strictly less often, so a tie goes to the tag
   seen first. Without tags it stays "-".
   */
  method Dominant(tags: seq<string>) returns (dominant: string, maxCount: nat)
    ensures |tags| == 0 ==> dominant == "-" && maxCount == 0
    ensures |tags| > 0 ==> dominant in tags && maxCount == Occurrences(tags, dominant)
    ensures forall x :: x in tags ==> Occurrences(tags, x) <= maxCount
    ensures |tags| > 0 ==> exists k :: 0 <= k < |FirstSeen(tags)| && FirstSeen(tags)[k] == dominant
                            && forall j :: 0 <= j < k ==> Occurrences(tags, FirstSeen(tags)[j]) < maxCount
  {
    var keys := FirstSeen(tags);
    dominant, maxCount := Scan(tags, keys);
    forall x | x in tags
      ensures Occurrences(tags, x) <= maxCount
    {
      assert x in keys;
      var j :| 0 <= j < |keys| && keys[j] == x;
    }
    if |tags| > 0 {
      assert tags[0] in keys;
    }
  }

  /**
   The walk over `Object.entries(emotionCounts)` in key order: a key replaces the
   current best only when it occurs strictly more often.
   */
  method Scan(tags: seq<string>, keys: seq<string>) returns (dominant: string, maxCount: nat)
    requires forall x :: x in keys ==> x in tags
    ensures |keys| == 0 ==> dominant == "-" && maxCount == 0
    ensures forall j :: 0 <= j < |keys| ==> Occurrences(tags, keys[j]) <= maxCount
    ensures |keys| > 0 ==> exists k :: 0 <= k < |keys| && keys[k] == dominant && Occurrences(tags, dominant) == maxCount
                            && forall j :: 0 <= j < k ==> Occurrences(tags, keys[j]) < maxCount
  {
    dominant, maxCount := "-", 0;
    ghost var at := 0;
    var i := 0;
    while i < |keys|
      invariant 0 <= i <= |keys|
      invariant forall j :: 0 <= j < i ==> Occurrences(tags, keys[j]) <= maxCount
      invariant maxCount == 0 ==> dominant == "-"
      invariant i > 0 ==> maxCount > 0
      invariant maxCount > 0 ==> 0 <= at < i && keys[at] == dominant && Occurrences(tags, dominant) == maxCount
                                 && forall j :: 0 <= j < at ==> Occurrences(tags, keys[j]) < maxCount
    {
      var c := Occurrences(tags, keys[i]);
      assert keys[i] in tags;
      assert c > 0;
      if c > maxCount {
        dominant, maxCount, at := keys[i], c, i;
      }
      i := i + 1;
    }
  }

  /** The mean intensity of the shown entries (0 when none is shown). */
  function AvgIntensity(es: seq<PsychologyEntry>): (r: real)
    ensures |es| == 0 ==> r == 0.0
    ensures |es| > 0 ==> Times(|es|, r) == SumOf(es, Intensity)
  {
    if |es| == 0 then 0.0 else SumOf(es, Intensity) / (|es| as real)
  }

  /** Intensities within bounds average within the same bounds. */
  lemma AverageBetween(es: seq<PsychologyEntry>, lo: real, hi: real)
    requires |es| > 0 && forall i :: 0 <= i < |es| ==> lo <= es[i].intensity <= hi
    ensures lo <= AvgIntensity(es) <= hi
  {
    SumBounds(es, Intensity, lo, hi);
    var n := |es| as real;
    var a := AvgIntensity(es);
    assert n * a == SumOf(es, Intensity);
    assert n * lo <= n * a <= n * hi;
  }

  /** The average shown never leaves the intensity range of the filter. */
  lemma FilteredAverageInRange(es: seq<PsychologyEntry>, f: Filters)
    requires |Filtered(es, f)| > 0
    ensures f.minIntensity <= AvgIntensity(Filtered(es, f)) <= f.maxIntensity
  {
    var r := Filtered(es, f);
    assert forall i :: 0 <= i < |r| ==> Keeps(f)(r[i]) by {
      forall i | 0 <= i < |r| ensures Keeps(f)(r[i]) { assert r[i] in r; }
    }
    AverageBetween(r, f.minIntensity, f.maxIntensity);
  }

  datatype JournalStats = JournalStats(avgIntensity: real, dominantEmotion: string)

  /**
   `stats`: without shown entries the average is 0 and the dominant emotion "-";
   otherwise the mean intensity and the most frequent tag, ties going to the tag seen first.
   */
  method Stats(shown: seq<PsychologyEntry>) returns (s: JournalStats)
    ensures |shown| == 0 ==> s == JournalStats(0.0, "-")
    ensures |shown| > 0 ==> Times(|shown|, s.avgIntensity) == SumOf(shown, Intensity)
    ensures Tags(shown) == [] ==> s.dominantEmotion == "-"
    ensures Tags(shown) != [] ==> s.dominantEmotion in Tags(shown)
    ensures forall x :: x in Tags(shown) && x != s.dominantEmotion ==>
              Occurrences(Tags(shown), x) <= Occurrences(Tags(shown), s.dominantEmotion)
    ensures Tags(shown) != [] ==>
              var keys := FirstSeen(Tags(shown));
              exists k :: 0 <= k < |keys| && keys[k] == s.dominantEmotion
                && forall j :: 0 <= j < k ==> Occurrences(Tags(shown), keys[j]) < Occurrences(Tags(shown), s.dominantEmotion)
  {
    if |shown| == 0 {
      return JournalStats(0.0, "-");
    }
    var dominant, maxCount := Dominant(Tags(shown));
    s := JournalStats(AvgIntensity(shown), dominant);
  }
}

=== FILE: records.dfy ===
/**
 The journal's records (`types.ts`). The pages also read fields the declared
 interfaces leave out (`stopLoss`, `autoFlags`, `marketSession`, `description`,
 `streakCount`); they appear here as optional fields, `None` standing for an
 absent property.
 */
module Records {
  import opened Common
  import Dates

  datatype Side = Buy | Sell

  datatype Trade = Trade(
    id: string,
    userId: string,
    date: string,
    asset: string,
    side: Side,
    lotSize: real,
    profitLoss: real,
    notes: string,
    setup: string,
    rulesFollowed: bool,
    rMultiple: Option<real>,
    stopLoss: Option<real>,
    autoFlags: Option<seq<string>>,
    marketSession: Option<string>,
    description: Option<string>)

  datatype PsychologyEntry = PsychologyEntry(
    id: string,
    userId: string,
    date: string,
    emotions: seq<string>,
    intensity: real,
    notes: string,
    timestamp: int)

  datatype TradingRule = TradingRule(id: string, userId: string, description: string)

  datatype User = User(
    id: string,
    email: string,
    name: string,
    isAnonymous: Option<bool>,
    startingBalance: Option<real>,
    currency: Option<string>,
    xp: Option<int>,
    level: Option<int>,
    streakCount: Option<int>)

  /** A winning trade: strictly positive P/L. */
  predicate IsWin(t: Trade) { t.profitLoss > 0.0 }

  /** A losing trade: strictly negative P/L (break-even trades are neither). */
  predicate IsLoss(t: Trade) { t.profitLoss < 0.0 }

  predicate Followed(t: Trade) { t.rulesFollowed }

  predicate Broken(t: Trade) { !t.rulesFollowed }

  function PL(t: Trade): real { t.profitLoss }

  /** Chronological key of a trade's date (the `new Date(t.date).getTime()` order). */
  function TradeDay(t: Trade): int { Dates.SortKey(t.date) }

  function EntryDay(e: PsychologyEntry): int { Dates.SortKey(e.date) }

  function Intensity(e: PsychologyEntry): real { e.intensity }

  /** `(x || 0)` on an optional number. */
  function OrZero(x: Option<real>): real
  {
    match x
    case Some(v) => v
    case None => 0.0
  }

  /** `user.streakCount || 0`. */
  function StreakOf(u: User): int
  {
    match u.streakCount
    case Some(n) => n
    case None => 0
  }

  /** `list.includes(x)`. */
  predicate Includes(list: seq<string>, x: string)
  {
    x in list
  }

  /** A trade is dated exactly on the given day string. */
  function DatedOn(day: string): Trade -> bool
  {
    (t: Trade) => t.date == day
  }

  function EntryDatedOn(day: string): PsychologyEntry -> bool
  {
    (e: PsychologyEntry) => e.date == day
  }

  /** A psychology entry carries the given emotion tag. */
  function Tagged(emotion: string): PsychologyEntry -> bool
  {
    (e: PsychologyEntry) => Includes(e.emotions, emotion)
  }

  /** `editing?.id || freshId`: an edited record keeps its id, unless that id is empty. */
  function SavedId(editing: Option<string>, freshId: string): (id: string)
    ensures editing.Some? && editing.value != "" ==> id == editing.value
    ensures editing.None? || editing.value == "" ==> id == freshId
  {
    if editing.Some? && editing.value != "" then editing.value else freshId
  }
}

=== FILE: selection.dfy ===
/**
 The row selection shared by the trade log (pages/Trades.tsx) and the psychology
 journal (pages/Psychology.tsx): a set of selected ids, one checkbox per row and a
 "select all" checkbox that either clears the selection or selects every listed id.
 */
module Selection {
  /** `toggleSelect`: the id's checkbox flips; no other id changes. */
  function Toggle(sel: set<string>, id: string): (r: set<string>)
    ensures id in r <==> id !in sel
    ensures forall x :: x != id ==> (x in r <==> x in sel)
  {
    if id in sel then sel - {id} else sel + {id}
  }

  /** Clicking a row's checkbox twice leaves the selection as it was. */
  lemma ToggleTwice(sel: set<string>, id: string)
    ensures Toggle(Toggle(sel, id), id) == sel
  {
    var once := Toggle(sel, id);
    var twice := Toggle(once, id);
    forall x ensures x in twice <==> x in sel
    {
      if x != id {
        assert x in twice <==> x in once;
      }
    }
  }

  /** The listed ids, as the set `new Set(list.map(x => x.id))`. */
  function IdSet(ids: seq<string>): set<string>
  {
    set i | 0 <= i < |ids| :: ids[i]
  }

  predicate DistinctIds(ids: seq<string>)
  {
    forall i, j :: 0 <= i < j < |ids| ==> ids[i] != ids[j]
  }

  /**
   The trade log's `toggleSelectAll`: clear when the selection is as large as the
   list, otherwise select every listed id.
   */
  function SelectAll(sel: set<string>, ids: seq<string>): (r: set<string>)
    ensures |sel| == |ids| ==> r == {}
    ensures |sel| != |ids| ==> forall x :: x in r <==> exists i :: 0 <= i < |ids| && ids[i] == x
  {
    if |sel| == |ids| then {} else IdSet(ids)
  }

  /**
   The journal's `toggleSelectAll`, whose guard also asks for a non-empty list. On an
   empty list both branches give the empty set, so it agrees with the trade log's.
   */
  function SelectAllListed(sel: set<string>, ids: seq<string>): (r: set<string>)
    ensures r == SelectAll(sel, ids)
  {
    if |sel| == |ids| && |ids| > 0 then {} else IdSet(ids)
  }

  /** The set of distinct listed ids has one element per row. */
  lemma {:induction false} IdSetSize(ids: seq<string>)
    requires DistinctIds(ids)
    ensures |IdSet(ids)| == |ids|
  {
    if |ids| > 0 {
      var last := ids[|ids| - 1];
      var init := ids[..|ids| - 1];
      assert DistinctIds(init);
      IdSetSize(init);
      assert IdSet(ids) == IdSet(init) + {last};
      assert last !in IdSet(init);
    }
  }

  /**
   For a selection drawn from a list of distinct ids, the size test of "select all"
   means exactly that every listed row is selected.
   */
  lemma SizeMeansAll(sel: set<string>, ids: seq<string>)
    requires DistinctIds(ids) && sel <= IdSet(ids)
    ensures |sel| == |ids| <==> sel == IdSet(ids)
  {
    IdSetSize(ids);
    var rest := IdSet(ids) - sel;
    assert IdSet(ids) == sel + rest;
    assert |IdSet(ids)| == |sel| + |rest|;
    if rest != {} {
      var x :| x in rest;
      assert |rest| >= 1;
    }
  }

  /** On a list of distinct ids, clicking "select all" twice from a partial selection ends with nothing selected. */
  lemma SelectAllTwice(sel: set<string>, ids: seq<string>)
    requires DistinctIds(ids) && |sel| != |ids|
    ensures SelectAll(SelectAll(sel, ids), ids) == {}
  {
    IdSetSize(ids);
  }
}

=== FILE: sorting.dfy ===
/**
 `Array.prototype.sort` with a numeric comparator (`(a, b) => key(a) - key(b)` or
 `key(b) - key(a)`). The sort is stable, so its result is fully determined: the
 elements ordered by key, equal keys in their original order. Insertion sort that
 puts each element before the equal-keyed ones already placed computes exactly that.
 */
module Sorting {
  import opened Common

  ghost predicate Ascending<T>(s: seq<T>, key: T -> int)
  {
    forall i, j :: 0 <= i < j < |s| ==> key(s[i]) <= key(s[j])
  }

  function Insert<T>(x: T, s: seq<T>, key: T -> int): (r: seq<T>)
    requires Ascending(s, key)
    ensures |r| == |s| + 1
    ensures multiset(r) == multiset(s) + multiset{x}
    ensures Ascending(r, key)
  {
    if |s| == 0 || key(x) <= key(s[0]) then [x] + s
    else
      var rest := Insert(x, s[1..], key);
      InsertBehind(x, s, rest, key);
      [s[0]] + rest
  }

  /** Putting the head back in front of the tail with `x` inserted keeps the order. */
  lemma InsertBehind<T>(x: T, s: seq<T>, rest: seq<T>, key: T -> int)
    requires |s| > 0 && key(x) > key(s[0]) && Ascending(s, key)
    requires multiset(rest) == multiset(s[1..]) + multiset{x} && Ascending(rest, key)
    ensures multiset([s[0]] + rest) == multiset(s) + multiset{x}
    ensures Ascending([s[0]] + rest, key)
  {
    Uncons(s);
    forall k | 0 <= k < |rest|
      ensures key(s[0]) <= key(rest[k])
    {
      assert rest[k] in multiset(rest);
      if rest[k] != x {
        assert rest[k] in multiset(s[1..]);
        var j :| 0 <= j < |s[1..]| && s[1..][j] == rest[k];
        assert s[j + 1] == rest[k];
      }
    }
  }

  /** The ascending stable sort by `key`. */
  function SortAsc<T>(s: seq<T>, key: T -> int): (r: seq<T>)
    ensures |r| == |s|
    ensures multiset(r) == multiset(s)
    ensures Ascending(r, key)
  {
    if |s| == 0 then []
    else
      assert s == [s[0]] + s[1..];
      Insert(s[0], SortAsc(s[1..], key), key)
  }

  function Negated<T>(key: T -> int): T -> int
  {
    x => -key(x)
  }

  /** The descending stable sort by `key` (`(a, b) => key(b) - key(a)`). */
  function SortDesc<T>(s: seq<T>, key: T -> int): (r: seq<T>)
    ensures |r| == |s|
    ensures multiset(r) == multiset(s)
    ensures forall i, j :: 0 <= i < j < |r| ==> key(r[i]) >= key(r[j])
  {
    var r := SortAsc(s, Negated(key));
    assert forall i, j :: 0 <= i < j < |r| ==> Negated(key)(r[i]) <= Negated(key)(r[j]);
    r
  }

  function KeyIs<T>(key: T -> int, k: int): T -> bool
  {
    x => key(x) == k
  }

  lemma SwapEmpty<T>(a: seq<T>, b: seq<T>, c: seq<T>)
    requires a == [] || b == []
    ensures a + (b + c) == b + (a + c)
  {
    if a == [] {
      assert a + (b + c) == b + c;
      assert a + c == c;
    } else {
      assert b + (a + c) == a + c;
      assert b + c == c;
    }
  }

  lemma {:induction false} InsertStable<T>(x: T, s: seq<T>, key: T -> int, k: int)
    requires Ascending(s, key)
    ensures Filter(Insert(x, s, key), KeyIs(key, k)) == Filter([x] + s, KeyIs(key, k))
    decreases |s|
  {
    var p := KeyIs(key, k);
    if |s| > 0 && key(x) > key(s[0]) {
      var s0, rest := s[0], s[1..];
      assert s == [s0] + rest;
      assert Ascending(rest, key);
      InsertStable(x, rest, key, k);
      var fx := if p(x) then [x] else [];
      var f0 := if p(s0) then [s0] else [];
      assert fx == [] || f0 == [];
      calc {
        Filter(Insert(x, s, key), p);
        { FilterCons(s0, Insert(x, rest, key), p); }
        f0 + Filter(Insert(x, rest, key), p);
        f0 + Filter([x] + rest, p);
        { FilterCons(x, rest, p); }
        f0 + (fx + Filter(rest, p));
        { SwapEmpty(f0, fx, Filter(rest, p)); }
        fx + (f0 + Filter(rest, p));
        { FilterCons(s0, rest, p); }
        fx + Filter(s, p);
        { FilterCons(x, s, p); }
        Filter([x] + s, p);
      }
    }
  }

  /**
   Stability: the elements sharing any one key keep their original relative order.
   Together with Ascending and the multiset equality this determines the result.
   */
  lemma StableStep<T>(x: T, sorted: seq<T>, orig: seq<T>, key: T -> int, k: int)
    requires Ascending(sorted, key)
    requires Filter(sorted, KeyIs(key, k)) == Filter(orig, KeyIs(key, k))
    ensures Filter(Insert(x, sorted, key), KeyIs(key, k)) == Filter([x] + orig, KeyIs(key, k))
  {
    var p := KeyIs(key, k);
    InsertStable(x, sorted, key, k);
    FilterCons(x, sorted, p);
    FilterCons(x, orig, p);
  }

  lemma {:induction false} SortAscStable<T>(s: seq<T>, key: T -> int, k: int)
    ensures Filter(SortAsc(s, key), KeyIs(key, k)) == Filter(s, KeyIs(key, k))
  {
    if |s| > 0 {
      var rest := SortAsc(s[1..], key);
      assert SortAsc(s, key) == Insert(s[0], rest, key);
      SortAscStable(s[1..], key, k);
      StableStep(s[0], rest, s[1..], key, k);
      Uncons(s);
    }
  }

  /** Sorting changes neither how many elements satisfy a predicate nor any sum. */
  lemma SortPreservesAggregates<T>(s: seq<T>, key: T -> int, p: T -> bool, f: T -> real)
    ensures Count(SortAsc(s, key), p) == Count(s, p)
    ensures SumOf(SortAsc(s, key), f) == SumOf(s, f)
    ensures Count(SortDesc(s, key), p) == Count(s, p)
    ensures SumOf(SortDesc(s, key), f) == SumOf(s, f)
  {
    PermutationInvariance(SortAsc(s, key), s, p, f);
    PermutationInvariance(SortDesc(s, key), s, p, f);
  }
}

=== FILE: store.dfy ===
/**
 The record store (db.ts) as operations on in-memory lists: save replaces the first
 record with the same id or appends, delete drops every record with the id, and a
 read keeps the records of one user. Trades, journal entries and rules share these
 operations; only the id and owner fields differ.
 */
module Store {
  import opened Common
  import opened Records

  /** `findIndex(x => id(x) === key)`: the first position holding the id, or -1. */
  function IndexOf<T>(s: seq<T>, id: T -> string, key: string): (r: int)
    ensures -1 <= r < |s|
    ensures r == -1 <==> forall i :: 0 <= i < |s| ==> id(s[i]) != key
    ensures r >= 0 ==> id(s[r]) == key && forall j :: 0 <= j < r ==> id(s[j]) != key
  {
    if |s| == 0 then -1
    else if id(s[0]) == key then 0
    else
      var r := IndexOf(s[1..], id, key);
      if r == -1 then -1 else r + 1
  }

  /**
   `save`: a record whose id is already stored replaces the first such record in
   place; a new id is appended. Every other position keeps its record.
   */
  function Upsert<T>(s: seq<T>, id: T -> string, x: T): (r: seq<T>)
    ensures x in r
    ensures IndexOf(s, id, id(x)) >= 0 ==> |r| == |s| && r[IndexOf(s, id, id(x))] == x
    ensures IndexOf(s, id, id(x)) == -1 ==> |r| == |s| + 1 && r[|s|] == x
    ensures forall i :: 0 <= i < |s| && i != IndexOf(s, id, id(x)) ==> r[i] == s[i]
  {
    var i := IndexOf(s, id, id(x));
    if i > -1 then
      assert s[i := x][i] == x;
      s[i := x]
    else
      assert (s + [x])[|s|] == x;
      s + [x]
  }

  function Other<T>(id: T -> string, key: string): T -> bool
  {
    (x: T) => id(x) != key
  }

  /** `delete`: the records without the id, in their stored order. */
  function Delete<T>(s: seq<T>, id: T -> string, key: string): (r: seq<T>)
    ensures forall i :: 0 <= i < |r| ==> id(r[i]) != key
    ensures forall x :: x in s && id(x) != key ==> x in r
    ensures |r| == |s| - Count(s, (x: T) => id(x) == key)
    ensures multiset(r) <= multiset(s)
  {
    CountSplit(s, (x: T) => id(x) == key, Other(id, key));
    FilterSubMultiset(s, Other(id, key));
    Filter(s, Other(id, key))
  }

  /** Delete walks the list front to back: the head survives exactly when its id differs, ahead of the rest. */
  lemma DeleteCons<T>(x: T, s: seq<T>, id: T -> string, key: string)
    ensures Delete([x] + s, id, key) == (if id(x) == key then [] else [x]) + Delete(s, id, key)
  {
    FilterCons(x, s, Other(id, key));
  }

  /** Deleting from two stretches of the list one after the other keeps their order. */
  lemma DeleteAppend<T>(s: seq<T>, t: seq<T>, id: T -> string, key: string)
    ensures Delete(s + t, id, key) == Delete(s, id, key) + Delete(t, id, key)
  {
    FilterAppend(s, t, Other(id, key));
  }

  /** Saving a record under a new id and deleting that id gives back the stored list. */
  lemma {:induction false} SaveThenDelete<T>(s: seq<T>, id: T -> string, x: T)
    requires forall i :: 0 <= i < |s| ==> id(s[i]) != id(x)
    ensures Delete(Upsert(s, id, x), id, id(x)) == s
  {
    assert Upsert(s, id, x) == s + [x];
    FilterAppend(s, [x], Other(id, id(x)));
    FilterAll(s, Other(id, id(x)));
    assert Filter([x], Other(id, id(x))) == [];
  }

  /** Saving the same record twice stores it once. */
  lemma SaveTwice<T>(s: seq<T>, id: T -> string, x: T)
    ensures Upsert(Upsert(s, id, x), id, x) == Upsert(s, id, x)
  {
    var once := Upsert(s, id, x);
    var i := IndexOf(s, id, id(x));
    if i == -1 {
      assert IndexOf(once, id, id(x)) == |s|;
    } else {
      assert IndexOf(once, id, id(x)) == i;
    }
  }

  /** Deleting an id that is not stored changes nothing. */
  lemma DeleteAbsent<T>(s: seq<T>, id: T -> string, key: string)
    requires IndexOf(s, id, key) == -1
    ensures Delete(s, id, key) == s
  {
    FilterAll(s, Other(id, key));
  }

  function Owns<T>(owner: T -> string, userId: string): T -> bool
  {
    (x: T) => owner(x) == userId
  }

  /** The records of one user, as the `get…` reads filter them, in their stored order. */
  function OwnedBy<T>(s: seq<T>, owner: T -> string, userId: string): (r: seq<T>)
    ensures forall i :: 0 <= i < |r| ==> owner(r[i]) == userId
    ensures forall x :: x in r ==> x in s
    ensures forall x :: x in s && owner(x) == userId ==> x in r
    ensures multiset(r) <= multiset(s)
  {
    FilterSubMultiset(s, Owns(owner, userId));
    Filter(s, Owns(owner, userId))
  }

  /** The read walks the list front to back: the head is kept exactly when the user owns it, ahead of the rest. */
  lemma OwnedByCons<T>(x: T, s: seq<T>, owner: T -> string, userId: string)
    ensures OwnedBy([x] + s, owner, userId) == (if owner(x) == userId then [x] else []) + OwnedBy(s, owner, userId)
  {
    FilterCons(x, s, Owns(owner, userId));
  }

  /** Reading two stretches of the list one after the other keeps their order. */
  lemma OwnedByAppend<T>(s: seq<T>, t: seq<T>, owner: T -> string, userId: string)
    ensures OwnedBy(s + t, owner, userId) == OwnedBy(s, owner, userId) + OwnedBy(t, owner, userId)
  {
    FilterAppend(s, t, Owns(owner, userId));
  }

  function TradeId(t: Trade): string { t.id }
  function TradeOwner(t: Trade): string { t.userId }
  function EntryId(e: PsychologyEntry): string { e.id }
  function EntryOwner(e: PsychologyEntry): string { e.userId }
  function RuleId(r: TradingRule): string { r.id }
  function RuleOwner(r: TradingRule): string { r.userId }

  /** The three collections of the store. */
  datatype Db = Db(trades: seq<Trade>, psychology: seq<PsychologyEntry>, rules: seq<TradingRule>)

  /** `saveTrade`, `savePsychology`, `saveRule`. */
  function SaveTrade(db: Db, t: Trade): (r: Db)
    ensures r.trades == Upsert(db.trades, TradeId, t) && r.psychology == db.psychology && r.rules == db.rules
  {
    db.(trades := Upsert(db.trades, TradeId, t))
  }

  function SavePsychology(db: Db, e: PsychologyEntry): (r: Db)
    ensures r.psychology == Upsert(db.psychology, EntryId, e) && r.trades == db.trades && r.rules == db.rules
  {
    db.(psychology := Upsert(db.psychology, EntryId, e))
  }

  function SaveRule(db: Db, rule: TradingRule): (r: Db)
    ensures r.rules == Upsert(db.rules, RuleId, rule) && r.trades == db.trades && r.psychology == db.psychology
  {
    db.(rules := Upsert(db.rules, RuleId, rule))
  }

  /** `deleteTrade`, `deletePsychology`, `deleteRule`. */
  function DeleteTrade(db: Db, key: string): (r: Db)
    ensures r.trades == Delete(db.trades, TradeId, key)
    ensures forall i :: 0 <= i < |r.trades| ==> r.trades[i].id != key
    ensures r.psychology == db.psychology && r.rules == db.rules
  {
    db.(trades := Delete(db.trades, TradeId, key))
  }

  function DeletePsychology(db: Db, key: string): (r: Db)
    ensures r.psychology == Delete(db.psychology, EntryId, key)
    ensures forall i :: 0 <= i < |r.psychology| ==> r.psychology[i].id != key
    ensures r.trades == db.trades && r.rules == db.rules
  {
    db.(psychology := Delete(db.psychology, EntryId, key))
  }

  function DeleteRule(db: Db, key: string): (r: Db)
    ensures r.rules == Delete(db.rules, RuleId, key)
    ensures forall i :: 0 <= i < |r.rules| ==> r.rules[i].id != key
    ensures r.trades == db.trades && r.psychology == db.psychology
  {
    db.(rules := Delete(db.rules, RuleId, key))
  }

  /**
   The store as the app holds it: the collections kept in local storage, the
   anonymous session's in-memory arrays, and the signed-in user. An anonymous user's
   reads and writes go to the arrays; every other call goes to local storage.
   */
  datatype Session = Session(stored: Db, anonymous: Db, currentUser: Option<User>)

  /** `user?.isAnonymous`: a signed-in user whose flag is set. */
  predicate IsAnonymous(s: Session)
  {
    s.currentUser.Some? && s.currentUser.value.isAnonymous == Some(true)
  }

  /**
   A save or a delete, given as its effect on one `Db`: it changes the anonymous arrays
   in an anonymous session and local storage otherwise, never both, and never the user.
   */
  function Write(s: Session, op: Db -> Db): (r: Session)
    ensures r.currentUser == s.currentUser
    ensures IsAnonymous(s) ==> r.anonymous == op(s.anonymous) && r.stored == s.stored
    ensures !IsAnonymous(s) ==> r.stored == op(s.stored) && r.anonymous == s.anonymous
  {
    if IsAnonymous(s) then s.(anonymous := op(s.anonymous)) else s.(stored := op(s.stored))
  }

  /**
   `getTrades`, `getPsychology`, `getRules` before their sample-data fallback: an
   anonymous session gets its arrays whole, without the owner filter; everyone else
   gets exactly the stored records they own, in their stored order.
   */
  function Read<T>(s: Session, pick: Db -> seq<T>, owner: T -> string, userId: string): (r: seq<T>)
    ensures IsAnonymous(s) ==> r == pick(s.anonymous)
    ensures !IsAnonymous(s) ==> forall x :: x in r ==> x in pick(s.stored) && owner(x) == userId
    ensures !IsAnonymous(s) ==> forall x :: x in pick(s.stored) && owner(x) == userId ==> x in r
    ensures !IsAnonymous(s) ==> r == OwnedBy(pick(s.stored), owner, userId)
  {
    if IsAnonymous(s) then pick(s.anonymous) else OwnedBy(pick(s.stored), owner, userId)
  }

  function Trades(db: Db): seq<Trade> { db.trades }

  /** `setCurrentUser(user)`: only the signed-in user changes. */
  function SignIn(s: Session, u: User): (r: Session)
    ensures r.currentUser == Some(u) && r.stored == s.stored && r.anonymous == s.anonymous
  {
    s.(currentUser := Some(u))
  }

  /**
   `setCurrentUser(null)`: nobody is signed in and the anonymous arrays are emptied;
   local storage keeps every collection.
   */
  function SignOut(s: Session): (r: Session)
    ensures r.currentUser == None && !IsAnonymous(r)
    ensures r.stored == s.stored
    ensures |r.anonymous.trades| == 0 && |r.anonymous.psychology| == 0 && |r.anonymous.rules| == 0
  {
    Session(s.stored, Db([], [], []), None)
  }

  /** After signing out, reads come from local storage again, filtered by owner, whatever the session held. */
  lemma SignOutKeepsStored<T>(s: Session, pick: Db -> seq<T>, owner: T -> string, userId: string)
    ensures Read(SignOut(s), pick, owner, userId) == OwnedBy(pick(s.stored), owner, userId)
  {
  }

  /** An anonymous session's read also returns records that carry another owner's id. */
  lemma AnonymousReadUnfiltered(s: Session, t: Trade, userId: string)
    requires IsAnonymous(s) && s.anonymous.trades == [t] && t.userId != userId
    ensures Read(s, Trades, TradeOwner, userId) == [t]
    ensures OwnedBy(s.anonymous.trades, TradeOwner, userId) == []
  {
    assert [t][1..] == [];
  }

  /** After signing out, a saved trade goes to local storage and the anonymous arrays stay empty. */
  lemma SaveAfterSignOut(s: Session, t: Trade)
    ensures var r := Write(SignOut(s), (db: Db) => SaveTrade(db, t));
            r.stored.trades == Upsert(s.stored.trades, TradeId, t) && r.anonymous.trades == []
  {
  }

  /**
   Outside an anonymous session, saving a trade under a new id puts it at the end of
   its owner's read: the newest trade is the last one listed.
   */
  lemma SaveNewTradeReadsLast(s: Session, t: Trade)
    requires !IsAnonymous(s) && IndexOf(s.stored.trades, TradeId, t.id) == -1
    ensures var r := Write(s, (db: Db) => SaveTrade(db, t));
            Read(r, Trades, TradeOwner, t.userId) == Read(s, Trades, TradeOwner, t.userId) + [t]
  {
    var ts := s.stored.trades;
    var saved := Upsert(ts, TradeId, t);
    assert saved == ts + [t];
    OwnedByAppend(ts, [t], TradeOwner, t.userId);
    OwnedByCons(t, [], TradeOwner, t.userId);
    assert [t] + [] == [t];
  }
}

=== FILE: tradeform.dfy ===
/**
 The trade form and log (pages/Trades.tsx): the P/L field is an unsigned amount with
 a profit/loss switch, opening a trade splits its P/L into the two, saving joins
 them again, and the log lists trades newest first. The text of the amount field is
 represented by the number `parseFloat` reads from it (None where it reads NaN).
 */
module TradeForm {
  import opened Common
  import opened Records
  import Sorting

  datatype PlMode = Profit | Loss

  /** The amount field and the profit/loss switch. */
  datatype PlInput = PlInput(amount: Option<real>, mode: PlMode)

  /** `parseFloat(plString) || 0`: an unreadable amount counts as 0. */
  function Amount(amount: Option<real>): real
  {
    match amount
    case Some(v) => v
    case None => 0.0
  }

  /** The signed P/L the form saves: the amount in profit mode, its negation in loss mode. */
  function SignedPL(p: PlInput): (pl: real)
    ensures pl == Amount(p.amount) || pl == -Amount(p.amount)
    ensures Amount(p.amount) >= 0.0 ==> (p.mode == Profit ==> pl >= 0.0) && (p.mode == Loss ==> pl <= 0.0)
    ensures p.amount.None? ==> pl == 0.0
  {
    var v := Amount(p.amount);
    if p.mode == Profit then v else -v
  }

  /** `handleOpenModal(trade)`: the amount is |P/L| and the switch shows profit iff P/L >= 0. */
  function OpenForEdit(t: Trade): (p: PlInput)
    ensures p.amount.Some? && p.amount.value >= 0.0
    ensures p.mode == Profit <==> t.profitLoss >= 0.0
  {
    var pl := t.profitLoss;
    PlInput(Some(if pl < 0.0 then -pl else pl), if pl >= 0.0 then Profit else Loss)
  }

  /** The form of a new trade: amount "0" in profit mode. */
  const NewInput: PlInput := PlInput(Some(0.0), Profit)

  /** Opening a trade and saving it without touching the P/L fields keeps its P/L. */
  lemma OpenSaveRoundTrip(t: Trade)
    ensures SignedPL(OpenForEdit(t)) == t.profitLoss
  {
  }

  /**
   `handleSave`: the form's fields with the signed P/L, the edited trade's id (a fresh
   one for a new trade) and the current user's id; nothing else differs from the form.
   */
  function SaveTrade(form: Trade, p: PlInput, editing: Option<string>, freshId: string, userId: string): (r: Trade)
    ensures r.profitLoss == SignedPL(p) && r.userId == userId
    ensures editing.Some? && editing.value != "" ==> r.id == editing.value
    ensures editing.None? ==> r.id == freshId
    ensures r.(profitLoss := form.profitLoss, id := form.id, userId := form.userId) == form
  {
    form.(profitLoss := SignedPL(p), id := SavedId(editing, freshId), userId := userId)
  }

  /** Editing a trade of one's own and saving it unchanged stores the very same trade. */
  lemma EditSaveRoundTrip(t: Trade, freshId: string)
    requires t.id != ""
    ensures SaveTrade(t, OpenForEdit(t), Some(t.id), freshId, t.userId) == t
  {
    OpenSaveRoundTrip(t);
  }

  /** `sortedTrades`: the same trades, newest date first. */
  function Displayed(ts: seq<Trade>): (r: seq<Trade>)
    ensures multiset(r) == multiset(ts)
    ensures forall i, j :: 0 <= i < j < |r| ==> TradeDay(r[i]) >= TradeDay(r[j])
  {
    Sorting.SortDesc(ts, TradeDay)
  }
}
